=== FILE: README.md ===
# KrishiMitra core in Dafny

KrishiMitra is a farming-assistant web client. It has no server logic of its own: every screen reads a fixed table from the `assets` object, and the "AI" features are the simulated helpers of `aiHelpers`. This project models that deterministic core as pure Dafny functions over immutable records and sequences, and proves what the code promises about them.

- **AI helpers** (module `AiHelpers`):
  - disease detection;
  - crop recommendation (the top three crops of a season by profitability);
  - market price prediction;
  - insurance claim analysis;
  - farm-plan generation;
  - crop-failure prediction;
  - loan ranking.

  Every `Math.random()` call is a real parameter `u` with `0 <= u < 1` (module `Random`). So `Math.floor(Math.random() * k) + c` is an integer in `[c, c + k - 1]`, and a lemma shows every integer in that range is reached.
- **Chat assistant** (`Chatbot`): a blank-input guard, a log that only grows, and a first-match keyword router over lower-cased text.
- **Shop** (`Ecommerce`): a case-insensitive name search and an append-only cart.
- **Expense calculator** (`ExpenseCalculator`): totals, net profit, the ratios derived from them, and the cells of the expense table.
  - Ratios are JavaScript numbers (`JsNumber.Num`), so a zero denominator gives an infinity or NaN rather than an error.
- **Weather screen** (`WeatherForecast`): icon and background switches, the advice colour, the rain, humidity and temperature notes, and the selected day.
- **Disease-detection screen** (`DiseaseDetection`): the drag flag, the image guard, analyse and reset, and the severity colour.
- **Crop-recommendation screen** (`CropRecommendationScreen`) and **crop-failure screen** (`CropFailureScreen`): badge bands, the BEST MATCH card and the factor bars.

Support modules:
- `Text`: ASCII `toLowerCase`, `includes`, `startsWith`, `trim`, and decimal numerals.
- `Sorting`: `Array.prototype.sort` with a descending numeric comparator, as a stable insertion sort on sequences.
- `Tables`: the static data, as fixed inputs.
- `Options`.

Where a helper reads a table, the model takes the table as a parameter. Lemmas then pin down the result on the shipped table.

## Model

| member | source | states |
|---|---|---|
| Random.Draw | client/src/assets.js:429 | `Math.floor(Math.random() * k) + c` lies in `[c, c + k - 1]` |
| Random.DrawReaches | client/src/assets.js:429 | every integer of `[c, c + k - 1]` is produced by some draw, so the range is exact |
| Text.Lower | client/src/components/Chatbot.jsx:21 | ASCII lower-casing: the length is kept, and each character is mapped on its own, 'A'..'Z' to 'a'..'z' and every other character to itself |
| Text.LowerIdempotent | client/src/components/Chatbot.jsx:21 | lower-casing twice is lower-casing once |
| Text.ContainsIffOccurs | client/src/components/Chatbot.jsx:24-30 | `includes` holds exactly when the substring occurs at some position |
| Text.ContainsLower | client/src/components/EcommercePlatform.jsx:22-24 | a case-sensitive match is still a match after lower-casing both strings |
| Text.MissingCharNotContained | client/src/components/Chatbot.jsx:24-30 | a string that lacks one of `sub`'s characters does not include `sub` |
| Text.Numeral | client/src/components/ExpenseCalculator.jsx:283 | `String(n)` for a natural number: a non-empty digit string that starts with '0' only for 0 |
| Text.NumeralValue | client/src/assets.js:473 | reading a numeral's digits back gives its number |
| Text.TrimEmptyIffBlank | client/src/components/Chatbot.jsx:14 | `trim()` is empty exactly for strings made only of white space |
| JsNumber.Div | client/src/components/ExpenseCalculator.jsx:30 | JavaScript division: finite with `r * b == a` for a non-zero divisor; otherwise NaN for 0/0 and an infinity signed like the dividend |
| JsNumber.MaxWith | client/src/components/ExpenseCalculator.jsx:341 | `Math.max(lo, x)`: NaN propagates, a finite result is at least `lo` and equals `lo` or `x`, never -Infinity |
| Sorting.SortDesc | client/src/assets.js:444 | the sort returns a permutation of its input (same multiset, same length) |
| Sorting.SortDescSorted | client/src/assets.js:444 | the sort's output has non-increasing keys |
| Sorting.SortDescOfSorted | client/src/assets.js:444 | a sequence already in order is returned unchanged |
| Sorting.SortDescStable | client/src/assets.js:444 | the sort is stable: for every key value, the elements with that key come out in their input order |
| Sorting.RankFour | client/src/assets.js:444 | four elements with distinct keys come out in key order |
| Sorting.TopOfSorted | client/src/assets.js:444-445 | after sorting, no element past the first `k` outranks any of the first `k` |
| Sorting.MapSeqPermutation | client/src/assets.js:552-558 | mapping a permutation yields a permutation of the mapped sequence |
| AiHelpers.DetectDisease | client/src/assets.js:424-438 | the detection is a table disease, the confidence lies in [80, 99], and the four fixed recommendations are attached |
| AiHelpers.EveryDetectionReachable | client/src/assets.js:426-429 | every table disease with every confidence in [80, 99] is a possible detection |
| AiHelpers.LookupSeason | client/src/assets.js:442 | the season key is the lower-cased name; any name that is not a key falls back to kharif |
| AiHelpers.SeasonKeysSelectOwnTable | client/src/assets.js:442 | each key selects its own table, in any letter case ("RABI" selects rabi) |
| AiHelpers.TopCrops | client/src/assets.js:443-450 | `min(3, n)` crops drawn from the table; suitability in [80, 99] and risk in [10, 39] |
| AiHelpers.TopCropsPrefix | client/src/assets.js:443-445 | the crops kept are the first ones of the sorted table |
| AiHelpers.TopCropsAreTop | client/src/assets.js:443-445 | the result is ordered by non-increasing profitability, and no crop left out beats a crop kept |
| AiHelpers.RecommendCrops | client/src/assets.js:441-451 | `min(3, n)` crops of the named season (kharif by default), a sub-multiset of its table, sorted, the most profitable ones, with scores and risks in range; soil and region are ignored |
| AiHelpers.KharifRecommendation | client/src/assets.js:442-445 | on the shipped tables any season other than rabi or zaid yields Sugarcane, Rice, Cotton in that order |
| AiHelpers.KharifRanking | client/src/assets.js:444 | the shipped kharif table sorts to Sugarcane, Rice, Cotton, Maize |
| AiHelpers.FourCropRanking | client/src/assets.js:444 | four crops whose profitabilities rank third, first, second, fourth come out of the sort in profitability order |
| AiHelpers.TopThreeOfFour | client/src/assets.js:443-445 | from such a four-crop table the recommendation keeps the three most profitable, highest first, and drops the least profitable |
| AiHelpers.FindPrice | client/src/assets.js:455 | the first quote's price for the crop; 2000 when the crop is not quoted or its price is 0; never 0 |
| AiHelpers.CurrentPriceLookup | client/src/assets.js:455 | a listed crop gets its listed price and any other crop gets 2000 |
| AiHelpers.CurrentPrice | client/src/assets.js:455 | the price looked up in the shipped quotes is always positive |
| AiHelpers.Volatility | client/src/assets.js:456 | `Math.random() * 0.2 - 0.1` lies in [-0.1, 0.1) |
| AiHelpers.PriceBand | client/src/assets.js:456-457 | `floor(p * (1 + v))` is at least `floor(0.9 p)` and below `1.1 p` for a positive `p` |
| AiHelpers.PredictFrom | client/src/assets.js:456-464 | for a current price `p` the prediction stays within 10% of `p`; `change` is the difference; `changePercent * p == change * 100`; confidence in [75, 94] |
| AiHelpers.PredictPrices | client/src/assets.js:454-467 | the current price comes from the lookup with its 2000 fallback; the prediction stays within 10%; `change` is the difference; `changePercent * p == change * 100`; confidence in [75, 94] |
| AiHelpers.RicePredictionBand | client/src/assets.js:455-457 | for Rice (2150) the prediction lies in [1935, 2364] and both ends occur |
| AiHelpers.FindPolicy | client/src/assets.js:472 | no result exactly when no policy covers the crop; otherwise the first policy of the list for that crop |
| AiHelpers.StripCurrency | client/src/assets.js:473 | `replace(/[₹,]/g, '')` keeps exactly the characters other than '₹' and ',' |
| AiHelpers.ToNumber | client/src/assets.js:473 | the model's digit-only coercion gives NaN or a finite whole number that is not negative; a blank string gives 0 |
| AiHelpers.ToNumberOfNumeral | client/src/assets.js:473 | coercing the numeral of `n` gives `n` back |
| AiHelpers.ToNumberNaN | client/src/assets.js:473 | in the model's digit-only coercion, a string holding a character that is neither a digit nor white space gives NaN |
| AiHelpers.ClaimAmount | client/src/assets.js:473 | the amount as written: 0 without a policy, NaN when the coverage text holds '/' |
| AiHelpers.ClaimAmountAgreesWithoutSlash | client/src/assets.js:473 | for a coverage that strips to plain digits the amount as written is finite and equals the corrected `floor(coverage * damage / 100)`, so the '/' alone causes the NaN |
| AiHelpers.AnalyzeInsuranceClaim | client/src/assets.js:470-493 | damage in [20, 79]; severity Severe above 60, Moderate above 40, else Minor; eligible iff damage >= 33, with the matching reason; damage type from the four kinds; area in [10, 59]; the amount is the as-written claim amount of the first policy for the crop at the drawn damage: 0 without a policy, NaN when every coverage holds '/' |
| AiHelpers.SeverityOf | client/src/assets.js:480 | Severe exactly above 60, Moderate exactly in (40, 60], Minor exactly at 40 or below |
| AiHelpers.DamageRangeExact | client/src/assets.js:471 | every damage in [20, 79] occurs, so the comment's 80 never does |
| AiHelpers.ShippedCoverageHasSlash | client/src/assets.js:171-185 | both shipped coverage texts contain '/' |
| AiHelpers.InsuredClaimAmountIsNaN | client/src/assets.js:472-473 | for Cotton and Wheat the estimated amount is NaN on every draw |
| AiHelpers.ClaimAmountCorrected | client/src/assets.js:473 | corrected amount: 0 without a policy, else `floor(coverage * damage / 100)`, between 0 and the per-acre coverage |
| AiHelpers.ShippedCoverageValues | client/src/assets.js:171-185 | the shipped per-acre coverages are 50000 (Cotton) and 35000 (Wheat) |
| AiHelpers.ShippedPolicyLookup | client/src/assets.js:472 | `find` by crop name returns the Cotton policy for "Cotton" and the Wheat policy for "Wheat" |
| AiHelpers.CorrectedInsuredAmounts | client/src/assets.js:472-473 | with the correction, Cotton pays 500 and Wheat 350 per point of damage |
| AiHelpers.GenerateFarmPlan | client/src/assets.js:496-515 | one entry per activity, in order, with the activity unchanged; weather flag iff the name equals a list entry; cost in [1000, 5999] |
| AiHelpers.OnlyBareIrrigationFlagged | client/src/assets.js:512 | the only flagged name that contains "Irrigation" is "Irrigation" itself |
| AiHelpers.GenerateFarmPlanCorrected | client/src/assets.js:512 | corrected flag: sowing, pest monitoring, and any name containing "Irrigation" |
| AiHelpers.CorrectionAddsIrrigation | client/src/assets.js:512 | the corrected weather flag holds exactly when the shipped flag holds or the name contains "Irrigation" |
| AiHelpers.ShippedPlanFlags | client/src/assets.js:497-512 | on the shipped template only Sowing/Planting and Pest Monitoring are flagged; the corrected flag adds both irrigations |
| AiHelpers.ShippedIrrigationNames | client/src/assets.js:497-507 | only the two irrigation activities contain "Irrigation" |
| AiHelpers.PredictCropFailure | client/src/assets.js:518-547 | factors in weather [10, 49], pest [5, 34], disease [5, 39], soil [5, 29], market [5, 24]; the score is the floor of the mean and lies in [6, 35]; the level is the band of the mean and always Low |
| AiHelpers.LevelOf | client/src/assets.js:531 | High exactly above 70, Medium exactly in (40, 70], Low exactly at 40 or below |
| AiHelpers.ApprovalProbability | client/src/assets.js:554 | `min(95, floor(score / 10) + 20u)` never exceeds 95 and lies in [min(95, floor(score/10)), floor(score/10) + 20) |
| AiHelpers.LoanEntries | client/src/assets.js:552-557 | one entry per loan, in table order; entry i takes its approval and EMI from the i-th draws (approval in range, EMI in [5000, 19999]) and amount `floor(farmSize * 50000)` |
| AiHelpers.RecommendLoans | client/src/assets.js:550-559 | the result is a permutation of the per-loan entries (each loan keeps its own approval, amount and EMI), sorted by non-increasing approval, with entries of equal approval in table order (stable sort); each entry's bounds kept |
| AiHelpers.ShippedLoanProfile | client/src/assets.js:550-559 | for the shipped credit score 785 and 5.5 acres every loan recommends 275000 with approval in [78, 95] |
| Chatbot.FirstMatch | client/src/components/Chatbot.jsx:22-30 | the topic of the first keyword group that matches, or weather when none does |
| Chatbot.Route | client/src/components/Chatbot.jsx:21-30 | the answer is the first-match scan of the keyword table over the lower-cased text |
| Chatbot.ChainIsFirstMatch | client/src/components/Chatbot.jsx:22-30 | the if-chain picks the first keyword group with a word in the text, and weather when none has one |
| Chatbot.RouteIgnoresCase | client/src/components/Chatbot.jsx:21 | routing ignores letter case |
| Chatbot.NoKeywordMeansWeather | client/src/components/Chatbot.jsx:22 | text without any keyword gets the weather answer |
| Chatbot.WatermelonIsIrrigation | client/src/components/Chatbot.jsx:21-29 | "watermelon", in any case, routes to irrigation through "water" |
| Chatbot.SendMessage | client/src/components/Chatbot.jsx:13-37 | blank input changes nothing and schedules nothing; otherwise the raw text is appended, the input cleared and a reply routed on the sent text scheduled |
| Chatbot.DeliverReply | client/src/components/Chatbot.jsx:33 | the reply is appended; earlier messages and the input are untouched |
| Chatbot.SendThenReply | client/src/components/Chatbot.jsx:17-33 | a send followed by its reply adds the user's text and then the bot's answer |
| Chatbot.LogOnlyGrows | client/src/components/Chatbot.jsx:7-37 | typing, sending and replying never remove or change an earlier message |
| Ecommerce.FilterProducts | client/src/components/EcommercePlatform.jsx:22-24 | a product is kept iff it is in the category and its lower-cased name contains the lower-cased query |
| Ecommerce.MatchingIndices | client/src/components/EcommercePlatform.jsx:22-24 | the positions of the matches, strictly increasing |
| Ecommerce.FilterIsOrderedSelection | client/src/components/EcommercePlatform.jsx:22-24 | the filter's result is the category read at the increasing positions of the matches |
| Ecommerce.EmptyQueryKeepsAll | client/src/components/EcommercePlatform.jsx:22-24 | an empty query keeps the whole category |
| Ecommerce.FilterIdempotent | client/src/components/EcommercePlatform.jsx:22-24 | filtering twice with one query is filtering once |
| Ecommerce.NoProductsMessage | client/src/components/EcommercePlatform.jsx:161-165 | "No products found" shows iff no product of the category matches |
| Ecommerce.BrandIsNotSearched | client/src/components/EcommercePlatform.jsx:22-24 | searching the seeds' brand "Mahyco" finds nothing |
| Ecommerce.AddToCart | client/src/components/EcommercePlatform.jsx:18-20 | the product is appended; length grows by one; earlier items are unchanged; duplicates are allowed |
| Ecommerce.AddAllAppends | client/src/components/EcommercePlatform.jsx:18-20 | successive adds append the products in order |
| Ecommerce.BadgeCountsAdds | client/src/components/EcommercePlatform.jsx:59-61 | after any run of adds the badge shows exactly when the cart is non-empty, and shows the items already there plus those added |
| ExpenseCalculator.CalculateTotal | client/src/components/ExpenseCalculator.jsx:18-20 | 0 on an empty list, non-negative for non-negative totals |
| ExpenseCalculator.CalculateTotalIsSum | client/src/components/ExpenseCalculator.jsx:18-20 | `calculateTotal` is the sum of the records' totals |
| ExpenseCalculator.CalculateTotalAppend | client/src/components/ExpenseCalculator.jsx:18-20 | the total of a concatenation is the sum of the totals |
| ExpenseCalculator.TotalIsSumOfCategories | client/src/components/ExpenseCalculator.jsx:22-24 | the total of the flattened ledger equals the sum of the per-category totals |
| ExpenseCalculator.NetProfit | client/src/components/ExpenseCalculator.jsx:29 | net profit plus expenses is income |
| ExpenseCalculator.PercentOf | client/src/components/ExpenseCalculator.jsx:210 | `x / y * 100`: finite with `r * y == x * 100` for `y != 0`, else NaN or a signed infinity |
| ExpenseCalculator.ProfitMargin | client/src/components/ExpenseCalculator.jsx:30 | with income the margin `r` is finite with `r * income == profit * 100`, non-negative iff there is a profit, and at most 100 iff the profit does not exceed the income; without income it is NaN for zero profit and an infinity signed like the profit otherwise |
| ExpenseCalculator.BreakEven | client/src/components/ExpenseCalculator.jsx:312 | with income the break-even share `r` is finite with `r * income == expenses * 100`, and at most 100 iff the income covers the expenses; without income it is NaN or a signed infinity |
| ExpenseCalculator.Roi | client/src/components/ExpenseCalculator.jsx:316 | with expenses the return `r` is finite with `r * expenses == profit * 100`, and non-negative iff there is a profit; without expenses it is NaN or a signed infinity |
| ExpenseCalculator.PerHectare | client/src/components/ExpenseCalculator.jsx:304-308 | cost and revenue per hectare times 5 is the total |
| ExpenseCalculator.BreakEvenPlusMargin | client/src/components/ExpenseCalculator.jsx:312 | with income, the break-even share plus the profit margin of line 30 is 100 |
| ExpenseCalculator.SharesSumTo100 | client/src/components/ExpenseCalculator.jsx:210 | shares of a non-zero total over its parts add up to 100 |
| ExpenseCalculator.CategorySharesSumTo100 | client/src/components/ExpenseCalculator.jsx:208-210 | with expenses, the category percentages add up to 100 before rounding |
| ExpenseCalculator.IncomeSharesSumTo100 | client/src/components/ExpenseCalculator.jsx:236-237 | with income, the income records' percentages add up to 100 before rounding |
| ExpenseCalculator.Reinvestment | client/src/components/ExpenseCalculator.jsx:341 | `max(10, margin / 2)`: at least 10 when finite, half the margin from 20 up, NaN iff the margin is NaN |
| ExpenseCalculator.ReinvestmentNeverBelowTen | client/src/components/ExpenseCalculator.jsx:341 | the share is never below 10 and never -Infinity; NaN iff income and expenses are both 0; +Infinity iff there is no income and expenses are negative |
| ExpenseCalculator.ShippedCategoryTotals | client/src/assets.js:139-162 | the shipped categories total 3350, 19600, 31800, 3850 and 12000 |
| ExpenseCalculator.ShippedTotals | client/src/components/ExpenseCalculator.jsx:22-29 | the shipped ledger gives expenses 70600, income 771000 and net profit 700400, shown in the positive style |
| ExpenseCalculator.QuantityCell | client/src/components/ExpenseCalculator.jsx:283 | the cell is never empty, and it reads '-' only when the quantity text is itself '-' |
| ExpenseCalculator.QuantityDashUnreachable | client/src/components/ExpenseCalculator.jsx:283 | without a quantity the cell is "workers × days" and never the '-' fallback |
| ExpenseCalculator.RateCell | client/src/components/ExpenseCalculator.jsx:284 | the rate when truthy, else '-' |
| ExpenseCalculator.NameCell | client/src/components/ExpenseCalculator.jsx:282 | the name cell is non-empty iff item, activity or description is truthy |
| WeatherForecast.WeatherIcon | client/src/components/WeatherForecast.jsx:19-29 | on the lower-cased condition: sun iff "sunny" or unknown, cloud iff "partly cloudy" or "cloudy", rain cloud iff "rainy", lightning iff "thunderstorm", snow cloud iff "snow" |
| WeatherForecast.WeatherGradient | client/src/components/WeatherForecast.jsx:31-40 | on the lower-cased condition: yellow-orange iff "sunny", gray-slate iff "cloudy", blue-indigo iff "rainy", purple-indigo iff "thunderstorm", blue-cyan iff "partly cloudy", "snow" or unknown |
| WeatherForecast.ConditionCaseIgnored | client/src/components/WeatherForecast.jsx:19-40 | icon and background ignore letter case |
| WeatherForecast.IconAndGradientAgree | client/src/components/WeatherForecast.jsx:19-40 | only snow and partly cloudy have the default background with a non-sun icon |
| WeatherForecast.FarmingAdviceColor | client/src/components/WeatherForecast.jsx:47-52 | the chain in priority order: green iff Perfect or Excellent occurs; blue iff no praise but Good occurs; red iff neither of those but Postpone or Stay indoors occurs; yellow iff none of the keywords occurs |
| WeatherForecast.LowerCaseAdviceIsYellow | client/src/components/WeatherForecast.jsx:47-52 | the test is case-sensitive: lower-case advice is always yellow |
| WeatherForecast.RainBand | client/src/components/WeatherForecast.jsx:296-320 | heavy-rain alert iff above 20, light rain iff in (5, 20], clear iff at most 5 |
| WeatherForecast.TemperatureRemark | client/src/components/WeatherForecast.jsx:338 | high above 35, low below 15, optimal otherwise, read from the day's high only |
| WeatherForecast.Notes | client/src/components/WeatherForecast.jsx:285-338 | the panel is green iff the advice praises, blue iff it does not but says Good, red iff it does neither but warns; heavy-rain alert iff rainfall above 20, light rain iff in (5, 20]; humidity alert iff above 80; high-temperature remark iff the high is above 35, low iff below 15 |
| WeatherForecast.ShippedWeekNotes | client/src/assets.js:17-25 | in the shipped week, heavy rain falls on days 3 and 6, light rain on days 4 and 7, humidity alerts come on days 3 and 6, and the temperature is optimal every day |
| WeatherForecast.ShippedWeekColors | client/src/assets.js:17-25 | the shipped week's advice boxes are green, blue, red, yellow, green, red, blue |
| WeatherForecast.ShippedRedDays | client/src/assets.js:17-25 | the red advice boxes of the shipped week are on days 3 and 6 only |
| WeatherForecast.ShippedDayNotes | client/src/assets.js:17-25 | on every shipped day the temperature is optimal, and the red box, the heavy-rain alert and the humidity alert come together |
| WeatherForecast.ClickDay | client/src/components/WeatherForecast.jsx:175-186 | a click selects that card's index, which is a valid forecast index |
| WeatherForecast.ClicksKeepValid | client/src/components/WeatherForecast.jsx:175-186 | from the start, any run of card clicks leaves a valid index, namely the last card clicked |
| WeatherForecast.ActiveNotes | client/src/components/WeatherForecast.jsx:285-338 | whatever day is selected, the temperature is optimal, and the red box, the heavy-rain alert and the humidity alert come together |
| WeatherForecast.PanelShowsLastClick | client/src/components/WeatherForecast.jsx:11-338 | the panel shows the notes of the last card clicked, and of the first day before any click |
| DiseaseDetection.HandleDrag | client/src/components/DiseaseDetection.jsx:16-24 | dragenter and dragover set the flag; dragleave clears it; other events change nothing; only the flag ever changes |
| DiseaseDetection.HandleFile | client/src/components/DiseaseDetection.jsx:36-43 | a file is selected iff its MIME type starts with "image/"; otherwise nothing changes |
| DiseaseDetection.HandleFirstFile | client/src/components/DiseaseDetection.jsx:26-49 | only the first file is handled; an empty list changes nothing |
| DiseaseDetection.HandleDrop | client/src/components/DiseaseDetection.jsx:26-34 | a drop always clears the flag; a first file that is an image becomes the selection, and a newly selected image is always the first file and an image |
| DiseaseDetection.HandleFileSelect | client/src/components/DiseaseDetection.jsx:45-49 | the picker keeps the drag flag, preview, result and analysing flag; it selects a first file that is an image, and the selection changes only to such a file |
| DiseaseDetection.PreviewLoaded | client/src/components/DiseaseDetection.jsx:40 | the preview becomes the data URL; every other field is kept |
| DiseaseDetection.DropReadsFirstFileOnly | client/src/components/DiseaseDetection.jsx:31-33 | two drops that agree on their first file give the same screen |
| DiseaseDetection.NonImageIgnored | client/src/components/DiseaseDetection.jsx:36-49 | a non-image first file leaves image and preview unchanged |
| DiseaseDetection.AnalyzeImage | client/src/components/DiseaseDetection.jsx:51-54 | without an image nothing happens; otherwise the analysing flag goes up |
| DiseaseDetection.AnalysisFinished | client/src/components/DiseaseDetection.jsx:57-61 | the stored result is a table disease with confidence in [80, 99], and the flag goes down |
| DiseaseDetection.ResetAnalysis | client/src/components/DiseaseDetection.jsx:64-69 | image, preview, result and flag are cleared; the drag flag is kept |
| DiseaseDetection.ResetShowsEmptyState | client/src/components/DiseaseDetection.jsx:64-69 | after a reset the empty panel shows, analysing is a no-op, and a second reset changes nothing |
| DiseaseDetection.DropAnalyzeFinish | client/src/components/DiseaseDetection.jsx:26-61 | dropping an image, analysing and letting the timer fire shows a result and not the empty panel |
| DiseaseDetection.GetSeverityColor | client/src/components/DiseaseDetection.jsx:71-79 | the four lower-cased severities get their colours; everything else is gray |
| DiseaseDetection.SeverityCaseIgnored | client/src/components/DiseaseDetection.jsx:72 | the badge ignores letter case |
| DiseaseDetection.TableSeveritiesColoured | client/src/assets.js:29-70 | every severity in the disease table gets a non-gray colour |
| CropRecommendationScreen.ProfitBadge | client/src/components/CropRecommendation.jsx:196-200 | green iff at least 85, yellow iff in [75, 85), red otherwise |
| CropRecommendationScreen.RiskBadge | client/src/components/CropRecommendation.jsx:274-278 | green iff at most 20, yellow iff in (20, 35], red otherwise |
| CropRecommendationScreen.ShippedProfitBadges | client/src/components/CropRecommendation.jsx:185-200 | the shipped season tables' badges, crop by crop |
| CropRecommendationScreen.HighlightsOf | client/src/components/CropRecommendation.jsx:341-343 | green check iff suitability >= 85, blue check iff risk <= 20, trend iff profitability >= 80 |
| CropRecommendationScreen.HighlightsAgreeWithBadges | client/src/components/CropRecommendation.jsx:341-343 | the blue check appears exactly with a green risk badge; a green profit badge implies the trend icon and a red one excludes it |
| CropRecommendationScreen.SelectSeason | client/src/components/CropRecommendation.jsx:24-28 | a season button selects one of the three defined keys |
| CropRecommendationScreen.GenerateRecommendations | client/src/components/CropRecommendation.jsx:19-22 | stores exactly three cards drawn from the season the key names (kharif for an unknown key), most profitable first, with no crop left out beating one kept; scores in [80, 99] and risks in [10, 39]; season and filters kept |
| CropRecommendationScreen.RecommendationsFromShownSeason | client/src/components/CropRecommendation.jsx:19-22 | the helper's fallback is never taken: the recommendations come from the season list on screen |
| CropRecommendationScreen.BestMatchIsMostProfitable | client/src/components/CropRecommendation.jsx:251-263 | the BEST MATCH card (index 0) has the highest profitability among the results and the season's crops |
| CropRecommendationScreen.BestMatchOver | client/src/components/CropRecommendation.jsx:251-263 | for any crop tables, the first recommendation of a season is at least as profitable as every other recommendation and every crop of that season |
| CropFailureScreen.GetRiskColor | client/src/components/CropFailurePrediction.jsx:15-22 | High red, Medium yellow, Low green, any other string gray; the match is exact |
| CropFailureScreen.LevelColorsDistinct | client/src/components/CropFailurePrediction.jsx:15-22 | every level gets its own non-gray colour |
| CropFailureScreen.FactorBarColor | client/src/components/CropFailurePrediction.jsx:72 | red iff above 70, yellow iff in (40, 70], green otherwise |
| CropFailureScreen.FactorBars | client/src/components/CropFailurePrediction.jsx:66-73 | one bar per factor, in the factors' order |
| CropFailureScreen.SelectCrop | client/src/components/CropFailurePrediction.jsx:40 | the picker sets the crop and keeps the stored prediction |
| CropFailureScreen.GeneratePrediction | client/src/components/CropFailurePrediction.jsx:10-13 | a prediction is stored with each factor in its range (weather [10, 49], pest [5, 34], disease [5, 39], soil [5, 29], market [5, 24]), a score that is the floored mean in [6, 35], and the level Low; the crop is kept |
| CropFailureScreen.PredictionDisplay | client/src/components/CropFailurePrediction.jsx:57-72 | the level badge is always green; no bar is ever red; only the weather bar can be yellow; the crop picked changes nothing |

## Left out

- Rendering, Tailwind classes beyond the band they select, and animation.
- Number formatting (`toFixed`, `toLocaleString`), dates and `Date.now()`. `detectionTime` and `scheduledDate` are therefore absent from the results.
- The `setTimeout` delays. A scheduled reply or result is modelled as a separate event (`Chatbot.DeliverReply`, `DiseaseDetection.AnalysisFinished`). Interleavings of several pending timers are not.
- The `FileReader` preview and the browser file picker. The preview arrives as the event `DiseaseDetection.PreviewLoaded`, and a file is reduced to its name and MIME type.
- The chat language switch: it selects no logic.
- `predictCropFailure(cropType, currentConditions)`: the second argument is never read (client/src/assets.js:518-547), so `AiHelpers.PredictCropFailure` has no parameter for it.
- `recommendCrops` sorts `assets.crops[season]` in place. After a recommendation the season list on the crop screen is shown in sorted order. The model treats the table as immutable.
- A season name equal to an `Object.prototype` key such as "constructor" is not modelled: in the source it would select a non-array value.
- Text.Lower: covers ASCII letters only. JavaScript's `toLowerCase` also maps other scripts, and can change the length ('İ' becomes two characters); the keywords and names it is applied to here are ASCII.
- AiHelpers.ToNumber: covers only digit strings surrounded by white space. JavaScript's `Number` also reads signs, decimal points, exponents, hex, binary and octal prefixes and "Infinity"; the model gives NaN for those. The coerced coverage texts hold none of them.
- Floating-point rounding is not modelled: JavaScript numbers are reals, plus infinities and NaN.
- `Math.random()` draws are parameters. No randomness is generated.
- Constant text lists attached to helper results are not carried, because no logic reads or chooses them: `factors` of the price prediction (client/src/assets.js:465), `benefits` of each loan entry (client/src/assets.js:556), and `processingTime`, `requiredDocuments` and `nextSteps` of a claim (client/src/assets.js:486-489).
- The credit score is the constant 785 from the table; no scoring formula exists to model.
- `AiHelpers.PredictPrices`: `changePercent` is the unrounded percentage; `toFixed(2)` is left out.
- `ExpenseCalculator.Reinvestment`: takes the unrounded margin, although the source halves the `toFixed(1)` string. The result can therefore differ by rounding.
- `ExpenseCalculator.ProfitMargin`, `BreakEven`, `Roi`: values before `toFixed(1)`.
- Insurance claim screens and the other display-only screens (dashboard, profile, schemes, insights, rotation, loans, market, planning): they hold no logic of their own beyond calling the helpers modelled here.
- The static tables appear only as far as the modelled functions read them. For example, the current-weather record and the scheme lists are not included.

## Findings

| source | as written | input that shows it | evidently intended | confidence | as-written member | corrected member |
|---|---|---|---|---|---|---|
| client/src/assets.js:473 | `policy.coverage.replace(/[₹,]/g, '') * damagePercent` coerces "50000/acre" to a number | `analyzeInsuranceClaim(images, "Cotton")`: "₹50,000/acre" strips to "50000/acre", which coerces to NaN, so the estimate is NaN for every draw | the damaged share of the per-acre coverage, e.g. 500 · damage for Cotton | high (not executed) | AiHelpers.InsuredClaimAmountIsNaN | AiHelpers.CorrectedInsuredAmounts |
| client/src/assets.js:512 | `["Sowing/Planting", "Irrigation", "Pest Monitoring"].includes(activity.activity)` compares whole names | "First Irrigation" and "Second Irrigation" equal no list entry, so the entry "Irrigation" never matches | the two irrigation activities are weather-dependent too | medium (not executed) | AiHelpers.ShippedPlanFlags | AiHelpers.GenerateFarmPlanCorrected |

=== FILE: ai_helpers.dfy ===
/** The simulated "AI" helpers (`aiHelpers` in client/src/assets.js). Each
    helper is a pure function of its arguments, the static tables and the
    `Math.random()` draws it makes; the draws are parameters here, each a real
    in [0, 1). Dates, time stamps and number formatting are not modelled. */
module AiHelpers {

  import opened Options
  import opened Text
  import opened JsNumber
  import opened Random
  import opened Sorting
  import opened Tables

  function Min(a: int, b: int): int {
    if a <= b then a else b
  }

  function MinReal(a: real, b: real): real {
    if a <= b then a else b
  }

  // ---------------------------------------------------------------------
  // detectDisease

  /** The two draws of `detectDisease`: which disease, and the confidence. */
  datatype DetectionDraws = DetectionDraws(pick: real, confidence: real)

  predicate ValidDetectionDraws(d: DetectionDraws) {
    IsUnit(d.pick) && IsUnit(d.confidence)
  }

  datatype Detection = Detection(disease: Disease, confidence: int, recommendations: seq<string>)

  function DetectionAdvice(): seq<string> {
    [ "Immediate treatment required",
      "Monitor spread to other plants",
      "Improve field sanitation",
      "Consider resistant varieties next season" ]
  }

  /** `detectDisease(imageFile)`: the image is never inspected, so it is not a
      parameter. A table disease is picked and a confidence attached. */
  function DetectDisease(draws: DetectionDraws): (r: Detection)
    requires ValidDetectionDraws(draws)
    ensures r.disease in Diseases()
    ensures 80 <= r.confidence <= 99
    ensures r.recommendations == DetectionAdvice()
  {
    Detection(
      Diseases()[Draw(draws.pick, |Diseases()|, 0)],
      Draw(draws.confidence, 20, 80),
      DetectionAdvice())
  }

  /** Every disease of the table, with every confidence in [80, 99], is a
      possible detection: the outputs are exactly the table times that range. */
  lemma EveryDetectionReachable(i: nat, c: int)
    requires i < |Diseases()| && 80 <= c <= 99
    ensures ValidDetectionDraws(DetectionDraws(DrawFor(i, 3, 0), DrawFor(c, 20, 80)))
    ensures DetectDisease(DetectionDraws(DrawFor(i, 3, 0), DrawFor(c, 20, 80))).disease == Diseases()[i]
    ensures DetectDisease(DetectionDraws(DrawFor(i, 3, 0), DrawFor(c, 20, 80))).confidence == c
  {
    DrawReaches(i, 3, 0);
    DrawReaches(c, 20, 80);
  }

  // ---------------------------------------------------------------------
  // recommendCrops

  /** The two draws `recommendCrops` makes for each recommended crop. */
  datatype CropDraws = CropDraws(suitability: real, risk: real)

  predicate ValidCropDraws(d: CropDraws) {
    IsUnit(d.suitability) && IsUnit(d.risk)
  }

  datatype CropRecommendation = CropRecommendation(crop: Crop, suitabilityScore: int, riskFactor: int)

  /** The sort key of `recommendCrops`. */
  function Profit(c: Crop): real {
    c.profitability as real
  }

  /** `assets.crops[season.toLowerCase()] || assets.crops.kharif`, for the
      three season keys of the table. */
  function LookupSeason(season: string): (r: Season)
    ensures Lower(season) == SeasonKey(r) || (r == Kharif && forall s: Season :: Lower(season) != SeasonKey(s))
  {
    var key := Lower(season);
    if key == "rabi" then Rabi
    else if key == "zaid" then Zaid
    else Kharif
  }

  /** Every season's own key selects that season, and the key is matched
      whatever its letter case. */
  lemma SeasonKeysSelectOwnTable(s: Season)
    ensures LookupSeason(SeasonKey(s)) == s
    ensures LookupSeason("RABI") == Rabi
  {
    LowerIsLower(SeasonKey(s));
    assert Lower("RABI") == "rabi" by {
      var l := Lower("RABI");
      assert l[0] == 'r' && l[1] == 'a' && l[2] == 'b' && l[3] == 'i';
    }
  }

  function CropsOf(rs: seq<CropRecommendation>): (r: seq<Crop>)
    ensures |r| == |rs| && forall i :: 0 <= i < |rs| ==> r[i] == rs[i].crop
  {
    seq(|rs|, i requires 0 <= i < |rs| => rs[i].crop)
  }

  /** The recommendation over one season's table: the table sorted by
      profitability, highest first, the first three kept, each given a
      suitability score and a risk factor. */
  function TopCrops(table: seq<Crop>, draws: seq<CropDraws>): (r: seq<CropRecommendation>)
    requires |draws| >= 3 && forall i :: 0 <= i < |draws| ==> ValidCropDraws(draws[i])
    ensures |r| == Min(3, |table|)
    ensures multiset(CropsOf(r)) <= multiset(table)
    ensures forall i :: 0 <= i < |r| ==> 80 <= r[i].suitabilityScore <= 99 && 10 <= r[i].riskFactor <= 39
  {
    var sorted := SortDesc(table, Profit);
    var top := sorted[..Min(3, |sorted|)];
    assert |top| <= 3 <= |draws|;
    PrefixSubMultiset(sorted, |top|);
    var r := seq(|top|, i requires 0 <= i < |top| && i < |draws| && ValidCropDraws(draws[i]) =>
      CropRecommendation(top[i], Draw(draws[i].suitability, 20, 80), Draw(draws[i].risk, 30, 10)));
    assert CropsOf(r) == top;
    r
  }

  /** The crops kept are the sorted table's first ones. */
  lemma TopCropsPrefix(table: seq<Crop>, draws: seq<CropDraws>)
    requires |draws| >= 3 && forall i :: 0 <= i < |draws| ==> ValidCropDraws(draws[i])
    ensures CropsOf(TopCrops(table, draws)) == SortDesc(table, Profit)[..Min(3, |table|)]
  {
  }

  /** The recommendations come highest profitability first, and no crop of
      the table that was left out is more profitable than any crop kept. */
  lemma {:induction false} TopCropsAreTop(table: seq<Crop>, draws: seq<CropDraws>)
    requires |draws| >= 3 && forall i :: 0 <= i < |draws| ==> ValidCropDraws(draws[i])
    ensures SortedDesc(CropsOf(TopCrops(table, draws)), Profit)
    ensures forall c :: c in multiset(table) - multiset(CropsOf(TopCrops(table, draws))) ==>
              forall i :: 0 <= i < |TopCrops(table, draws)| ==>
                c.profitability <= TopCrops(table, draws)[i].crop.profitability
  {
    var sorted := SortDesc(table, Profit);
    var k := Min(3, |sorted|);
    var r := TopCrops(table, draws);
    TopCropsPrefix(table, draws);
    SortDescSorted(table, Profit);
    PrefixSorted(sorted, Profit, k);
    var top := CropsOf(r);
    assert top == sorted[..k];
    forall c | c in multiset(table) - multiset(top)
      ensures forall i :: 0 <= i < |r| ==> c.profitability <= r[i].crop.profitability
    {
      TopOfSorted(sorted, Profit, k, c);
      forall i | 0 <= i < |r| ensures c.profitability <= r[i].crop.profitability {
        assert r[i].crop == sorted[i];
      }
    }
  }

  /** `recommendCrops(soilType, season, region)` over the crop tables
      `crops` (`assets.crops`): the top crops of the season named by
      `season`. Soil type and region are ignored. */
  function RecommendCrops(crops: Season -> seq<Crop>, soilType: string, season: string, region: string,
                          draws: seq<CropDraws>): (r: seq<CropRecommendation>)
    requires |draws| >= 3 && forall i :: 0 <= i < |draws| ==> ValidCropDraws(draws[i])
    ensures |r| == Min(3, |crops(LookupSeason(season))|)
    ensures multiset(CropsOf(r)) <= multiset(crops(LookupSeason(season)))
    ensures SortedDesc(CropsOf(r), Profit)
    ensures forall c :: c in multiset(crops(LookupSeason(season))) - multiset(CropsOf(r)) ==>
              forall i :: 0 <= i < |r| ==> c.profitability <= r[i].crop.profitability
    ensures forall i :: 0 <= i < |r| ==> 80 <= r[i].suitabilityScore <= 99 && 10 <= r[i].riskFactor <= 39
  {
    var table := crops(LookupSeason(season));
    TopCropsAreTop(table, draws);
    TopCrops(table, draws)
  }

  /** A four-crop table whose profits rank third, first, second, fourth
      sorts to its third, first, second and fourth crops. */
  lemma FourCropRanking(a: Crop, b: Crop, c: Crop, d: Crop)
    requires Profit(d) < Profit(b) < Profit(a) < Profit(c)
    ensures SortDesc([a, b, c, d], Profit) == [c, a, b, d]
  {
    RankFour(a, b, c, d, Profit);
  }

  /** Such a table yields its third, first and second crops. */
  lemma {:induction false} TopThreeOfFour(a: Crop, b: Crop, c: Crop, d: Crop, draws: seq<CropDraws>)
    requires |draws| >= 3 && forall i :: 0 <= i < |draws| ==> ValidCropDraws(draws[i])
    requires Profit(d) < Profit(b) < Profit(a) < Profit(c)
    ensures CropsOf(TopCrops([a, b, c, d], draws)) == [c, a, b]
  {
    var t := [a, b, c, d];
    FourCropRanking(a, b, c, d);
    TopCropsPrefix(t, draws);
    assert Min(3, |t|) == 3;
    FirstThreeOfFour(SortDesc(t, Profit), c, a, b, d);
  }

  /** The first three of a four-element sequence. */
  lemma FirstThreeOfFour(s: seq<Crop>, w: Crop, x: Crop, y: Crop, z: Crop)
    requires s == [w, x, y, z]
    ensures s[..3] == [w, x, y]
  {
  }

  /** On the shipped tables any season name that is not "rabi" or "zaid" in
      some letter case gets Sugarcane, Rice and Cotton, in that order; Maize
      (70) is left out. */
  lemma KharifRecommendation(soilType: string, season: string, region: string, draws: seq<CropDraws>)
    requires |draws| >= 3 && forall i :: 0 <= i < |draws| ==> ValidCropDraws(draws[i])
    requires Lower(season) != "rabi" && Lower(season) != "zaid"
    ensures CropsOf(RecommendCrops(SeasonCrops, soilType, season, region, draws))
            == [SeasonCrops(Kharif)[2], SeasonCrops(Kharif)[0], SeasonCrops(Kharif)[1]]
  {
    var t := SeasonCrops(Kharif);
    assert LookupSeason(season) == Kharif;
    TopThreeOfFour(t[0], t[1], t[2], t[3], draws);
  }

  /** The shipped kharif table ranked by profitability. */
  lemma KharifRanking()
    ensures SortDesc(SeasonCrops(Kharif), Profit)
            == [SeasonCrops(Kharif)[2], SeasonCrops(Kharif)[0], SeasonCrops(Kharif)[1], SeasonCrops(Kharif)[3]]
  {
    var t := SeasonCrops(Kharif);
    FourCropRanking(t[0], t[1], t[2], t[3]);
  }

  // ---------------------------------------------------------------------
  // predictPrices

  /** The first quote for `crop`, or 2000 when there is none; a zero price is
      falsy and also falls back to 2000. */
  function FindPrice(quotes: seq<PriceQuote>, crop: string): (r: int)
    ensures r != 0
    ensures (forall i :: 0 <= i < |quotes| ==> quotes[i].crop != crop) ==> r == 2000
    ensures forall i :: (0 <= i < |quotes| && quotes[i].crop == crop &&
                          (forall j :: 0 <= j < i ==> quotes[j].crop != crop)) ==>
              r == (if quotes[i].price != 0 then quotes[i].price else 2000)
    ensures (forall i :: 0 <= i < |quotes| ==> quotes[i].price >= 0) ==> r > 0
    decreases |quotes|
  {
    if |quotes| == 0 then 2000
    else if quotes[0].crop == crop then (if quotes[0].price != 0 then quotes[0].price else 2000)
    else
      assert forall i :: 1 <= i < |quotes| ==> quotes[1..][i - 1] == quotes[i];
      FindPrice(quotes[1..], crop)
  }

  /** `assets.marketPrices.today.find(p => p.crop === crop)?.price || 2000`.
      Every quoted price is positive, so the looked-up price is too. */
  function CurrentPrice(crop: string): (r: int)
    ensures r > 0
  {
    var t := TodayPrices();
    assert forall i :: 0 <= i < |t| ==> t[i].price >= 0;
    FindPrice(t, crop)
  }

  /** A listed crop gets its listed price and any other crop gets 2000. */
  lemma CurrentPriceLookup(crop: string)
    ensures forall i :: 0 <= i < |TodayPrices()| && TodayPrices()[i].crop == crop ==> CurrentPrice(crop) == TodayPrices()[i].price
    ensures (forall i :: 0 <= i < |TodayPrices()| ==> TodayPrices()[i].crop != crop) ==> CurrentPrice(crop) == 2000
  {
    var t := TodayPrices();
    forall i | 0 <= i < |t| && t[i].crop == crop
      ensures CurrentPrice(crop) == t[i].price
    {
      assert forall j :: 0 <= j < i ==> t[j].crop != t[i].crop;
    }
  }

  datatype PriceDraws = PriceDraws(volatility: real, confidence: real)

  predicate ValidPriceDraws(d: PriceDraws) {
    IsUnit(d.volatility) && IsUnit(d.confidence)
  }

  datatype PricePrediction = PricePrediction(
    currentPrice: int,
    predictedPrice: int,
    change: int,
    changePercent: real,
    confidence: int)

  /** `Math.random() * 0.2 - 0.1`: a volatility in [-0.1, 0.1). */
  function Volatility(u: real): (v: real)
    requires IsUnit(u)
    ensures -0.1 <= v < 0.1
  {
    u * 0.2 - 0.1
  }

  lemma FloorBelow(x: real)
    ensures x.Floor as real <= x
  {
  }

  /** The sign of a product with a positive factor. */
  lemma ProductSign(a: real, b: real)
    requires a > 0.0
    ensures b >= 0.0 ==> a * b >= 0.0
    ensures b > 0.0 ==> a * b > 0.0
  {
  }

  /** `Math.floor(p * (1 + v))` stays within 10% of a positive price `p`:
      at least the floor of 0.9 p and strictly below 1.1 p. */
  lemma PriceBand(p: int, v: real)
    requires p > 0 && -0.1 <= v < 0.1
    ensures (0.9 * p as real).Floor <= (p as real * (1.0 + v)).Floor
    ensures ((p as real * (1.0 + v)).Floor) as real < 1.1 * p as real
  {
    var x := p as real * (1.0 + v);
    assert x - 0.9 * p as real == p as real * (v + 0.1);
    ProductSign(p as real, v + 0.1);
    assert 1.1 * p as real - x == p as real * (0.1 - v);
    ProductSign(p as real, 0.1 - v);
    assert x < 1.1 * p as real;
    FloorBelow(x);
  }

  /** `Math.floor(p * (1 + v))`, the price `p` moved by the volatility `v`. */
  function Moved(p: int, v: real): (r: int)
    requires -0.1 <= v < 0.1
    ensures p > 0 ==> (0.9 * p as real).Floor <= r && r as real < 1.1 * p as real
  {
    if p > 0 then PriceBand(p, v); (p as real * (1.0 + v)).Floor
    else (p as real * (1.0 + v)).Floor
  }

  /** `change / p * 100`, the change as a percentage of `p`. */
  function Percent(change: int, p: int): (r: real)
    requires p != 0
    ensures r * p as real == change as real * 100.0
  {
    change as real / p as real * 100.0
  }

  /** The prediction for a current price `p`: moved by a volatility of up
      to 10% either way, with the change and its percentage. */
  function PredictFrom(p: int, draws: PriceDraws): (r: PricePrediction)
    requires p != 0 && ValidPriceDraws(draws)
    ensures r.currentPrice == p
    ensures p > 0 ==> (0.9 * p as real).Floor <= r.predictedPrice && r.predictedPrice as real < 1.1 * p as real
    ensures r.change == r.predictedPrice - p
    ensures r.changePercent * p as real == r.change as real * 100.0
    ensures 75 <= r.confidence <= 94
  {
    var predicted := Moved(p, Volatility(draws.volatility));
    var change := predicted - p;
    PricePrediction(p, predicted, change, Percent(change, p), Draw(draws.confidence, 20, 75))
  }

  /** `predictPrices(crop, duration)` over the quotes `quotes`
      (`assets.marketPrices.today`): the current price of the crop moved by
      a volatility of up to 10% either way. The horizon `duration` does not
      affect the result. */
  function PredictPrices(quotes: seq<PriceQuote>, crop: string, duration: int, draws: PriceDraws): (r: PricePrediction)
    requires ValidPriceDraws(draws)
    ensures r.currentPrice == FindPrice(quotes, crop)
    ensures r.currentPrice > 0 ==> (0.9 * r.currentPrice as real).Floor <= r.predictedPrice
    ensures r.currentPrice > 0 ==> r.predictedPrice as real < 1.1 * r.currentPrice as real
    ensures r.change == r.predictedPrice - r.currentPrice
    ensures r.changePercent * r.currentPrice as real == r.change as real * 100.0
    ensures 75 <= r.confidence <= 94
  {
    var p := FindPrice(quotes, crop);
    var r := PredictFrom(p, draws);
    assert r.currentPrice == p;
    assert r.changePercent * p as real == r.change as real * 100.0;
    r
  }

  /** For Rice (2150) the prediction lies in [1935, 2364], and both ends are
      reached. */
  lemma RicePredictionBand(duration: int, draws: PriceDraws)
    requires ValidPriceDraws(draws)
    ensures 1935 <= PredictPrices(TodayPrices(), "Rice", duration, draws).predictedPrice <= 2364
    ensures PredictPrices(TodayPrices(), "Rice", duration, PriceDraws(0.0, 0.0)).predictedPrice == 1935
    ensures PredictPrices(TodayPrices(), "Rice", duration, PriceDraws(0.999, 0.0)).predictedPrice == 2364
  {
    assert TodayPrices()[0].crop == "Rice" && TodayPrices()[0].price == 2150;
    assert CurrentPrice("Rice") == 2150;
    assert (0.9 * 2150.0).Floor == 1935;
    assert (2150.0 * (1.0 + (0.0 * 0.2 - 0.1))).Floor == 1935;
    assert (2150.0 * (1.0 + (0.999 * 0.2 - 0.1))).Floor == 2364;
  }

  // ---------------------------------------------------------------------
  // analyzeInsuranceClaim

  /** The three draws of `analyzeInsuranceClaim`. */
  datatype ClaimDraws = ClaimDraws(damage: real, kind: real, area: real)

  predicate ValidClaimDraws(d: ClaimDraws) {
    IsUnit(d.damage) && IsUnit(d.kind) && IsUnit(d.area)
  }

  datatype Severity = Severe | Moderate | Minor

  /** The severity band of a damage percentage. */
  function SeverityOf(damagePercent: int): (r: Severity)
    ensures r == Severe <==> damagePercent > 60
    ensures r == Moderate <==> 40 < damagePercent <= 60
    ensures r == Minor <==> damagePercent <= 40
  {
    if damagePercent > 60 then Severe
    else if damagePercent > 40 then Moderate
    else Minor
  }

  const EligibleReason: string := "Damage exceeds minimum threshold"
  const IneligibleReason: string := "Damage below 33% threshold"

  function DamageTypes(): seq<string> {
    ["Hail", "Flood", "Pest", "Disease"]
  }

  datatype ClaimAnalysis = ClaimAnalysis(
    damageType: string,
    damagePercent: int,
    affectedArea: int,
    severity: Severity,
    eligible: bool,
    reason: string,
    estimatedAmount: Num)

  /** The position of the first policy for `cropType` at or after `from`,
      or `|policies|` when there is none. */
  function PolicyIndexFrom(policies: seq<Policy>, cropType: string, from: nat): (k: nat)
    requires from <= |policies|
    ensures from <= k <= |policies|
    ensures forall j :: from <= j < k ==> policies[j].crop != cropType
    ensures k < |policies| ==> policies[k].crop == cropType
    decreases |policies| - from
  {
    if from == |policies| || policies[from].crop == cropType then from
    else PolicyIndexFrom(policies, cropType, from + 1)
  }

  /** `assets.insurance.policies.find(p => p.crop === cropType)`: the first
      policy for the crop, if any. */
  function FindPolicy(policies: seq<Policy>, cropType: string): (r: Option<Policy>)
    ensures r.None? <==> forall i :: 0 <= i < |policies| ==> policies[i].crop != cropType
    ensures r.Some? ==> r.value in policies && r.value.crop == cropType
    ensures forall i :: (0 <= i < |policies| && policies[i].crop == cropType &&
                          (forall j :: 0 <= j < i ==> policies[j].crop != cropType)) ==>
              r == Some(policies[i])
  {
    var k := PolicyIndexFrom(policies, cropType, 0);
    if k < |policies| then Some(policies[k]) else None
  }

  /** `s.replace(/[₹,]/g, '')`. */
  function StripCurrency(s: string): (r: string)
    ensures forall c :: c in r <==> c in s && c != '₹' && c != ','
    decreases |s|
  {
    if |s| == 0 then ""
    else (if s[0] == '₹' || s[0] == ',' then "" else [s[0]]) + StripCurrency(s[1..])
  }

  /** A non-space character of `s` survives `trimStart`. */
  lemma {:induction false} TrimStartKeeps(s: string, c: char)
    requires c in s && !IsSpace(c)
    ensures c in TrimStart(s)
    decreases |s|
  {
    if |s| > 0 && IsSpace(s[0]) {
      assert c in s[1..];
      TrimStartKeeps(s[1..], c);
    }
  }

  /** A non-space character of `s` survives `trimEnd`. */
  lemma {:induction false} TrimEndKeeps(s: string, c: char)
    requires c in s && !IsSpace(c)
    ensures c in TrimEnd(s)
    decreases |s|
  {
    if |s| > 0 && IsSpace(s[|s| - 1]) {
      assert s == s[..|s| - 1] + [s[|s| - 1]];
      assert c in s[..|s| - 1];
      TrimEndKeeps(s[..|s| - 1], c);
    }
  }

  /** `Number(s)` (the coercion `s * n` applies) for strings of decimal
      digits surrounded by white space; anything else is NaN. */
  function ToNumber(s: string): (r: Num)
    ensures r.Finite? || r.NaN?
    ensures r.Finite? ==> 0.0 <= r.v && r.v.Floor as real == r.v
    ensures IsBlank(s) ==> r == Finite(0.0)
  {
    var t := Trim(s);
    TrimEmptyIffBlank(s);
    if t == "" then Finite(0.0)
    else if AllDigits(t) then Finite(DecimalValue(t) as real)
    else NaN
  }

  /** Coercing a numeral back gives its number: `Number(String(n)) == n`. */
  lemma {:induction false} ToNumberOfNumeral(n: nat)
    ensures ToNumber(Numeral(n)) == Finite(n as real)
  {
    DigitsUntrimmed(Numeral(n));
    NumeralValue(n);
  }

  /** A string holding a character that is neither a digit nor white space
      coerces to NaN. */
  lemma {:induction false} ToNumberNaN(s: string, c: char)
    requires c in s && !IsDigit(c) && !IsSpace(c)
    ensures ToNumber(s) == NaN
  {
    TrimStartKeeps(s, c);
    TrimEndKeeps(TrimStart(s), c);
    var t := Trim(s);
    var i :| 0 <= i < |t| && t[i] == c;
  }

  /** `Math.floor(x * damagePercent / 100)` on a JavaScript number. */
  function FloorShare(x: Num, damagePercent: int): Num {
    match x
    case Finite(v) => Finite(((v * damagePercent as real) / 100.0).Floor as real)
    case _ => x
  }

  /** The claim amount as written: the coverage text with '₹' and ','
      removed is coerced to a number and scaled by the damage. A coverage
      text that still holds '/' after stripping gives NaN. */
  function ClaimAmount(policy: Option<Policy>, damagePercent: int): (r: Num)
    ensures policy.None? ==> r == Finite(0.0)
    ensures policy.Some? && '/' in policy.value.coverage ==> r == NaN
  {
    match policy
    case None => Finite(0.0)
    case Some(p) =>
      assert '/' in p.coverage ==> ToNumber(StripCurrency(p.coverage)) == NaN by {
        if '/' in p.coverage { ToNumberNaN(StripCurrency(p.coverage), '/'); }
      }
      FloorShare(ToNumber(StripCurrency(p.coverage)), damagePercent)
  }

  /** `analyzeInsuranceClaim(images, cropType)` over the policies
      `policies` (`assets.insurance.policies`). The images are never
      inspected, so they are not a parameter. */
  function AnalyzeInsuranceClaim(policies: seq<Policy>, cropType: string, draws: ClaimDraws): (r: ClaimAnalysis)
    requires ValidClaimDraws(draws)
    ensures 20 <= r.damagePercent <= 79
    ensures r.severity == Severe <==> r.damagePercent > 60
    ensures r.severity == Moderate <==> 40 < r.damagePercent <= 60
    ensures r.severity == Minor <==> r.damagePercent <= 40
    ensures r.eligible <==> r.damagePercent >= 33
    ensures r.reason == (if r.eligible then EligibleReason else IneligibleReason)
    ensures r.damageType in DamageTypes()
    ensures 10 <= r.affectedArea <= 59
    ensures (forall i :: 0 <= i < |policies| ==> policies[i].crop != cropType) ==> r.estimatedAmount == Finite(0.0)
    ensures r.estimatedAmount == ClaimAmount(FindPolicy(policies, cropType), r.damagePercent)
    ensures ((forall i :: 0 <= i < |policies| ==> '/' in policies[i].coverage) &&
             (exists i :: 0 <= i < |policies| && policies[i].crop == cropType)) ==> r.estimatedAmount == NaN
  {
    var damage := Draw(draws.damage, 60, 20);
    var eligible := damage >= 33;
    ClaimAnalysis(
      DamageTypes()[Draw(draws.kind, 4, 0)],
      damage,
      Draw(draws.area, 50, 10),
      SeverityOf(damage),
      eligible,
      if eligible then EligibleReason else IneligibleReason,
      ClaimAmount(FindPolicy(policies, cropType), damage))
  }

  /** The damage percentages the source can produce are exactly [20, 79]:
      the comment's upper end, 80, never occurs. */
  lemma DamageRangeExact(n: int)
    requires 20 <= n <= 79
    ensures ValidClaimDraws(ClaimDraws(DrawFor(n, 60, 20), 0.0, 0.0))
    ensures AnalyzeInsuranceClaim(Policies(), "", ClaimDraws(DrawFor(n, 60, 20), 0.0, 0.0)).damagePercent == n
  {
    DrawReaches(n, 60, 20);
  }

  /** Both shipped coverage texts are of the form "₹<digits>/acre". */
  lemma ShippedCoverageHasSlash()
    ensures forall i :: 0 <= i < |Policies()| ==> '/' in Policies()[i].coverage
  {
    assert Policies()[0].coverage[7] == '/';
    assert Policies()[1].coverage[7] == '/';
  }

  /** For each insured crop (Cotton, Wheat) the coverage text still holds
      "/acre" after stripping, so the estimated amount is NaN on every draw. */
  lemma InsuredClaimAmountIsNaN(cropType: string, draws: ClaimDraws)
    requires ValidClaimDraws(draws)
    requires exists i :: 0 <= i < |Policies()| && Policies()[i].crop == cropType
    ensures AnalyzeInsuranceClaim(Policies(), cropType, draws).estimatedAmount == NaN
  {
    ShippedCoverageHasSlash();
  }

  /** Removing '₹' and ',' works piecewise. */
  lemma {:induction false} StripCurrencyAppend(a: string, b: string)
    ensures StripCurrency(a + b) == StripCurrency(a) + StripCurrency(b)
    decreases |a|
  {
    if |a| > 0 {
      assert (a + b)[1..] == a[1..] + b;
      StripCurrencyAppend(a[1..], b);
    } else {
      assert a + b == b;
    }
  }

  /** A text without '₹' and ',' is left as it is. */
  lemma {:induction false} StripCurrencyClean(s: string)
    requires '₹' !in s && ',' !in s
    ensures StripCurrency(s) == s
    decreases |s|
  {
    if |s| > 0 {
      assert forall c :: c in s[1..] ==> c in s;
      StripCurrencyClean(s[1..]);
      assert s == [s[0]] + s[1..];
    }
  }

  /** The digits at the front of `s`. */
  function LeadingDigits(s: string): (r: string)
    ensures AllDigits(r) && |r| <= |s| && r == s[..|r|]
    ensures |r| < |s| ==> !IsDigit(s[|r|])
    decreases |s|
  {
    if |s| > 0 && IsDigit(s[0]) then [s[0]] + LeadingDigits(s[1..]) else ""
  }

  /** The leading digits of digits followed by a non-digit are those digits. */
  lemma {:induction false} LeadingDigitsOf(d: string, s: string)
    requires AllDigits(d) && (|s| == 0 || !IsDigit(s[0]))
    ensures LeadingDigits(d + s) == d
    decreases |d|
  {
    if |d| > 0 {
      assert (d + s)[0] == d[0] && (d + s)[1..] == d[1..] + s;
      LeadingDigitsOf(d[1..], s);
      assert d == [d[0]] + d[1..];
    } else {
      assert d + s == s;
    }
  }

  /** Appending a digit multiplies the value by ten and adds the digit. */
  lemma DecimalValueSnoc(s: string, c: char)
    requires AllDigits(s) && IsDigit(c)
    ensures AllDigits(s + [c])
    ensures DecimalValue(s + [c]) == DecimalValue(s) * 10 + (c as int - '0' as int)
  {
    assert (s + [c])[..|s|] == s;
  }

  /** The per-acre coverage of a policy: the number in front of "/acre". */
  function CoverageValue(p: Policy): nat {
    DecimalValue(LeadingDigits(StripCurrency(p.coverage)))
  }

  /** The claim amount as evidently intended: the damaged share of the
      policy's per-acre coverage, and 0 when no policy covers the crop. The
      amount never exceeds the coverage and grows with the damage. */
  function ClaimAmountCorrected(policy: Option<Policy>, damagePercent: int): (r: int)
    requires 0 <= damagePercent <= 100
    ensures policy.None? ==> r == 0
    ensures policy.Some? ==> 0 <= r <= CoverageValue(policy.value)
    ensures policy.Some? ==> r * 100 <= CoverageValue(policy.value) * damagePercent < (r + 1) * 100
  {
    match policy
    case None => 0
    case Some(p) =>
      var c := CoverageValue(p);
      ShareBounds(c, damagePercent);
      (c * damagePercent) / 100
  }

  /** A percentage share of `c` lies between 0 and `c` and is the floor of
      the exact share. */
  lemma ShareBounds(c: nat, d: int)
    requires 0 <= d <= 100
    ensures 0 <= (c * d) / 100 <= c
    ensures (c * d) / 100 * 100 <= c * d < ((c * d) / 100 + 1) * 100
  {
    var a := c * d;
    assert 0 <= a <= c * 100;
  }

  /** Only the '/' breaks the shipped formula: a coverage that strips to
      plain digits gives, as written, exactly the corrected amount. */
  lemma ClaimAmountAgreesWithoutSlash(p: Policy, d: int)
    requires 0 <= d <= 100 && AllDigits(StripCurrency(p.coverage))
    ensures ClaimAmount(Some(p), d) == Finite(ClaimAmountCorrected(Some(p), d) as real)
  {
    var t := StripCurrency(p.coverage);
    ToNumberOfDigits(t);
    LeadingDigitsOf(t, "");
    assert t + "" == t;
    FloorShareWhole(DecimalValue(t), d);
  }

  /** A digit string, the empty one included, coerces to its value. */
  lemma ToNumberOfDigits(t: string)
    requires AllDigits(t)
    ensures ToNumber(t) == Finite(DecimalValue(t) as real)
  {
    if |t| > 0 {
      DigitsUntrimmed(t);
    } else {
      assert IsBlank(t);
    }
  }

  /** The floored share of a whole number is the integer share. */
  lemma FloorShareWhole(n: int, d: int)
    ensures FloorShare(Finite(n as real), d) == Finite(((n * d) / 100) as real)
  {
    var a := n * d;
    RealProduct(n, d);
    FloorOfHundredth(a);
    var x := n as real * d as real;
    assert x == a as real;
    assert (x / 100.0).Floor == a / 100;
  }

  /** The product of two integers, taken as a real. */
  lemma RealProduct(n: int, d: int)
    ensures (n * d) as real == n as real * d as real
  {
  }

  /** Flooring a real hundredth agrees with integer division by 100. */
  lemma FloorOfHundredth(a: int)
    ensures (a as real / 100.0).Floor == a / 100
  {
    var q := a / 100;
    var m := a % 100;
    assert a == q * 100 + m && 0 <= m < 100;
    assert a as real / 100.0 == q as real + m as real / 100.0;
  }

  /** The two stripped characters on their own strip to nothing. */
  lemma StripSeparators()
    ensures StripCurrency("₹") == "" && StripCurrency(",") == ""
  {
    assert "₹"[1..] == "" && ","[1..] == "";
  }

  lemma StripRupee(a: string)
    requires '₹' !in a && ',' !in a
    ensures StripCurrency("₹" + a) == a
  {
    StripCurrencyAppend("₹", a);
    StripSeparators();
    StripCurrencyClean(a);
  }

  lemma StripRupeeComma(a: string)
    requires '₹' !in a && ',' !in a
    ensures StripCurrency("₹" + a + ",") == a
  {
    StripRupee(a);
    StripCurrencyAppend("₹" + a, ",");
    StripSeparators();
  }

  /** "₹<a>,<b>" strips to "<a><b>" when `a` and `b` are free of '₹' and ','. */
  lemma StripCoverageText(a: string, b: string)
    requires '₹' !in a && ',' !in a && '₹' !in b && ',' !in b
    ensures StripCurrency("₹" + a + "," + b) == a + b
  {
    StripRupeeComma(a);
    StripCurrencyAppend("₹" + a + ",", b);
    StripCurrencyClean(b);
  }

  /** Three trailing zeros multiply the value by a thousand. */
  lemma DecimalThousands(a: string)
    requires AllDigits(a)
    ensures AllDigits(a + "000")
    ensures DecimalValue(a + "000") == DecimalValue(a) * 1000
  {
    assert a + "000" == a + ['0'] + ['0'] + ['0'];
    DecimalValueSnoc(a, '0');
    DecimalValueSnoc(a + ['0'], '0');
    DecimalValueSnoc(a + ['0'] + ['0'], '0');
  }

  /** The coverage "₹<a>,000/acre" is worth a * 1000 for digits `a`. */
  lemma ThousandsCoverage(p: Policy, a: string)
    requires AllDigits(a)
    requires p.coverage == "₹" + a + "," + "000/acre"
    ensures CoverageValue(p) == DecimalValue(a) * 1000
  {
    assert '₹' !in a && ',' !in a by {
      assert forall i :: 0 <= i < |a| ==> a[i] != '₹' && a[i] != ',';
    }
    StripCoverageText(a, "000/acre");
    assert a + "000/acre" == (a + "000") + "/acre";
    DecimalThousands(a);
    LeadingDigitsOf(a + "000", "/acre");
  }

  /** The value of a two-digit string. */
  lemma TwoDigits(a: string)
    requires |a| == 2 && AllDigits(a)
    ensures DecimalValue(a) == (a[0] as int - '0' as int) * 10 + (a[1] as int - '0' as int)
  {
    assert a == [a[0]] + [a[1]];
    DecimalValueSnoc([a[0]], a[1]);
    assert [a[0]][..0] == [];
  }

  /** The shipped coverage texts split at their separators. */
  lemma ShippedCoverageTexts()
    ensures Policies()[0].coverage == "₹" + "50" + "," + "000/acre"
    ensures Policies()[1].coverage == "₹" + "35" + "," + "000/acre"
  {
  }

  /** The shipped policies: Cotton covers 50000 and Wheat 35000 per acre. */
  lemma ShippedCoverageValues(p: Policy)
    requires p in Policies()
    ensures p.crop == "Cotton" ==> CoverageValue(p) == 50000
    ensures p.crop == "Wheat" ==> CoverageValue(p) == 35000
  {
    var ps := Policies();
    var i :| 0 <= i < |ps| && ps[i] == p;
    if i == 0 {
      CottonCoverage();
    } else {
      WheatCoverage();
    }
  }

  /** The Cotton policy covers 50000 per acre. */
  lemma CottonCoverage()
    ensures CoverageValue(Policies()[0]) == 50000
  {
    ShippedCoverageTexts();
    TwoDigits("50");
    ThousandsCoverage(Policies()[0], "50");
  }

  /** The Wheat policy covers 35000 per acre. */
  lemma WheatCoverage()
    ensures CoverageValue(Policies()[1]) == 35000
  {
    ShippedCoverageTexts();
    TwoDigits("35");
    ThousandsCoverage(Policies()[1], "35");
  }

  /** The shipped policy table: Cotton is found first, Wheat second. */
  lemma ShippedPolicyLookup()
    ensures FindPolicy(Policies(), "Cotton") == Some(Policies()[0])
    ensures FindPolicy(Policies(), "Wheat") == Some(Policies()[1])
  {
    var ps := Policies();
    assert ps[0].crop == "Cotton" && ps[1].crop == "Wheat";
  }

  /** A whole number of hundreds takes its exact share of `d` percent. */
  lemma HundredsShare(c: int, k: int, d: int)
    requires c == k * 100
    ensures (c * d) / 100 == k * d
  {
    assert c * d == (k * d) * 100;
  }

  /** The corrected amount under one policy of a given coverage. */
  lemma CorrectedAmountOf(p: Policy, k: int, d: int)
    requires 0 <= d <= 100 && CoverageValue(p) == k * 100
    ensures ClaimAmountCorrected(Some(p), d) == k * d
  {
    HundredsShare(CoverageValue(p), k, d);
  }

  /** With the corrected amount, Cotton pays 500 and Wheat 350 per point of
      damage. */
  lemma CorrectedInsuredAmounts(d: int)
    requires 0 <= d <= 100
    ensures ClaimAmountCorrected(FindPolicy(Policies(), "Cotton"), d) == 500 * d
    ensures ClaimAmountCorrected(FindPolicy(Policies(), "Wheat"), d) == 350 * d
  {
    var ps := Policies();
    ShippedPolicyLookup();
    assert ps[0] in ps && ps[1] in ps;
    ShippedCoverageValues(ps[0]);
    ShippedCoverageValues(ps[1]);
    CorrectedAmountOf(ps[0], 500, d);
    CorrectedAmountOf(ps[1], 350, d);
  }

  // ---------------------------------------------------------------------
  // generateFarmPlan

  datatype Activity = Activity(activity: string, startDay: int, duration: int, priority: string)

  function FarmActivities(): seq<Activity> {
    [ Activity("Land Preparation", 1, 5, "High"),
      Activity("Sowing/Planting", 6, 3, "Critical"),
      Activity("First Irrigation", 10, 1, "High"),
      Activity("Fertilizer Application", 15, 2, "Medium"),
      Activity("Weed Management", 25, 2, "High"),
      Activity("Pest Monitoring", 30, 1, "High"),
      Activity("Second Irrigation", 35, 1, "Medium"),
      Activity("Flowering Care", 50, 5, "High"),
      Activity("Harvesting", 90, 7, "Critical") ]
  }

  datatype PlannedActivity = PlannedActivity(activity: Activity, weatherDependency: bool, estimatedCost: int)

  /** `["Sowing/Planting", "Irrigation", "Pest Monitoring"].includes(name)`:
      whole-name equality. */
  function WeatherDependent(name: string): bool {
    name in ["Sowing/Planting", "Irrigation", "Pest Monitoring"]
  }

  /** Whole-name equality flags no longer name: the only flagged name that
      contains "Irrigation" is the bare word itself. */
  lemma OnlyBareIrrigationFlagged(name: string)
    ensures WeatherDependent(name) && Contains(name, "Irrigation") ==> name == "Irrigation"
  {
    if name == "Sowing/Planting" || name == "Pest Monitoring" {
      LacksIrrigation(name);
    }
  }

  /** A name without a capital I does not contain "Irrigation". */
  lemma LacksIrrigation(name: string)
    requires forall k :: 0 <= k < |name| ==> name[k] != 'I'
    ensures !Contains(name, "Irrigation")
  {
    assert "Irrigation"[0] == 'I';
    MissingCharNotContained(name, "Irrigation", 'I');
  }

  /** `generateFarmPlan(cropType, farmSize, season)` over the activity
      template `activities`: the activities in order, each with its weather
      flag and a cost in [1000, 5999]. Crop, farm size and season do not
      affect the plan. */
  function GenerateFarmPlan(activities: seq<Activity>, cropType: string, farmSize: real, season: string,
                            costs: seq<real>): (r: seq<PlannedActivity>)
    requires |costs| >= |activities| && forall i :: 0 <= i < |costs| ==> IsUnit(costs[i])
    ensures |r| == |activities|
    ensures forall i :: 0 <= i < |r| ==> r[i].activity == activities[i]
    ensures forall i :: 0 <= i < |r| ==>
              (r[i].weatherDependency <==> activities[i].activity in ["Sowing/Planting", "Irrigation", "Pest Monitoring"])
    ensures forall i :: 0 <= i < |r| ==> 1000 <= r[i].estimatedCost <= 5999
  {
    seq(|activities|, i requires 0 <= i < |activities| && i < |costs| && IsUnit(costs[i]) =>
      PlannedActivity(activities[i], WeatherDependent(activities[i].activity), Draw(costs[i], 5000, 1000)))
  }

  /** The weather flag as evidently intended: the two irrigation activities
      are flagged too, by matching "Irrigation" inside the name. */
  function WeatherDependentCorrected(name: string): bool {
    name == "Sowing/Planting" || name == "Pest Monitoring" || Contains(name, "Irrigation")
  }

  /** The plan with the corrected flag. */
  function GenerateFarmPlanCorrected(activities: seq<Activity>, cropType: string, farmSize: real, season: string,
                                     costs: seq<real>): (r: seq<PlannedActivity>)
    requires |costs| >= |activities| && forall i :: 0 <= i < |costs| ==> IsUnit(costs[i])
    ensures |r| == |activities|
    ensures forall i :: 0 <= i < |r| ==> r[i].activity == activities[i]
    ensures forall i :: 0 <= i < |r| ==>
              (r[i].weatherDependency <==>
                 (activities[i].activity in ["Sowing/Planting", "Pest Monitoring"] ||
                  exists k :: OccursAt(activities[i].activity, "Irrigation", k)))
    ensures forall i :: 0 <= i < |r| ==> 1000 <= r[i].estimatedCost <= 5999
  {
    var r := seq(|activities|, i requires 0 <= i < |activities| && i < |costs| && IsUnit(costs[i]) =>
      PlannedActivity(activities[i], WeatherDependentCorrected(activities[i].activity), Draw(costs[i], 5000, 1000)));
    forall i | 0 <= i < |r|
      ensures Contains(activities[i].activity, "Irrigation") <==> exists k :: OccursAt(activities[i].activity, "Irrigation", k)
    {
      ContainsIffOccurs(activities[i].activity, "Irrigation");
    }
    r
  }

  /** The first letters of the shipped activity names. */
  lemma FirstLetters(i: nat)
    requires i < |FarmActivities()|
    ensures |FarmActivities()[i].activity| > 0 && FarmActivities()[i].activity[0] == "LSFFWPSFH"[i]
  {
    var a := FarmActivities();
    if i == 0 { assert a[0].activity[0] == 'L'; }
    else if i == 1 { assert a[1].activity[0] == 'S'; }
    else if i == 2 { assert a[2].activity[0] == 'F'; }
    else if i == 3 { assert a[3].activity[0] == 'F'; }
    else if i == 4 { assert a[4].activity[0] == 'W'; }
    else if i == 5 { assert a[5].activity[0] == 'P'; }
    else if i == 6 { assert a[6].activity[0] == 'S'; }
    else if i == 7 { assert a[7].activity[0] == 'F'; }
    else { assert a[8].activity[0] == 'H'; }
  }

  /** The as-written flag of one shipped activity. */
  lemma ShippedActivityFlag(i: nat)
    requires i < |FarmActivities()|
    ensures WeatherDependent(FarmActivities()[i].activity) <==> i == 1 || i == 5
  {
    var name := FarmActivities()[i].activity;
    assert "Sowing/Planting"[0] == 'S' && "Pest Monitoring"[0] == 'P' && "Irrigation"[0] == 'I';
    FirstLetters(i);
  }

  /** A name with no capital 'I'. */
  lemma NoCapitalI(name: string)
    requires forall k :: 0 <= k < |name| ==> name[k] != 'I'
    ensures 'I' !in name
  {
  }

  /** Of the shipped activity names only the two irrigations hold a
      capital 'I'. */
  lemma CapitalI(i: nat)
    requires i < |FarmActivities()| && i != 2 && i != 6
    ensures 'I' !in FarmActivities()[i].activity
  {
    if i <= 3 {
      CapitalIEarly(i);
    } else {
      CapitalILate(i);
    }
  }

  lemma CapitalIEarly(i: nat)
    requires i == 0 || i == 1 || i == 3
    ensures 'I' !in FarmActivities()[i].activity
  {
    if i == 0 { NoCapitalI("Land Preparation"); }
    else if i == 1 { NoCapitalI("Sowing/Planting"); }
    else { NoCapitalI("Fertilizer Application"); }
  }

  lemma CapitalILate(i: nat)
    requires i == 4 || i == 5 || i == 7 || i == 8
    ensures 'I' !in FarmActivities()[i].activity
  {
    if i == 4 { NoCapitalI("Weed Management"); }
    else if i == 5 { NoCapitalI("Pest Monitoring"); }
    else if i == 7 { NoCapitalI("Flowering Care"); }
    else { NoCapitalI("Harvesting"); }
  }

  /** Only the two irrigation activities hold "Irrigation" in their names. */
  lemma ShippedIrrigationNames(i: nat)
    requires i < |FarmActivities()|
    ensures Contains(FarmActivities()[i].activity, "Irrigation") <==> i == 2 || i == 6
  {
    var name := FarmActivities()[i].activity;
    if i == 2 || i == 6 {
      var k := if i == 2 then 6 else 7;
      assert name[k..k + 10] == "Irrigation";
      assert OccursAt(name, "Irrigation", k);
      ContainsIffOccurs(name, "Irrigation");
    } else {
      CapitalI(i);
      assert "Irrigation"[0] == 'I';
      MissingCharNotContained(name, "Irrigation", 'I');
    }
  }

  /** The correction only adds names that contain "Irrigation": a name is
      flagged by the corrected test iff the written test flags it or it
      contains "Irrigation". */
  lemma {:induction false} CorrectionAddsIrrigation(name: string)
    ensures WeatherDependentCorrected(name) <==> WeatherDependent(name) || Contains(name, "Irrigation")
  {
    if name == "Irrigation" {
      assert OccursAt(name, "Irrigation", 0);
      ContainsIffOccurs(name, "Irrigation");
    }
  }

  /** The corrected flag of one shipped activity. */
  lemma ShippedActivityFlagCorrected(i: nat)
    requires i < |FarmActivities()|
    ensures WeatherDependentCorrected(FarmActivities()[i].activity) <==> i == 1 || i == 2 || i == 5 || i == 6
  {
    var name := FarmActivities()[i].activity;
    CorrectionAddsIrrigation(name);
    ShippedActivityFlag(i);
    ShippedIrrigationNames(i);
  }

  /** On the shipped template the list entry "Irrigation" equals no activity
      name, so only sowing and pest monitoring are flagged; the corrected
      flag adds both irrigations. */
  lemma ShippedPlanFlags(cropType: string, farmSize: real, season: string, costs: seq<real>)
    requires |costs| >= |FarmActivities()| && forall i :: 0 <= i < |costs| ==> IsUnit(costs[i])
    ensures forall i :: 0 <= i < |FarmActivities()| ==>
              (GenerateFarmPlan(FarmActivities(), cropType, farmSize, season, costs)[i].weatherDependency <==> i == 1 || i == 5)
    ensures forall i :: 0 <= i < |FarmActivities()| ==>
              (GenerateFarmPlanCorrected(FarmActivities(), cropType, farmSize, season, costs)[i].weatherDependency <==>
                 (i == 1 || i == 2 || i == 5 || i == 6))
  {
    forall i | 0 <= i < |FarmActivities()|
      ensures WeatherDependent(FarmActivities()[i].activity) <==> i == 1 || i == 5
      ensures WeatherDependentCorrected(FarmActivities()[i].activity) <==> i == 1 || i == 2 || i == 5 || i == 6
    {
      ShippedActivityFlag(i);
      ShippedActivityFlagCorrected(i);
    }
  }

  // ---------------------------------------------------------------------
  // predictCropFailure

  /** The five draws of `predictCropFailure`, one per risk factor. */
  datatype FailureDraws = FailureDraws(weather: real, pest: real, disease: real, soil: real, market: real)

  predicate ValidFailureDraws(d: FailureDraws) {
    IsUnit(d.weather) && IsUnit(d.pest) && IsUnit(d.disease) && IsUnit(d.soil) && IsUnit(d.market)
  }

  datatype RiskFactors = RiskFactors(weather: int, pest: int, disease: int, soil: int, market: int)

  function FactorValues(f: RiskFactors): seq<int> {
    [f.weather, f.pest, f.disease, f.soil, f.market]
  }

  datatype RiskLevel = High | Medium | Low

  /** The band of an overall risk: above 70 High, above 40 Medium, else Low. */
  function LevelOf(overall: real): (r: RiskLevel)
    ensures r == High <==> overall > 70.0
    ensures r == Medium <==> 40.0 < overall <= 70.0
    ensures r == Low <==> overall <= 40.0
  {
    if overall > 70.0 then High
    else if overall > 40.0 then Medium
    else Low
  }

  /** The mean of the five factors, before flooring. */
  function OverallRisk(f: RiskFactors): real {
    (f.weather + f.pest + f.disease + f.soil + f.market) as real / 5.0
  }

  datatype FailurePrediction = FailurePrediction(
    riskScore: int,
    riskLevel: RiskLevel,
    factors: RiskFactors,
    recommendations: seq<string>,
    preventiveMeasures: seq<string>)

  function FailureRecommendations(): seq<string> {
    [ "Monitor weather forecasts daily",
      "Implement integrated pest management",
      "Ensure proper drainage systems",
      "Consider crop insurance",
      "Maintain soil health through organic matter" ]
  }

  function FailurePreventiveMeasures(): seq<string> {
    [ "Install weather monitoring systems",
      "Use disease-resistant varieties",
      "Implement precision agriculture",
      "Diversify crop portfolio" ]
  }

  /** `predictCropFailure(cropType, currentConditions)`: neither argument
      affects the numbers. The factor ranges cap the mean at 35, so the level
      is always Low. */
  function PredictCropFailure(cropType: string, draws: FailureDraws): (r: FailurePrediction)
    requires ValidFailureDraws(draws)
    ensures 10 <= r.factors.weather <= 49 && 5 <= r.factors.pest <= 34 && 5 <= r.factors.disease <= 39
    ensures 5 <= r.factors.soil <= 29 && 5 <= r.factors.market <= 24
    ensures r.riskScore as real <= OverallRisk(r.factors) < r.riskScore as real + 1.0
    ensures 6 <= r.riskScore <= 35
    ensures r.riskLevel == LevelOf(OverallRisk(r.factors))
    ensures r.riskLevel == Low
  {
    var f := RiskFactors(
      Draw(draws.weather, 40, 10),
      Draw(draws.pest, 30, 5),
      Draw(draws.disease, 35, 5),
      Draw(draws.soil, 25, 5),
      Draw(draws.market, 20, 5));
    var overall := OverallRisk(f);
    FailurePrediction(overall.Floor, LevelOf(overall), f, FailureRecommendations(), FailurePreventiveMeasures())
  }

  // ---------------------------------------------------------------------
  // recommendLoans

  /** The two draws `recommendLoans` makes for each loan. */
  datatype LoanDraws = LoanDraws(approval: real, emi: real)

  predicate ValidLoanDraws(d: LoanDraws) {
    IsUnit(d.approval) && IsUnit(d.emi)
  }

  datatype LoanRecommendation = LoanRecommendation(
    loan: LoanOffer,
    approvalProbability: real,
    recommendedAmount: int,
    monthlyEMI: int)

  /** The sort key of `recommendLoans`. */
  function Approval(l: LoanRecommendation): real {
    l.approvalProbability
  }

  /** `Math.min(95, Math.floor(creditScore / 10) + Math.random() * 20)`: the
      random part is not floored. */
  function ApprovalProbability(creditScore: int, u: real): (r: real)
    requires IsUnit(u)
    ensures r <= 95.0
    ensures MinReal(95.0, (creditScore / 10) as real) <= r < (creditScore / 10) as real + 20.0
  {
    MinReal(95.0, (creditScore / 10) as real + u * 20.0)
  }

  function LoanOf(l: LoanRecommendation): LoanOffer {
    l.loan
  }

  function LoansOf(rs: seq<LoanRecommendation>): (r: seq<LoanOffer>)
    ensures |r| == |rs| && forall i :: 0 <= i < |rs| ==> r[i] == rs[i].loan
  {
    MapSeq(rs, LoanOf)
  }

  /** One entry per loan, in the table's order, before sorting. */
  function LoanEntries(loans: seq<LoanOffer>, farmSize: real, creditScore: int, draws: seq<LoanDraws>): (r: seq<LoanRecommendation>)
    requires |draws| >= |loans| && forall i :: 0 <= i < |draws| ==> ValidLoanDraws(draws[i])
    ensures |r| == |loans| && LoansOf(r) == loans
    ensures forall i :: 0 <= i < |r| ==>
              && MinReal(95.0, (creditScore / 10) as real) <= r[i].approvalProbability <= 95.0
              && r[i].recommendedAmount == (farmSize * 50000.0).Floor
              && 5000 <= r[i].monthlyEMI <= 19999
    ensures forall i :: 0 <= i < |r| ==>
              && ValidLoanDraws(draws[i])
              && r[i].approvalProbability == ApprovalProbability(creditScore, draws[i].approval)
              && r[i].monthlyEMI == Draw(draws[i].emi, 15000, 5000)
  {
    seq(|loans|, i requires 0 <= i < |loans| && i < |draws| && ValidLoanDraws(draws[i]) =>
      LoanRecommendation(
        loans[i],
        ApprovalProbability(creditScore, draws[i].approval),
        (farmSize * 50000.0).Floor,
        Draw(draws[i].emi, 15000, 5000)))
  }

  /** `recommendLoans(farmProfile, creditScore)` over the loan offers `loans`
      (`assets.loans.eligibleLoans`): one entry per loan, sorted by approval
      probability, highest first. The entries are exactly those built from
      each loan with its own draws, reordered; loans whose approvals tie
      (both clamped to 95, say) keep their table order, as the stable
      `sort` does. */
  function RecommendLoans(loans: seq<LoanOffer>, farmSize: real, creditScore: int, draws: seq<LoanDraws>): (r: seq<LoanRecommendation>)
    requires |draws| >= |loans| && forall i :: 0 <= i < |draws| ==> ValidLoanDraws(draws[i])
    ensures multiset(LoansOf(r)) == multiset(loans)
    ensures multiset(r) == multiset(LoanEntries(loans, farmSize, creditScore, draws))
    ensures SortedDesc(r, Approval)
    ensures forall k :: WithKey(r, Approval, k) == WithKey(LoanEntries(loans, farmSize, creditScore, draws), Approval, k)
    ensures forall i :: 0 <= i < |r| ==>
              && MinReal(95.0, (creditScore / 10) as real) <= r[i].approvalProbability <= 95.0
              && r[i].recommendedAmount == (farmSize * 50000.0).Floor
              && 5000 <= r[i].monthlyEMI <= 19999
  {
    var entries := LoanEntries(loans, farmSize, creditScore, draws);
    var r := SortDesc(entries, Approval);
    SortDescSorted(entries, Approval);
    forall k ensures WithKey(r, Approval, k) == WithKey(entries, Approval, k) {
      SortDescStable(entries, Approval, k);
    }
    MapSeqPermutation(r, entries, LoanOf);
    forall i | 0 <= i < |r|
      ensures && MinReal(95.0, (creditScore / 10) as real) <= r[i].approvalProbability <= 95.0
              && r[i].recommendedAmount == (farmSize * 50000.0).Floor
              && 5000 <= r[i].monthlyEMI <= 19999
    {
      assert r[i] in multiset(entries);
    }
    r
  }

  /** For the shipped profile (credit score 785, 5.5 acres) every loan
      recommends 275000 with an approval probability of at least 78. */
  lemma ShippedLoanProfile(draws: seq<LoanDraws>)
    requires |draws| >= |EligibleLoans()| && forall i :: 0 <= i < |draws| ==> ValidLoanDraws(draws[i])
    ensures forall l :: l in RecommendLoans(EligibleLoans(), FarmSize, CreditScore, draws) ==>
              l.recommendedAmount == 275000 && 78.0 <= l.approvalProbability <= 95.0
  {
    assert (FarmSize * 50000.0).Floor == 275000;
    assert CreditScore / 10 == 78;
  }
}

=== FILE: chatbot.dfy ===
/** The farming assistant's chat (client/src/components/Chatbot.jsx): a
    guard against blank input, a log that only grows, and a keyword router
    that picks one of the canned answers by the first keyword group found in
    the lower-cased text. */
module Chatbot {

  import opened Options
  import opened Text

  /** The canned answers, by their key in `assets.chatbot.responses`. */
  datatype Topic = Weather | Fertilizer | PestControl | MarketPrice | CropRotation | Irrigation | DiseaseHelp

  function ResponseKey(t: Topic): string {
    match t
    case Weather => "weather"
    case Fertilizer => "fertilizer"
    case PestControl => "pest control"
    case MarketPrice => "market price"
    case CropRotation => "crop rotation"
    case Irrigation => "irrigation"
    case DiseaseHelp => "disease"
  }

  /** The keyword groups in the order the router tries them; a group matches
      when any of its words occurs in the text. */
  function KeywordTable(): seq<(Topic, seq<string>)> {
    [ (Weather, ["weather"]),
      (Fertilizer, ["fertilizer"]),
      (PestControl, ["pest", "insect"]),
      (MarketPrice, ["price", "market"]),
      (CropRotation, ["rotation"]),
      (Irrigation, ["irrigation", "water"]),
      (DiseaseHelp, ["disease"]) ]
  }

  /** Some word of `words` occurs in `text`. */
  predicate AnyOccurs(text: string, words: seq<string>) {
    exists w :: w in words && Contains(text, w)
  }

  /** The first group of `table` whose words occur in `text`, scanning from
      the front; the weather answer when none does. */
  function FirstMatch(table: seq<(Topic, seq<string>)>, text: string): (r: Topic)
    ensures (forall i :: 0 <= i < |table| ==> !AnyOccurs(text, table[i].1)) ==> r == Weather
    ensures forall i :: (0 <= i < |table| && AnyOccurs(text, table[i].1) &&
                          (forall j :: 0 <= j < i ==> !AnyOccurs(text, table[j].1))) ==> r == table[i].0
    decreases |table|
  {
    if |table| == 0 then Weather
    else if AnyOccurs(text, table[0].1) then table[0].0
    else
      assert forall i :: 1 <= i < |table| ==> table[1..][i - 1] == table[i];
      FirstMatch(table[1..], text)
  }

  lemma AnyOccursOne(text: string, a: string)
    ensures AnyOccurs(text, [a]) <==> Contains(text, a)
  {
    if Contains(text, a) {
      assert a in [a];
    }
  }

  lemma AnyOccursTwo(text: string, a: string, b: string)
    ensures AnyOccurs(text, [a, b]) <==> Contains(text, a) || Contains(text, b)
  {
    if Contains(text, a) {
      assert a in [a, b];
    }
    if Contains(text, b) {
      assert b in [a, b];
    }
  }

  /** The keyword router of `sendMessage`, applied to the text that was sent:
      the first keyword group with a word in the lower-cased text, and the
      weather answer when none has one. */
  function Route(text: string): (r: Topic)
    ensures r == FirstMatch(KeywordTable(), Lower(text))
  {
    ChainIsFirstMatch(Lower(text));
    Chain(Lower(text))
  }

  /** The if-chain of the router over the already lower-cased text `k`. */
  function Chain(k: string): Topic {
    if Contains(k, "weather") then Weather
    else if Contains(k, "fertilizer") then Fertilizer
    else if Contains(k, "pest") || Contains(k, "insect") then PestControl
    else if Contains(k, "price") || Contains(k, "market") then MarketPrice
    else if Contains(k, "rotation") then CropRotation
    else if Contains(k, "irrigation") || Contains(k, "water") then Irrigation
    else if Contains(k, "disease") then DiseaseHelp
    else Weather
  }

  /** The if-chain is the first-match scan of the keyword table. */
  lemma {:induction false} ChainIsFirstMatch(k: string)
    ensures Chain(k) == FirstMatch(KeywordTable(), k)
  {
    var t := KeywordTable();
    AnyOccursOne(k, "weather");
    AnyOccursOne(k, "fertilizer");
    AnyOccursTwo(k, "pest", "insect");
    AnyOccursTwo(k, "price", "market");
    AnyOccursOne(k, "rotation");
    AnyOccursTwo(k, "irrigation", "water");
    AnyOccursOne(k, "disease");
    assert t[1..] == t[1..][..];
    assert t[1..][1..] == t[2..];
    assert t[2..][1..] == t[3..];
    assert t[3..][1..] == t[4..];
    assert t[4..][1..] == t[5..];
    assert t[5..][1..] == t[6..];
    assert t[6..][1..] == [];
  }

  /** Routing ignores letter case. */
  lemma RouteIgnoresCase(text: string)
    ensures Route(Lower(text)) == Route(text)
  {
    LowerIdempotent(text);
  }

  /** Text without any keyword gets the weather answer. */
  lemma NoKeywordMeansWeather(text: string)
    requires forall i :: 0 <= i < |KeywordTable()| ==> !AnyOccurs(Lower(text), KeywordTable()[i].1)
    ensures Route(text) == Weather
  {
  }

  /** "watermelon" holds none of the first four keywords. */
  lemma WatermelonKeywordsEarly(k: string)
    requires k == "watermelon"
    ensures !Contains(k, "weather") && !Contains(k, "fertilizer")
    ensures !Contains(k, "pest") && !Contains(k, "insect")
  {
    assert 'h' in "weather" && 'h' !in k;
    MissingCharNotContained(k, "weather", 'h');
    assert 'f' in "fertilizer" && 'f' !in k;
    MissingCharNotContained(k, "fertilizer", 'f');
    assert 'p' in "pest" && 'p' !in k;
    MissingCharNotContained(k, "pest", 'p');
    assert 'i' in "insect" && 'i' !in k;
    MissingCharNotContained(k, "insect", 'i');
  }

  /** "watermelon" holds none of the price, market and rotation keywords,
      and starts with "water". */
  lemma WatermelonKeywordsLate(k: string)
    requires k == "watermelon"
    ensures !Contains(k, "price") && !Contains(k, "market")
    ensures !Contains(k, "rotation") && Contains(k, "water")
  {
    assert 'p' in "price" && 'p' !in k;
    MissingCharNotContained(k, "price", 'p');
    assert 'k' in "market" && 'k' !in k;
    MissingCharNotContained(k, "market", 'k');
    assert 'i' in "rotation" && 'i' !in k;
    MissingCharNotContained(k, "rotation", 'i');
    assert k[..5] == "water";
    assert StartsWith(k, "water");
  }

  /** Matching is by substring, so "watermelon", in any letter case, is
      routed to irrigation by the word "water" it contains. */
  lemma WatermelonIsIrrigation(text: string)
    requires Lower(text) == "watermelon"
    ensures Route(text) == Irrigation
  {
    WatermelonKeywordsEarly(Lower(text));
    WatermelonKeywordsLate(Lower(text));
  }

  /** One entry of the chat log. */
  datatype Message = Greeting | UserText(text: string) | BotReply(topic: Topic)

  /** The chat screen's state: the log and the input box. */
  datatype ChatState = ChatState(messages: seq<Message>, input: string)

  /** The screen as first shown: the greeting and an empty input box. */
  function InitialChat(): ChatState {
    ChatState([Greeting], "")
  }

  /** Typing into the input box. */
  function SetInput(st: ChatState, text: string): (r: ChatState)
    ensures r.messages == st.messages && r.input == text
  {
    st.(input := text)
  }

  /** What `sendMessage` does at once, and the reply it schedules. */
  datatype Sent = Sent(state: ChatState, reply: Option<Message>)

  /** `sendMessage`: blank input (empty or white space only) changes nothing
      and schedules nothing; otherwise the raw text is appended as the user's
      message, the input is cleared, and a reply routed on the text that was
      sent is scheduled. */
  function SendMessage(st: ChatState): (r: Sent)
    ensures IsBlank(st.input) ==> r.state == st && r.reply == None
    ensures !IsBlank(st.input) ==>
              && r.state.messages == st.messages + [UserText(st.input)]
              && r.state.input == ""
              && r.reply == Some(BotReply(Route(st.input)))
  {
    TrimEmptyIffBlank(st.input);
    if Trim(st.input) == "" then Sent(st, None)
    else Sent(ChatState(st.messages + [UserText(st.input)], ""), Some(BotReply(Route(st.input))))
  }

  /** The timer firing: the scheduled reply is appended to the log as it is
      at that moment. */
  function DeliverReply(st: ChatState, reply: Message): (r: ChatState)
    ensures r.messages == st.messages + [reply]
    ensures r.messages[..|st.messages|] == st.messages
    ensures r.input == st.input
  {
    st.(messages := st.messages + [reply])
  }

  /** A send followed by its reply keeps every earlier message and adds the
      user's text and then the bot's answer. */
  lemma SendThenReply(st: ChatState)
    requires !IsBlank(st.input)
    ensures var s := SendMessage(st);
            s.reply.Some? &&
            DeliverReply(s.state, s.reply.value).messages
              == st.messages + [UserText(st.input), BotReply(Route(st.input))]
  {
  }

  /** Every step of the screen keeps the log's earlier messages. */
  lemma LogOnlyGrows(st: ChatState, text: string, reply: Message)
    ensures SetInput(st, text).messages == st.messages
    ensures st.messages <= SendMessage(st).state.messages
    ensures st.messages <= DeliverReply(st, reply).messages
    ensures |SendMessage(st).state.messages| <= |st.messages| + 1
  {
  }
}

=== FILE: crop_failure_prediction.dfy ===
/** The crop-failure screen (client/src/components/CropFailurePrediction.jsx):
    the crop picker, the stored prediction, the colour of the risk level and
    the colour of each factor's bar. */
module CropFailureScreen {

  import opened Options
  import opened AiHelpers

  /** The colour classes of the level badge and of the factor bars. */
  datatype Color = RedClass | YellowClass | GreenClass | GrayClass

  /** How the helper writes a level: "High", "Medium" or "Low". */
  function LevelText(l: RiskLevel): string {
    match l
    case High => "High"
    case Medium => "Medium"
    case Low => "Low"
  }

  /** `getRiskColor`: an exact, case-sensitive switch on the level text. */
  function GetRiskColor(level: string): (r: Color)
    ensures r == RedClass <==> level == "High"
    ensures r == YellowClass <==> level == "Medium"
    ensures r == GreenClass <==> level == "Low"
    ensures r == GrayClass <==> level != "High" && level != "Medium" && level != "Low"
  {
    if level == "High" then RedClass
    else if level == "Medium" then YellowClass
    else if level == "Low" then GreenClass
    else GrayClass
  }

  /** Every level the helper can produce gets its own colour, never gray,
      and different levels get different colours. */
  lemma LevelColorsDistinct(a: RiskLevel, b: RiskLevel)
    ensures GetRiskColor(LevelText(a)) != GrayClass
    ensures a != b ==> GetRiskColor(LevelText(a)) != GetRiskColor(LevelText(b))
  {
  }

  /** The colour of a factor's bar, by its percentage. */
  function FactorBarColor(value: int): (r: Color)
    ensures r == RedClass <==> value > 70
    ensures r == YellowClass <==> 40 < value <= 70
    ensures r == GreenClass <==> value <= 40
  {
    if value > 70 then RedClass
    else if value > 40 then YellowClass
    else GreenClass
  }

  /** The bars in the order the factors are listed: weather, pest, disease,
      soil, market. */
  function FactorBars(f: RiskFactors): (r: seq<Color>)
    ensures |r| == 5 && forall i :: 0 <= i < 5 ==> r[i] == FactorBarColor(FactorValues(f)[i])
  {
    var v := FactorValues(f);
    [FactorBarColor(v[0]), FactorBarColor(v[1]), FactorBarColor(v[2]), FactorBarColor(v[3]), FactorBarColor(v[4])]
  }

  /** The screen's state: the crop picked and the last prediction. */
  datatype FailureScreen = FailureScreen(selectedCrop: string, prediction: Option<FailurePrediction>)

  /** The screen as first shown: Cotton, no prediction. */
  function InitialScreen(): FailureScreen {
    FailureScreen("Cotton", None)
  }

  /** The crop picker. */
  function SelectCrop(st: FailureScreen, crop: string): (r: FailureScreen)
    ensures r.selectedCrop == crop && r.prediction == st.prediction
  {
    st.(selectedCrop := crop)
  }

  /** `generatePrediction`: the helper's answer for the picked crop, stored
      as it is; the conditions passed are an empty record. The stored
      prediction has each factor in its range, a score that is the floored
      mean of the five factors and lies in [6, 35], and the level Low. */
  function GeneratePrediction(st: FailureScreen, draws: FailureDraws): (r: FailureScreen)
    requires ValidFailureDraws(draws)
    ensures r.selectedCrop == st.selectedCrop && r.prediction.Some?
    ensures var p := r.prediction.value;
            && 10 <= p.factors.weather <= 49 && 5 <= p.factors.pest <= 34 && 5 <= p.factors.disease <= 39
            && 5 <= p.factors.soil <= 29 && 5 <= p.factors.market <= 24
            && p.riskScore as real <= OverallRisk(p.factors) < p.riskScore as real + 1.0
            && 6 <= p.riskScore <= 35
            && p.riskLevel == Low
  {
    st.(prediction := Some(PredictCropFailure(st.selectedCrop, draws)))
  }

  /** What a stored prediction shows: the level badge is always green, no
      bar is ever red, and only the weather bar (up to 49) can turn yellow;
      the pest, disease, soil and market bars are always green. The picked
      crop changes none of it. */
  lemma {:induction false} PredictionDisplay(st: FailureScreen, crop: string, draws: FailureDraws)
    requires ValidFailureDraws(draws)
    ensures var p := GeneratePrediction(st, draws).prediction.value;
            && GetRiskColor(LevelText(p.riskLevel)) == GreenClass
            && (forall i :: 0 <= i < 5 ==> FactorBars(p.factors)[i] != RedClass)
            && (forall i :: 1 <= i < 5 ==> FactorBars(p.factors)[i] == GreenClass)
            && (FactorBars(p.factors)[0] == YellowClass <==> p.factors.weather > 40)
    ensures GeneratePrediction(SelectCrop(st, crop), draws).prediction == GeneratePrediction(st, draws).prediction
  {
    var p := GeneratePrediction(st, draws).prediction.value;
    var v := FactorValues(p.factors);
    assert v == [p.factors.weather, p.factors.pest, p.factors.disease, p.factors.soil, p.factors.market];
  }
}

=== FILE: crop_recommendation.dfy ===
/** The crop-recommendation screen (client/src/components/CropRecommendation.jsx):
    the season picker, the season's crop cards with their profitability
    badge, and the recommendation cards with their risk badge, the BEST
    MATCH label and the highlight icons. */
module CropRecommendationScreen {

  import opened Options
  import opened Tables
  import opened Sorting
  import opened AiHelpers

  /** The three badge colours. */
  datatype Badge = GreenBadge | YellowBadge | RedBadge

  /** How good a badge is, for comparing badges. */
  function BadgeRank(b: Badge): nat {
    match b
    case RedBadge => 0
    case YellowBadge => 1
    case GreenBadge => 2
  }

  /** The profitability badge of a season crop card. */
  function ProfitBadge(profitability: int): (r: Badge)
    ensures r == GreenBadge <==> profitability >= 85
    ensures r == YellowBadge <==> 75 <= profitability < 85
    ensures r == RedBadge <==> profitability < 75
  {
    if profitability >= 85 then GreenBadge
    else if profitability >= 75 then YellowBadge
    else RedBadge
  }

  /** The risk badge of a recommendation card: low risk is green. */
  function RiskBadge(riskFactor: int): (r: Badge)
    ensures r == GreenBadge <==> riskFactor <= 20
    ensures r == YellowBadge <==> 20 < riskFactor <= 35
    ensures r == RedBadge <==> riskFactor > 35
  {
    if riskFactor <= 20 then GreenBadge
    else if riskFactor <= 35 then YellowBadge
    else RedBadge
  }

  /** More profit never gives a worse badge, more risk never a better one. */
  lemma BadgesMonotone(a: int, b: int)
    requires a <= b
    ensures BadgeRank(ProfitBadge(a)) <= BadgeRank(ProfitBadge(b))
    ensures BadgeRank(RiskBadge(a)) >= BadgeRank(RiskBadge(b))
  {
  }

  /** The shipped season tables: how the profit badges fall on each season. */
  lemma ShippedProfitBadges()
    ensures MapSeq(SeasonCrops(Kharif), (c: Crop) => ProfitBadge(c.profitability))
            == [GreenBadge, YellowBadge, GreenBadge, RedBadge]
    ensures MapSeq(SeasonCrops(Rabi), (c: Crop) => ProfitBadge(c.profitability))
            == [GreenBadge, RedBadge, YellowBadge, YellowBadge]
    ensures MapSeq(SeasonCrops(Zaid), (c: Crop) => ProfitBadge(c.profitability))
            == [GreenBadge, GreenBadge, RedBadge]
  {
    var k := SeasonCrops(Kharif);
    var b := SeasonCrops(Rabi);
    var z := SeasonCrops(Zaid);
    assert k[0].profitability == 85 && k[1].profitability == 78;
    assert k[2].profitability == 92 && k[3].profitability == 70;
    assert b[0].profitability == 88 && b[1].profitability == 65;
    assert b[2].profitability == 75 && b[3].profitability == 82;
    assert z[0].profitability == 95 && z[1].profitability == 87 && z[2].profitability == 60;
  }

  /** The icons under a recommendation card. */
  datatype Highlights = Highlights(suitable: bool, lowRisk: bool, trending: bool)

  function HighlightsOf(rec: CropRecommendation): (r: Highlights)
    ensures r.suitable <==> rec.suitabilityScore >= 85
    ensures r.lowRisk <==> rec.riskFactor <= 20
    ensures r.trending <==> rec.crop.profitability >= 80
  {
    Highlights(rec.suitabilityScore >= 85, rec.riskFactor <= 20, rec.crop.profitability >= 80)
  }

  /** The blue check appears exactly on the cards whose risk badge is green;
      the trend icon appears on every green-profit crop and on the yellow
      ones from 80 up. */
  lemma HighlightsAgreeWithBadges(rec: CropRecommendation)
    ensures HighlightsOf(rec).lowRisk <==> RiskBadge(rec.riskFactor) == GreenBadge
    ensures ProfitBadge(rec.crop.profitability) == GreenBadge ==> HighlightsOf(rec).trending
    ensures ProfitBadge(rec.crop.profitability) == RedBadge ==> !HighlightsOf(rec).trending
  {
  }

  /** The screen's state: the season key picked, the filter fields passed to
      the helper, and the recommendations once generated. */
  datatype RecommendationScreen = RecommendationScreen(
    selectedSeason: string,
    soilType: string,
    region: string,
    recommendations: Option<seq<CropRecommendation>>)

  /** The season key is one of the three keys the crop table defines. */
  predicate ValidScreen(st: RecommendationScreen) {
    exists s: Season :: SeasonKey(s) == st.selectedSeason
  }

  /** The screen as first shown: kharif, the default filters, nothing generated. */
  function InitialScreen(): (r: RecommendationScreen)
    ensures ValidScreen(r) && r.recommendations.None?
  {
    assert SeasonKey(Kharif) == "kharif";
    RecommendationScreen("kharif", "Black Cotton Soil", "Maharashtra", None)
  }

  /** A season button: each sets the key listed with it. */
  function SelectSeason(st: RecommendationScreen, s: Season): (r: RecommendationScreen)
    ensures ValidScreen(r) && r.selectedSeason == SeasonKey(s)
    ensures r.recommendations == st.recommendations
  {
    st.(selectedSeason := SeasonKey(s))
  }

  /** The season whose key is picked: the crop list reads `crops[selectedSeason]`
      directly, which is always defined. */
  function SelectedSeason(st: RecommendationScreen): (r: Season)
    requires ValidScreen(st)
    ensures SeasonKey(r) == st.selectedSeason
  {
    var s :| SeasonKey(s) == st.selectedSeason;
    s
  }

  /** `generateRecommendations`: the stored list holds the most profitable
      crops of the season the key names (kharif for an unknown key), highest
      first, with no crop left out beating one kept, and scores and risks in
      range. Every season table holds at least three crops, so there are
      always exactly three cards. The season and the filters are left as
      they were. */
  function GenerateRecommendations(st: RecommendationScreen, draws: seq<CropDraws>): (r: RecommendationScreen)
    requires |draws| >= 3 && forall i :: 0 <= i < |draws| ==> ValidCropDraws(draws[i])
    ensures r.selectedSeason == st.selectedSeason && r.soilType == st.soilType && r.region == st.region
    ensures r.recommendations.Some?
    ensures var recs := r.recommendations.value;
            var table := SeasonCrops(LookupSeason(st.selectedSeason));
            && |recs| == 3
            && multiset(CropsOf(recs)) <= multiset(table)
            && SortedDesc(CropsOf(recs), Profit)
            && (forall c :: c in multiset(table) - multiset(CropsOf(recs)) ==>
                  forall i :: 0 <= i < |recs| ==> c.profitability <= recs[i].crop.profitability)
            && (forall i :: 0 <= i < |recs| ==> 80 <= recs[i].suitabilityScore <= 99 && 10 <= recs[i].riskFactor <= 39)
  {
    var season := LookupSeason(st.selectedSeason);
    SeasonTablesHoldThree(season);
    var recs := RecommendCrops(SeasonCrops, st.soilType, st.selectedSeason, st.region, draws);
    assert |recs| == 3 by {
      assert Min(3, |SeasonCrops(season)|) == 3;
    }
    st.(recommendations := Some(recs))
  }

  /** The helper receives a key the crop table defines, so its fallback to
      kharif is never taken here: the recommendations are drawn from the
      very list the screen shows for the picked season. */
  lemma {:induction false} RecommendationsFromShownSeason(st: RecommendationScreen, draws: seq<CropDraws>)
    requires ValidScreen(st)
    requires |draws| >= 3 && forall i :: 0 <= i < |draws| ==> ValidCropDraws(draws[i])
    ensures LookupSeason(st.selectedSeason) == SelectedSeason(st)
    ensures multiset(CropsOf(GenerateRecommendations(st, draws).recommendations.value))
            <= multiset(SeasonCrops(SelectedSeason(st)))
  {
    SeasonKeysSelectOwnTable(SelectedSeason(st));
  }

  /** The BEST MATCH label: on the first card only. */
  predicate BestMatch(index: int) {
    index == 0
  }

  /** Every season table holds at least three crops. */
  lemma SeasonTablesHoldThree(s: Season)
    ensures |SeasonCrops(s)| >= 3
  {
  }

  /** In a sorted selection that no left-out crop beats, the first entry is
      the most profitable of the selection and of the whole table. */
  lemma {:induction false} FirstIsMax(table: seq<Crop>, recs: seq<CropRecommendation>)
    requires |recs| > 0 && SortedDesc(CropsOf(recs), Profit)
    requires forall c :: c in multiset(table) - multiset(CropsOf(recs)) ==>
               forall i :: 0 <= i < |recs| ==> c.profitability <= recs[i].crop.profitability
    ensures forall i :: 0 <= i < |recs| ==> recs[i].crop.profitability <= recs[0].crop.profitability
    ensures forall c :: c in table ==> c.profitability <= recs[0].crop.profitability
  {
    var crops := CropsOf(recs);
    forall i | 0 <= i < |recs|
      ensures recs[i].crop.profitability <= recs[0].crop.profitability
    {
      if i > 0 {
        assert Profit(crops[0]) >= Profit(crops[i]);
      }
    }
    forall c | c in table
      ensures c.profitability <= recs[0].crop.profitability
    {
      if c !in multiset(table) - multiset(crops) {
        assert c in multiset(crops);
        var j :| 0 <= j < |crops| && crops[j] == c;
        assert recs[j].crop == c;
      }
    }
  }

  /** A list whose first entry is the most profitable: the entry labelled
      BEST MATCH beats every entry and every crop of the table. */
  lemma BestMatchOfList(recs: seq<CropRecommendation>, table: seq<Crop>)
    requires |recs| > 0
    requires forall i :: 0 <= i < |recs| ==> recs[i].crop.profitability <= recs[0].crop.profitability
    requires forall c :: c in table ==> c.profitability <= recs[0].crop.profitability
    ensures forall i, j :: 0 <= i < |recs| && 0 <= j < |recs| && BestMatch(i) ==>
              recs[j].crop.profitability <= recs[i].crop.profitability
    ensures forall i, c :: 0 <= i < |recs| && BestMatch(i) && c in table ==>
              c.profitability <= recs[i].crop.profitability
  {
  }

  /** Over any crop tables: the first recommendation for a season key is the
      most profitable of the recommendations and of the season's table. */
  lemma {:induction false} BestMatchOver(crops: Season -> seq<Crop>, st: RecommendationScreen, season: Season,
                                         draws: seq<CropDraws>)
    requires st.selectedSeason == SeasonKey(season) && |crops(season)| > 0
    requires |draws| >= 3 && forall i :: 0 <= i < |draws| ==> ValidCropDraws(draws[i])
    ensures var recs := RecommendCrops(crops, st.soilType, st.selectedSeason, st.region, draws);
            |recs| > 0
            && (forall i :: 0 <= i < |recs| ==> recs[i].crop.profitability <= recs[0].crop.profitability)
            && (forall c :: c in crops(season) ==> c.profitability <= recs[0].crop.profitability)
  {
    var recs := RecommendCrops(crops, st.soilType, st.selectedSeason, st.region, draws);
    assert LookupSeason(st.selectedSeason) == season by {
      SeasonKeysSelectOwnTable(season);
    }
    FirstIsMax(crops(season), recs);
  }

  /** The card labelled BEST MATCH has the highest profitability among the
      recommendations and among all the crops of the season. */
  lemma {:induction false} BestMatchIsMostProfitable(st: RecommendationScreen, season: Season, draws: seq<CropDraws>)
    requires st.selectedSeason == SeasonKey(season)
    requires |draws| >= 3 && forall i :: 0 <= i < |draws| ==> ValidCropDraws(draws[i])
    ensures var recs := GenerateRecommendations(st, draws).recommendations.value;
            |recs| > 0
            && (forall i, j :: 0 <= i < |recs| && 0 <= j < |recs| && BestMatch(i) ==>
                  recs[j].crop.profitability <= recs[i].crop.profitability)
            && (forall i, c :: 0 <= i < |recs| && BestMatch(i) && c in SeasonCrops(season) ==>
                  c.profitability <= recs[i].crop.profitability)
  {
    SeasonTablesHoldThree(season);
    BestMatchOver(SeasonCrops, st, season, draws);
    BestMatchOfList(RecommendCrops(SeasonCrops, st.soilType, st.selectedSeason, st.region, draws), SeasonCrops(season));
  }
}

=== FILE: disease_detection.dfy ===
/** The disease-detection screen (client/src/components/DiseaseDetection.jsx):
    the drag-highlight flag, the image guard on dropped and picked files, the
    analyse and reset buttons, and the colour of the detected severity. The
    screen is a record of its five state hooks; every handler is a function
    from that record to the next one. */
module DiseaseDetection {

  import opened Options
  import opened Text
  import opened Tables
  import opened AiHelpers

  /** A file offered to the screen: its name and its MIME type. */
  datatype ImageFile = ImageFile(name: string, mimeType: string)

  /** `selectedImage`, `imagePreview`, `isAnalyzing`, `analysisResult`, `dragActive`. */
  datatype DetectionScreen = DetectionScreen(
    selectedImage: Option<ImageFile>,
    imagePreview: string,
    isAnalyzing: bool,
    analysisResult: Option<Detection>,
    dragActive: bool)

  /** The screen as first shown: every hook at its initial value. */
  function InitialScreen(): DetectionScreen {
    DetectionScreen(None, "", false, None, false)
  }

  /** `handleDrag`: entering or moving over the drop zone lights it up,
      leaving it turns it off, any other event type changes nothing. */
  function HandleDrag(st: DetectionScreen, eventType: string): (r: DetectionScreen)
    ensures eventType == "dragenter" || eventType == "dragover" ==> r.dragActive
    ensures eventType == "dragleave" ==> !r.dragActive
    ensures eventType != "dragenter" && eventType != "dragover" && eventType != "dragleave" ==> r == st
    ensures r == st.(dragActive := r.dragActive)
  {
    if eventType == "dragenter" || eventType == "dragover" then st.(dragActive := true)
    else if eventType == "dragleave" then st.(dragActive := false)
    else st
  }

  /** The same drag event twice has the effect of once. */
  lemma HandleDragIdempotent(st: DetectionScreen, eventType: string)
    ensures HandleDrag(HandleDrag(st, eventType), eventType) == HandleDrag(st, eventType)
  {
  }

  /** `handleFiles`: only a file whose MIME type starts with "image/" is
      selected. The preview is filled in later by the file reader (see
      `PreviewLoaded`). */
  function HandleFile(st: DetectionScreen, file: ImageFile): (r: DetectionScreen)
    ensures StartsWith(file.mimeType, "image/") ==> r == st.(selectedImage := Some(file))
    ensures !StartsWith(file.mimeType, "image/") ==> r == st
  {
    if StartsWith(file.mimeType, "image/") then st.(selectedImage := Some(file)) else st
  }

  /** The file list of a drop or of the picker: only its first entry is
      handled, and an empty list changes nothing. */
  function HandleFirstFile(st: DetectionScreen, files: seq<ImageFile>): (r: DetectionScreen)
    ensures |files| == 0 ==> r == st
    ensures |files| > 0 ==> r == HandleFile(st, files[0])
  {
    if |files| > 0 then HandleFile(st, files[0]) else st
  }

  /** `handleDrop`: the highlight goes off whatever was dropped, then the
      first file goes through the image guard. */
  function HandleDrop(st: DetectionScreen, files: seq<ImageFile>): (r: DetectionScreen)
    ensures !r.dragActive
    ensures r.isAnalyzing == st.isAnalyzing && r.analysisResult == st.analysisResult
    ensures r.imagePreview == st.imagePreview
    ensures |files| > 0 && StartsWith(files[0].mimeType, "image/") ==> r.selectedImage == Some(files[0])
    ensures r.selectedImage.Some? && r.selectedImage != st.selectedImage ==>
              |files| > 0 && r.selectedImage == Some(files[0]) && StartsWith(files[0].mimeType, "image/")
  {
    HandleFirstFile(st.(dragActive := false), files)
  }

  /** `handleFileSelect`: the picker's files, first one only. Unlike a drop
      it leaves the drag highlight alone; only the selection can change, and
      only to a first file that is an image. */
  function HandleFileSelect(st: DetectionScreen, files: seq<ImageFile>): (r: DetectionScreen)
    ensures r.dragActive == st.dragActive && r.imagePreview == st.imagePreview
    ensures r.isAnalyzing == st.isAnalyzing && r.analysisResult == st.analysisResult
    ensures |files| > 0 && StartsWith(files[0].mimeType, "image/") ==> r.selectedImage == Some(files[0])
    ensures r.selectedImage != st.selectedImage ==>
              |files| > 0 && r.selectedImage == Some(files[0]) && StartsWith(files[0].mimeType, "image/")
  {
    HandleFirstFile(st, files)
  }

  /** Files after the first never matter: two drops that agree on their
      first file leave the same screen. */
  lemma DropReadsFirstFileOnly(st: DetectionScreen, a: seq<ImageFile>, b: seq<ImageFile>)
    requires |a| > 0 && |b| > 0 && a[0] == b[0]
    ensures HandleDrop(st, a) == HandleDrop(st, b)
  {
  }

  /** A file that is not an image is ignored entirely: the drop only turns
      the highlight off and the picker changes nothing at all. */
  lemma NonImageIgnored(st: DetectionScreen, files: seq<ImageFile>)
    requires |files| > 0 && !StartsWith(files[0].mimeType, "image/")
    ensures HandleDrop(st, files) == st.(dragActive := false)
    ensures HandleFileSelect(st, files) == st
  {
  }

  /** The file reader finishing: the preview becomes the file's data URL. */
  function PreviewLoaded(st: DetectionScreen, dataUrl: string): (r: DetectionScreen)
    ensures r.imagePreview == dataUrl
    ensures r.selectedImage == st.selectedImage && r.isAnalyzing == st.isAnalyzing
    ensures r.analysisResult == st.analysisResult && r.dragActive == st.dragActive
  {
    st.(imagePreview := dataUrl)
  }

  /** `analyzeImage`: without a selected image nothing happens; otherwise
      the analysing flag goes up until the timer fires. */
  function AnalyzeImage(st: DetectionScreen): (r: DetectionScreen)
    ensures st.selectedImage.None? ==> r == st
    ensures st.selectedImage.Some? ==> r == st.(isAnalyzing := true)
  {
    if st.selectedImage.None? then st else st.(isAnalyzing := true)
  }

  /** The timer of `analyzeImage` firing: the detection is stored and the
      flag goes down. The image itself is never looked at. */
  function AnalysisFinished(st: DetectionScreen, draws: DetectionDraws): (r: DetectionScreen)
    requires ValidDetectionDraws(draws)
    ensures r.analysisResult.Some? && r.analysisResult.value.disease in Diseases()
    ensures 80 <= r.analysisResult.value.confidence <= 99
    ensures !r.isAnalyzing
    ensures r.selectedImage == st.selectedImage && r.imagePreview == st.imagePreview
  {
    st.(analysisResult := Some(DetectDisease(draws)), isAnalyzing := false)
  }

  /** `resetAnalysis`: image, preview, result and flag are cleared; the drag
      highlight is not touched. */
  function ResetAnalysis(st: DetectionScreen): (r: DetectionScreen)
    ensures r.selectedImage.None? && r.imagePreview == "" && r.analysisResult.None? && !r.isAnalyzing
    ensures r.dragActive == st.dragActive
  {
    DetectionScreen(None, "", false, None, st.dragActive)
  }

  /** The "upload an image to begin" panel. */
  predicate EmptyState(st: DetectionScreen) {
    st.selectedImage.None? && st.analysisResult.None? && !st.isAnalyzing
  }

  /** Reset always brings back the empty panel, after which analysing does
      nothing; the panel is also what the screen starts with. */
  lemma ResetShowsEmptyState(st: DetectionScreen)
    ensures EmptyState(ResetAnalysis(st))
    ensures AnalyzeImage(ResetAnalysis(st)) == ResetAnalysis(st)
    ensures ResetAnalysis(ResetAnalysis(st)) == ResetAnalysis(st)
    ensures EmptyState(InitialScreen())
  {
  }

  /** A drop of an image followed by the analyse button and the timer gives
      a screen that shows the detection and not the empty panel. */
  lemma DropAnalyzeFinish(st: DetectionScreen, file: ImageFile, draws: DetectionDraws)
    requires StartsWith(file.mimeType, "image/") && ValidDetectionDraws(draws)
    ensures var s := AnalysisFinished(AnalyzeImage(HandleDrop(st, [file])), draws);
            && s.selectedImage == Some(file)
            && s.analysisResult.Some?
            && !s.isAnalyzing
            && !EmptyState(s)
  {
    assert HandleDrop(st, [file]).selectedImage == Some(file);
  }

  /** The colour classes of the severity badge. */
  datatype SeverityColor = Red | DarkRed | YellowBadge | GreenBadge | Gray

  /** `getSeverityColor`: a switch on the lower-cased severity, gray by default. */
  function GetSeverityColor(severity: string): (r: SeverityColor)
    ensures r == Red <==> Lower(severity) == "high"
    ensures r == DarkRed <==> Lower(severity) == "critical"
    ensures r == YellowBadge <==> Lower(severity) == "medium"
    ensures r == GreenBadge <==> Lower(severity) == "low"
    ensures r == Gray <==> !(Lower(severity) in ["high", "critical", "medium", "low"])
  {
    var k := Lower(severity);
    if k == "high" then Red
    else if k == "critical" then DarkRed
    else if k == "medium" then YellowBadge
    else if k == "low" then GreenBadge
    else Gray
  }

  /** The badge ignores letter case. */
  lemma SeverityCaseIgnored(severity: string)
    ensures GetSeverityColor(Lower(severity)) == GetSeverityColor(severity)
  {
    LowerIdempotent(severity);
  }

  /** Every severity written in the disease table, capitalised as it is
      there, gets its own colour and never the gray default. */
  lemma TableSeveritiesColoured()
    ensures GetSeverityColor(Diseases()[0].severity) == Red
    ensures GetSeverityColor(Diseases()[1].severity) == YellowBadge
    ensures GetSeverityColor(Diseases()[2].severity) == DarkRed
    ensures forall d :: d in Diseases() ==> GetSeverityColor(d.severity) != Gray
  {
    var ds := Diseases();
    assert ds[0].severity == "High" && Lower("High") == "high";
    assert ds[1].severity == "Medium" && Lower("Medium") == "medium";
    assert ds[2].severity == "Critical" && Lower("Critical") == "critical";
  }
}

=== FILE: ecommerce.dfy ===
/** The shop screen (client/src/components/EcommercePlatform.jsx): the
    active category's products filtered by a case-insensitive search on the
    product name, and a cart that products are appended to. */
module Ecommerce {

  import opened Options
  import opened Text
  import opened Tables

  /** The search test: the lower-cased name contains the lower-cased query.
      Brand and features are not searched. */
  predicate Matches(p: Product, query: string) {
    Contains(Lower(p.name), Lower(query))
  }

  /** `assets.products[activeCategory].filter(...)` on the given list. */
  function FilterProducts(products: seq<Product>, query: string): (r: seq<Product>)
    ensures |r| <= |products|
    ensures forall p :: p in r <==> p in products && Matches(p, query)
    decreases |products|
  {
    if |products| == 0 then []
    else
      assert products == [products[0]] + products[1..];
      var rest := FilterProducts(products[1..], query);
      if Matches(products[0], query) then [products[0]] + rest else rest
  }

  /** Every position moved one place to the right. */
  function Shift(s: seq<nat>): (r: seq<nat>)
    ensures |r| == |s| && forall k :: 0 <= k < |s| ==> r[k] == s[k] + 1
  {
    seq(|s|, k requires 0 <= k < |s| => s[k] + 1)
  }

  /** The positions of the products that match, in increasing order. */
  function MatchingIndices(products: seq<Product>, query: string): (r: seq<nat>)
    ensures forall k :: 0 <= k < |r| ==> r[k] < |products|
    ensures forall k, l :: 0 <= k < l < |r| ==> r[k] < r[l]
    ensures forall i :: 0 <= i < |products| ==> (i in r <==> Matches(products[i], query))
    decreases |products|
  {
    if |products| == 0 then []
    else
      var tail := products[1..];
      var rest := MatchingIndices(tail, query);
      var shifted := Shift(rest);
      assert forall i :: 0 < i < |products| ==> (i in shifted <==> i - 1 in rest) by {
        forall i | 0 < i < |products| ensures i in shifted <==> i - 1 in rest {
          if i - 1 in rest {
            var k :| 0 <= k < |rest| && rest[k] == i - 1;
            assert shifted[k] == i;
          }
        }
      }
      assert forall i :: 0 < i < |products| ==> products[i] == tail[i - 1];
      assert 0 !in shifted;
      if Matches(products[0], query) then [0] + shifted else shifted
  }

  /** The filter keeps exactly the matching products, in their order: its
      result is the list read at the increasing positions of the matches. */
  lemma {:induction false} FilterIsOrderedSelection(products: seq<Product>, query: string)
    ensures |FilterProducts(products, query)| == |MatchingIndices(products, query)|
    ensures forall k :: 0 <= k < |MatchingIndices(products, query)| ==>
              FilterProducts(products, query)[k] == products[MatchingIndices(products, query)[k]]
    decreases |products|
  {
    if |products| > 0 {
      var tail := products[1..];
      FilterIsOrderedSelection(tail, query);
      var rest := MatchingIndices(tail, query);
      var ft := FilterProducts(tail, query);
      if Matches(products[0], query) {
        assert MatchingIndices(products, query) == [0] + Shift(rest);
        assert FilterProducts(products, query) == [products[0]] + ft;
      } else {
        assert MatchingIndices(products, query) == Shift(rest);
        assert FilterProducts(products, query) == ft;
      }
      SelectionStep(products, rest, ft, Matches(products[0], query),
                    MatchingIndices(products, query), FilterProducts(products, query));
    }
  }

  /** One step of the selection: a selection of the tail, moved one place to
      the right and with the head put in front when it is kept, is a
      selection of the whole list. */
  lemma SelectionStep(products: seq<Product>, rest: seq<nat>, ft: seq<Product>, keep: bool,
                      idx: seq<nat>, f: seq<Product>)
    requires |products| > 0 && |ft| == |rest|
    requires forall k :: 0 <= k < |rest| ==> rest[k] < |products| - 1 && ft[k] == products[1..][rest[k]]
    requires keep ==> idx == [0] + Shift(rest) && f == [products[0]] + ft
    requires !keep ==> idx == Shift(rest) && f == ft
    ensures |f| == |idx|
    ensures forall k :: 0 <= k < |idx| ==> idx[k] < |products| && f[k] == products[idx[k]]
  {
    var sh := Shift(rest);
    if keep {
      forall k | 0 <= k < |idx| ensures idx[k] < |products| && f[k] == products[idx[k]] {
        if k > 0 {
          assert f[k] == ft[k - 1] && idx[k] == sh[k - 1] == rest[k - 1] + 1;
        }
      }
    } else {
      forall k | 0 <= k < |idx| ensures idx[k] < |products| && f[k] == products[idx[k]] {
        assert idx[k] == rest[k] + 1;
      }
    }
  }

  /** An empty query keeps the whole category. */
  lemma {:induction false} EmptyQueryKeepsAll(products: seq<Product>)
    ensures FilterProducts(products, "") == products
    decreases |products|
  {
    if |products| > 0 {
      ContainsEmpty(Lower(products[0].name));
      assert Lower("") == "";
      EmptyQueryKeepsAll(products[1..]);
      assert products == [products[0]] + products[1..];
    }
  }

  /** Filtering twice with the same query is filtering once. */
  lemma {:induction false} FilterIdempotent(products: seq<Product>, query: string)
    ensures FilterProducts(FilterProducts(products, query), query) == FilterProducts(products, query)
    decreases |products|
  {
    if |products| > 0 {
      FilterIdempotent(products[1..], query);
      var rest := FilterProducts(products[1..], query);
      if Matches(products[0], query) {
        assert ([products[0]] + rest)[1..] == rest;
      }
    }
  }

  /** "No products found" shows exactly when no product name matches. */
  lemma NoProductsMessage(products: seq<Product>, query: string)
    ensures |FilterProducts(products, query)| == 0 <==> forall i :: 0 <= i < |products| ==> !Matches(products[i], query)
  {
    if |FilterProducts(products, query)| > 0 {
      assert FilterProducts(products, query)[0] in FilterProducts(products, query);
    }
  }

  /** A name without the letter y, in either case, has none once lower-cased. */
  lemma NoLetterY(name: string)
    requires forall k :: 0 <= k < |name| ==> name[k] != 'y' && name[k] != 'Y'
    ensures 'y' !in Lower(name)
  {
  }

  /** No seed name holds the letter y. */
  lemma SeedNamesLackY()
    ensures forall i :: 0 <= i < |Products(Seeds)| ==> 'y' !in Lower(Products(Seeds)[i].name)
  {
    var ps := Products(Seeds);
    NoLetterY(ps[0].name);
    NoLetterY(ps[1].name);
    NoLetterY(ps[2].name);
  }

  /** The brand is not searched: "Mahyco", the brand of the BT cotton seeds,
      finds nothing among the seeds. */
  lemma BrandIsNotSearched(query: string)
    requires Lower(query) == "mahyco"
    ensures FilterProducts(Products(Seeds), query) == []
  {
    var ps := Products(Seeds);
    var q := Lower(query);
    assert q[3] == 'y';
    SeedNamesLackY();
    forall i | 0 <= i < |ps| ensures !Matches(ps[i], query) {
      MissingCharNotContained(Lower(ps[i].name), q, 'y');
    }
    NoProductsMessage(ps, query);
  }

  /** `addToCart`: the product goes at the end; duplicates are allowed. */
  function AddToCart(cart: seq<Product>, p: Product): (r: seq<Product>)
    ensures |r| == |cart| + 1
    ensures r[..|cart|] == cart && r[|cart|] == p
    ensures multiset(r)[p] == multiset(cart)[p] + 1
  {
    cart + [p]
  }

  /** Adding products one after the other appends them in order. */
  function AddAll(cart: seq<Product>, ps: seq<Product>): seq<Product>
    decreases |ps|
  {
    if |ps| == 0 then cart else AddAll(AddToCart(cart, ps[0]), ps[1..])
  }

  lemma {:induction false} AddAllAppends(cart: seq<Product>, ps: seq<Product>)
    ensures AddAll(cart, ps) == cart + ps
    decreases |ps|
  {
    if |ps| > 0 {
      var next := AddToCart(cart, ps[0]);
      assert AddAll(cart, ps) == AddAll(next, ps[1..]);
      assert next == cart + [ps[0]];
      AddAllAppends(next, ps[1..]);
      assert ps == [ps[0]] + ps[1..];
      assert next + ps[1..] == cart + ps;
    }
  }

  /** The cart badge: the number of items, shown only when the cart is not
      empty. */
  function CartBadge(cart: seq<Product>): Option<nat> {
    if |cart| > 0 then Some(|cart|) else None
  }

  /** After adding `ps` to a cart, the badge shows exactly when something is
      in it, and it counts the earlier items plus every add, duplicates
      included. */
  lemma BadgeCountsAdds(cart: seq<Product>, ps: seq<Product>)
    ensures CartBadge(AddAll(cart, ps)).Some? <==> |cart| + |ps| > 0
    ensures CartBadge(AddAll(cart, ps)).Some? ==> CartBadge(AddAll(cart, ps)).value == |cart| + |ps|
  {
    AddAllAppends(cart, ps);
  }
}

=== FILE: expense_calculator.dfy ===
/** The expense and profit calculator (client/src/components/ExpenseCalculator.jsx):
    totals over the ledger, net profit, the ratios derived from them, and the
    cells of the detailed expense table. Ratios are JavaScript numbers, so a
    zero denominator yields an infinity or NaN rather than an error. */
module ExpenseCalculator {

  import opened Options
  import opened JsNumber
  import opened Text
  import opened Tables

  /** `calculateTotal(items)`: the sum of the items' totals. */
  function CalculateTotal(items: seq<LedgerItem>): (r: int)
    ensures |items| == 0 ==> r == 0
    ensures (forall i :: 0 <= i < |items| ==> items[i].total >= 0) ==> r >= 0
    decreases |items|
  {
    if |items| == 0 then 0
    else
      assert forall i :: 1 <= i < |items| ==> items[1..][i - 1] == items[i];
      items[0].total + CalculateTotal(items[1..])
  }

  /** The sum of a concatenation is the sum of the parts. */
  lemma {:induction false} CalculateTotalAppend(a: seq<LedgerItem>, b: seq<LedgerItem>)
    ensures CalculateTotal(a + b) == CalculateTotal(a) + CalculateTotal(b)
    decreases |a|
  {
    if |a| == 0 {
      assert a + b == b;
    } else {
      assert (a + b)[1..] == a[1..] + b;
      CalculateTotalAppend(a[1..], b);
    }
  }

  /** `Object.values(categories).flat()`: every item, category by category. */
  function Flatten(cats: seq<ExpenseCategory>): (r: seq<LedgerItem>)
    ensures |cats| == 0 ==> r == []
    decreases |cats|
  {
    if |cats| == 0 then [] else cats[0].items + Flatten(cats[1..])
  }

  /** `totalExpenses`: the sum over the flattened categories. */
  function TotalExpenses(cats: seq<ExpenseCategory>): int {
    CalculateTotal(Flatten(cats))
  }

  /** The category totals shown in the breakdown, in key order. */
  function CategoryTotals(cats: seq<ExpenseCategory>): (r: seq<int>)
    ensures |r| == |cats| && forall i :: 0 <= i < |cats| ==> r[i] == CalculateTotal(cats[i].items)
  {
    seq(|cats|, i requires 0 <= i < |cats| => CalculateTotal(cats[i].items))
  }

  /** The sum of a list of integers. */
  function SumInts(xs: seq<int>): int
    decreases |xs|
  {
    if |xs| == 0 then 0 else xs[0] + SumInts(xs[1..])
  }

  /** The total over the flattened ledger is the sum of the category totals. */
  lemma {:induction false} TotalIsSumOfCategories(cats: seq<ExpenseCategory>)
    ensures TotalExpenses(cats) == SumInts(CategoryTotals(cats))
    decreases |cats|
  {
    if |cats| > 0 {
      TotalIsSumOfCategories(cats[1..]);
      CalculateTotalAppend(cats[0].items, Flatten(cats[1..]));
      assert CategoryTotals(cats)[1..] == CategoryTotals(cats[1..]);
    }
  }

  /** `totalIncome`. */
  function TotalIncome(income: seq<LedgerItem>): int {
    CalculateTotal(income)
  }

  /** `netProfit`, and whether the profit card uses the positive style. */
  function NetProfit(totalIncome: int, totalExpenses: int): (r: int)
    ensures r + totalExpenses == totalIncome
  {
    totalIncome - totalExpenses
  }

  predicate PositiveStyle(netProfit: int) {
    netProfit >= 0
  }

  /** `x / y * 100` on JavaScript numbers. */
  function PercentOf(x: int, y: int): (r: Num)
    ensures y != 0 ==> r.Finite? && r.v * y as real == x as real * 100.0
    ensures y == 0 ==> (r.NaN? <==> x == 0) && (r.PosInf? <==> x > 0) && (r.NegInf? <==> x < 0)
  {
    Scale(Div(x as real, y as real), 100.0)
  }

  /** A percentage of a positive `y` is non-negative iff `x` is, and at most
      100 iff `x` is at most `y`. */
  lemma PercentSigns(x: int, y: int)
    requires y > 0
    ensures PercentOf(x, y).Finite?
    ensures PercentOf(x, y).v >= 0.0 <==> x >= 0
    ensures PercentOf(x, y).v <= 100.0 <==> x <= y
  {
    PercentCompare(PercentOf(x, y).v, x, y);
  }

  /** `profitMargin`, before `toFixed(1)`: net profit as a share of income.
      Without income it is not a finite number. */
  function ProfitMargin(netProfit: int, totalIncome: int): (r: Num)
    ensures totalIncome == 0 ==> !r.Finite?
    ensures totalIncome != 0 ==> r.Finite? && r.v * totalIncome as real == netProfit as real * 100.0
    ensures totalIncome == 0 ==> (r.NaN? <==> netProfit == 0) && (r.PosInf? <==> netProfit > 0) && (r.NegInf? <==> netProfit < 0)
    ensures totalIncome > 0 ==> r.Finite? && (r.v >= 0.0 <==> netProfit >= 0)
                                          && (r.v <= 100.0 <==> netProfit <= totalIncome)
  {
    if totalIncome > 0 then PercentSigns(netProfit, totalIncome); PercentOf(netProfit, totalIncome) else PercentOf(netProfit, totalIncome)
  }

  /** The break-even point: expenses as a share of income, at most 100
      exactly when the income covers the expenses. */
  function BreakEven(totalExpenses: int, totalIncome: int): (r: Num)
    ensures totalIncome == 0 ==> !r.Finite?
    ensures totalIncome != 0 ==> r.Finite? && r.v * totalIncome as real == totalExpenses as real * 100.0
    ensures totalIncome == 0 ==> (r.NaN? <==> totalExpenses == 0) && (r.PosInf? <==> totalExpenses > 0) && (r.NegInf? <==> totalExpenses < 0)
    ensures totalIncome > 0 ==> r.Finite? && (r.v >= 0.0 <==> totalExpenses >= 0)
                                          && (r.v <= 100.0 <==> totalExpenses <= totalIncome)
  {
    if totalIncome > 0 then PercentSigns(totalExpenses, totalIncome); PercentOf(totalExpenses, totalIncome) else PercentOf(totalExpenses, totalIncome)
  }

  /** Return on investment: net profit as a share of expenses. */
  function Roi(netProfit: int, totalExpenses: int): (r: Num)
    ensures totalExpenses == 0 ==> !r.Finite?
    ensures totalExpenses != 0 ==> r.Finite? && r.v * totalExpenses as real == netProfit as real * 100.0
    ensures totalExpenses == 0 ==> (r.NaN? <==> netProfit == 0) && (r.PosInf? <==> netProfit > 0) && (r.NegInf? <==> netProfit < 0)
    ensures totalExpenses > 0 ==> r.Finite? && (r.v >= 0.0 <==> netProfit >= 0)
                                            && (r.v <= 100.0 <==> netProfit <= totalExpenses)
  {
    if totalExpenses > 0 then PercentSigns(netProfit, totalExpenses); PercentOf(netProfit, totalExpenses) else PercentOf(netProfit, totalExpenses)
  }

  /** A percentage `v` of `x` over a positive `y` is non-negative iff `x`
      is, and at most 100 iff `x` is at most `y`. */
  lemma PercentCompare(v: real, x: int, y: int)
    requires y > 0 && v * y as real == x as real * 100.0
    ensures v >= 0.0 <==> x >= 0
    ensures v <= 100.0 <==> x <= y
  {
    var w := y as real;
    assert (v - 100.0) * w == (x - y) as real * 100.0;
  }

  /** Cost and revenue per hectare: the totals spread over 5 hectares. */
  function PerHectare(total: int): (r: real)
    ensures r * 5.0 == total as real
  {
    total as real / 5.0
  }

  /** With income, the break-even point and the profit margin add up to 100. */
  lemma BreakEvenPlusMargin(totalIncome: int, totalExpenses: int)
    requires totalIncome != 0
    ensures BreakEven(totalExpenses, totalIncome).Finite?
    ensures ProfitMargin(NetProfit(totalIncome, totalExpenses), totalIncome).Finite?
    ensures BreakEven(totalExpenses, totalIncome).v
            + ProfitMargin(NetProfit(totalIncome, totalExpenses), totalIncome).v == 100.0
  {
    var b := BreakEven(totalExpenses, totalIncome).v;
    var m := ProfitMargin(NetProfit(totalIncome, totalExpenses), totalIncome).v;
    WholeSplitsInTwo(b, m, totalExpenses as real, totalIncome as real);
  }

  /** Two percentages of the same whole whose parts add up to it sum to 100. */
  lemma WholeSplitsInTwo(b: real, m: real, x: real, i: real)
    requires i != 0.0 && b * i == x * 100.0 && m * i == (i - x) * 100.0
    ensures b + m == 100.0
  {
    assert (b + m) * i == b * i + m * i;
    assert (b + m - 100.0) * i == 0.0;
  }

  /** The category percentages of the breakdown. */
  function SharePercents(parts: seq<int>, total: int): (r: seq<Num>)
    ensures |r| == |parts| && forall i :: 0 <= i < |parts| ==> r[i] == PercentOf(parts[i], total)
  {
    seq(|parts|, i requires 0 <= i < |parts| => PercentOf(parts[i], total))
  }

  /** The sum of finite percentages. */
  function SumFinite(xs: seq<Num>): real
    decreases |xs|
  {
    if |xs| == 0 then 0.0
    else (if xs[0].Finite? then xs[0].v else 0.0) + SumFinite(xs[1..])
  }

  /** Scaled back by the total, the shares sum to the parts' sum times 100. */
  lemma {:induction false} SharesScale(parts: seq<int>, total: int)
    requires total != 0
    ensures SumFinite(SharePercents(parts, total)) * total as real == SumInts(parts) as real * 100.0
    decreases |parts|
  {
    if |parts| > 0 {
      SharesScale(parts[1..], total);
      assert SharePercents(parts, total)[1..] == SharePercents(parts[1..], total);
      var head := PercentOf(parts[0], total).v;
      var rest := SumFinite(SharePercents(parts[1..], total));
      var t := total as real;
      assert SumFinite(SharePercents(parts, total)) == head + rest;
      assert head * t == parts[0] as real * 100.0;
      assert rest * t == SumInts(parts[1..]) as real * 100.0;
      assert (head + rest) * t == head * t + rest * t;
      assert SumInts(parts) == parts[0] + SumInts(parts[1..]);
    }
  }

  /** A non-zero factor cancels. */
  lemma CancelFactor(x: real, y: real, t: real)
    requires t != 0.0 && x * t == y * t
    ensures x == y
  {
    assert (x - y) * t == 0.0;
  }

  /** Shares of a non-zero total, taken over the parts that make it up,
      add up to 100. */
  lemma SharesSumTo100(parts: seq<int>, total: int)
    requires total != 0 && total == SumInts(parts)
    ensures SumFinite(SharePercents(parts, total)) == 100.0
  {
    var s := SumFinite(SharePercents(parts, total));
    var t := total as real;
    SharesScale(parts, total);
    assert s * t == 100.0 * t;
    CancelFactor(s, 100.0, t);
  }

  /** When there are expenses, the category percentages (before rounding)
      add up to 100. */
  lemma CategorySharesSumTo100(cats: seq<ExpenseCategory>)
    requires TotalExpenses(cats) != 0
    ensures SumFinite(SharePercents(CategoryTotals(cats), TotalExpenses(cats))) == 100.0
  {
    TotalIsSumOfCategories(cats);
    SharesSumTo100(CategoryTotals(cats), TotalExpenses(cats));
  }

  /** The totals of the records, in order. */
  function ItemTotals(items: seq<LedgerItem>): (r: seq<int>)
    ensures |r| == |items| && forall i :: 0 <= i < |items| ==> r[i] == items[i].total
  {
    seq(|items|, i requires 0 <= i < |items| => items[i].total)
  }

  /** `calculateTotal` is the plain sum of the records' totals. */
  lemma {:induction false} CalculateTotalIsSum(items: seq<LedgerItem>)
    ensures CalculateTotal(items) == SumInts(ItemTotals(items))
    decreases |items|
  {
    if |items| > 0 {
      CalculateTotalIsSum(items[1..]);
      assert ItemTotals(items)[1..] == ItemTotals(items[1..]);
    }
  }

  /** With income, the "% of total income" figures of the income records
      (before rounding) add up to 100. */
  lemma IncomeSharesSumTo100(income: seq<LedgerItem>)
    requires TotalIncome(income) != 0
    ensures SumFinite(SharePercents(ItemTotals(income), TotalIncome(income))) == 100.0
  {
    CalculateTotalIsSum(income);
    SharesSumTo100(ItemTotals(income), TotalIncome(income));
  }

  /** `Math.max(10, profitMargin / 2)`: the suggested reinvestment share. */
  function Reinvestment(margin: Num): (r: Num)
    ensures r.Finite? ==> r.v >= 10.0
    ensures margin.Finite? && margin.v >= 20.0 ==> r == Finite(margin.v / 2.0)
    ensures margin.Finite? && margin.v <= 20.0 ==> r == Finite(10.0)
    ensures r.NaN? <==> margin.NaN?
  {
    MaxWith(10.0, Scale(margin, 0.5))
  }

  /** The share is never below 10: it is NaN only when there is neither
      income nor profit (0 / 0), and +Infinity only for a profit without
      income. */
  lemma ReinvestmentNeverBelowTen(totalIncome: int, totalExpenses: int)
    ensures var r := Reinvestment(ProfitMargin(NetProfit(totalIncome, totalExpenses), totalIncome));
            && (r.Finite? ==> r.v >= 10.0)
            && !r.NegInf?
            && (r.NaN? <==> totalIncome == 0 && totalExpenses == 0)
            && (r.PosInf? <==> totalIncome == 0 && totalExpenses < 0)
  {
  }

  /** The shipped category totals: seeds 3350, fertilizers 19600, labor
      31800, transport 3850, others 12000. */
  lemma ShippedCategoryTotals()
    ensures CategoryTotals(CurrentSeason()) == [3350, 19600, 31800, 3850, 12000]
  {
    var c := CurrentSeason();
    assert CalculateTotal(c[0].items) == 3350;
    assert CalculateTotal(c[1].items) == 19600;
    assert CalculateTotal(c[2].items) == 31800;
    assert CalculateTotal(c[3].items) == 3850;
    assert CalculateTotal(c[4].items) == 12000;
  }

  /** The shipped ledger: expenses 70600, income 771000, net profit 700400,
      shown in the positive style. */
  lemma ShippedTotals()
    ensures TotalExpenses(CurrentSeason()) == 70600
    ensures TotalIncome(Income()) == 771000
    ensures NetProfit(TotalIncome(Income()), TotalExpenses(CurrentSeason())) == 700400
    ensures PositiveStyle(NetProfit(TotalIncome(Income()), TotalExpenses(CurrentSeason())))
  {
    TotalIsSumOfCategories(CurrentSeason());
    ShippedCategoryTotals();
    var t := [3350, 19600, 31800, 3850, 12000];
    assert SumInts(t) == 70600;
    assert CalculateTotal(Income()) == 771000;
  }

  /** A record field read as JavaScript truthiness: a missing field and the
      empty string are falsy. */
  predicate Truthy(s: Option<string>) {
    s.Some? && s.value != ""
  }

  /** A number field as the template literal prints it. */
  function FieldText(x: Option<int>): (r: string)
    ensures |r| > 0
  {
    match x
    case None => "undefined"
    case Some(n) => if n < 0 then "-" + Numeral(-n) else Numeral(n)
  }

  /** The Quantity cell: `item.quantity || `${item.workers} × ${item.days}d` || '-'`. */
  function QuantityCell(item: LedgerItem): (r: string)
    ensures r != ""
    ensures r == "-" ==> item.quantity == Some("-")
  {
    if Truthy(item.quantity) then item.quantity.value
    else
      var template := FieldText(item.workers) + " × " + FieldText(item.days) + "d";
      assert |template| >= 5;
      if template != "" then template else "-"
  }

  /** The template literal is never empty, so the '-' fallback is dead: a
      record without a quantity always shows "workers × days". */
  lemma QuantityDashUnreachable(item: LedgerItem)
    ensures !Truthy(item.quantity) ==>
              QuantityCell(item) == FieldText(item.workers) + " × " + FieldText(item.days) + "d"
    ensures !Truthy(item.quantity) ==> QuantityCell(item) != "-"
  {
    var template := FieldText(item.workers) + " × " + FieldText(item.days) + "d";
    assert |template| >= 5;
  }

  /** The Rate cell: `item.rate || '-'`. */
  function RateCell(item: LedgerItem): (r: string)
    ensures Truthy(item.rate) ==> r == item.rate.value
    ensures !Truthy(item.rate) ==> r == "-"
  {
    if Truthy(item.rate) then item.rate.value else "-"
  }

  /** The name cell: `item.item || item.activity || item.description`, empty
      when none is set. */
  function NameCell(item: LedgerItem): (r: string)
    ensures r != "" <==> Truthy(item.item) || Truthy(item.activity) || Truthy(item.description)
  {
    if Truthy(item.item) then item.item.value
    else if Truthy(item.activity) then item.activity.value
    else if Truthy(item.description) then item.description.value
    else ""
  }
}

=== FILE: jsnumber.dfy ===
/** JavaScript numbers as the ratio formulas produce them: a finite value,
    an infinity from dividing a non-zero amount by zero, or NaN from 0 / 0.
    Floating-point rounding is not modelled: finite values are reals. */
module JsNumber {

  datatype Num = Finite(v: real) | PosInf | NegInf | NaN

  /** `a / b` on JavaScript numbers. */
  function Div(a: real, b: real): (r: Num)
    ensures b != 0.0 ==> r.Finite? && r.v * b == a
    ensures b == 0.0 ==> (r.NaN? <==> a == 0.0) && (r.PosInf? <==> a > 0.0) && (r.NegInf? <==> a < 0.0)
  {
    if b != 0.0 then Finite(a / b)
    else if a > 0.0 then PosInf
    else if a < 0.0 then NegInf
    else NaN
  }

  /** `x * k` for a positive constant `k`. */
  function Scale(x: Num, k: real): (r: Num)
    requires k > 0.0
    ensures r.Finite? <==> x.Finite?
    ensures x.Finite? ==> r.v == x.v * k
    ensures !x.Finite? ==> r == x
  {
    match x
    case Finite(v) => Finite(v * k)
    case _ => x
  }

  /** `Math.max(lo, x)`: NaN wins, +Infinity wins, -Infinity loses. */
  function MaxWith(lo: real, x: Num): (r: Num)
    ensures r.NaN? <==> x.NaN?
    ensures r.Finite? ==> r.v >= lo && (r.v == lo || r == x)
    ensures !r.NegInf?
  {
    match x
    case Finite(v) => if v > lo then x else Finite(lo)
    case NegInf => Finite(lo)
    case _ => x
  }
}

=== FILE: options.dfy ===
/** The optional value the screens keep in state (`null` or a value). */
module Options {

  datatype Option<+T> = None | Some(value: T)
}

=== FILE: random.dfy ===
/** `Math.random()` draws. The model never generates randomness: each draw is
    a parameter `u` with 0 <= u < 1, the range `Math.random()` returns. */
module Random {

  /** A value `Math.random()` can return. */
  predicate IsUnit(u: real) {
    0.0 <= u < 1.0
  }

  /** `Math.floor(Math.random() * k) + c` when the draw is `u`: an integer in
      the `k` values starting at `c`. */
  function Draw(u: real, k: nat, c: int): (r: int)
    requires IsUnit(u) && k > 0
    ensures c <= r <= c + k - 1
  {
    UnitScales(u, k as real);
    (u * k as real).Floor + c
  }

  /** Scaling a unit draw by `k` lands in [0, k). */
  lemma UnitScales(u: real, k: real)
    requires IsUnit(u) && k > 0.0
    ensures 0.0 <= u * k < k
  {
    assert k - u * k == (1.0 - u) * k;
  }

  /** The draw that yields `n`. */
  function DrawFor(n: int, k: nat, c: int): real
    requires k > 0
  {
    (n - c) as real / k as real
  }

  /** Every integer in the range is produced by some draw, so the range of
      `Draw` is exactly [c, c + k - 1]. */
  lemma {:induction false} DrawReaches(n: int, k: nat, c: int)
    requires k > 0 && c <= n <= c + k - 1
    ensures IsUnit(DrawFor(n, k, c))
    ensures Draw(DrawFor(n, k, c), k, c) == n
  {
    var u := DrawFor(n, k, c);
    assert u * k as real == (n - c) as real;
    assert ((n - c) as real).Floor == n - c;
  }
}

=== FILE: sorting.dfy ===
/** `Array.prototype.sort((a, b) => key(b) - key(a))`: a stable sort into
    non-increasing order of a numeric key, written as insertion sort on
    sequences. Stability comes from inserting each element in front of the
    elements whose key equals its own. */
module Sorting {

  /** Keys never increase from left to right. */
  predicate SortedDesc<T>(s: seq<T>, key: T -> real) {
    forall i, j :: 0 <= i < j < |s| ==> key(s[i]) >= key(s[j])
  }

  /** Insert `x` before the first element whose key is at most `key(x)`. */
  function Insert<T(==)>(x: T, s: seq<T>, key: T -> real): (r: seq<T>)
    ensures multiset(r) == multiset(s) + multiset{x}
    ensures |r| == |s| + 1
    ensures |s| > 0 ==> r[0] == x || r[0] == s[0]
    decreases |s|
  {
    if |s| == 0 || key(s[0]) <= key(x) then [x] + s
    else
      assert s == [s[0]] + s[1..];
      [s[0]] + Insert(x, s[1..], key)
  }

  /** Inserting into a sorted sequence keeps it sorted. */
  lemma {:induction false} InsertSorted<T>(x: T, s: seq<T>, key: T -> real)
    requires SortedDesc(s, key)
    ensures SortedDesc(Insert(x, s, key), key)
    decreases |s|
  {
    if |s| == 0 || key(s[0]) <= key(x) {
      var r := [x] + s;
      forall i, j | 0 <= i < j < |r| ensures key(r[i]) >= key(r[j]) {
        if i > 0 {
          assert r[i] == s[i - 1] && r[j] == s[j - 1];
        } else {
          assert r[j] == s[j - 1];
          assert key(s[0]) >= key(s[j - 1]);
        }
      }
    } else {
      var t := Insert(x, s[1..], key);
      InsertSorted(x, s[1..], key);
      var r := [s[0]] + t;
      assert r == Insert(x, s, key);
      forall i, j | 0 <= i < j < |r| ensures key(r[i]) >= key(r[j]) {
        if i > 0 {
          assert r[i] == t[i - 1] && r[j] == t[j - 1];
        } else if |s| > 1 {
          assert t[0] == x || t[0] == s[1];
          assert key(s[0]) >= key(t[0]);
          assert r[j] == t[j - 1];
        }
      }
    }
  }

  /** The stable sort into non-increasing key order. */
  function SortDesc<T(==)>(s: seq<T>, key: T -> real): (r: seq<T>)
    ensures multiset(r) == multiset(s)
    ensures |r| == |s|
    decreases |s|
  {
    if |s| == 0 then []
    else
      assert s == [s[0]] + s[1..];
      Insert(s[0], SortDesc(s[1..], key), key)
  }

  /** One step of `Insert` when `x` goes in front. */
  lemma InsertHere<T>(x: T, s: seq<T>, key: T -> real)
    requires |s| == 0 || key(s[0]) <= key(x)
    ensures Insert(x, s, key) == [x] + s
  {
  }

  /** One step of `Insert` when `x` goes after the first element. */
  lemma InsertPast<T>(x: T, s: seq<T>, key: T -> real)
    requires |s| > 0 && key(s[0]) > key(x)
    ensures Insert(x, s, key) == [s[0]] + Insert(x, s[1..], key)
  {
  }

  /** One step of `SortDesc`. */
  lemma SortDescCons<T>(s: seq<T>, key: T -> real)
    requires |s| > 0
    ensures SortDesc(s, key) == Insert(s[0], SortDesc(s[1..], key), key)
  {
  }

  /** The sort's output is in non-increasing key order. */
  lemma {:induction false} SortDescSorted<T>(s: seq<T>, key: T -> real)
    ensures SortedDesc(SortDesc(s, key), key)
    decreases |s|
  {
    if |s| > 0 {
      SortDescSorted(s[1..], key);
      InsertSorted(s[0], SortDesc(s[1..], key), key);
    }
  }

  /** Dropping the first element keeps a sequence sorted. */
  lemma TailSorted<T>(s: seq<T>, key: T -> real)
    requires |s| > 0 && SortedDesc(s, key)
    ensures SortedDesc(s[1..], key)
  {
    var tail := s[1..];
    forall i, j | 0 <= i < j < |tail| ensures key(tail[i]) >= key(tail[j]) {
      assert tail[i] == s[i + 1] && tail[j] == s[j + 1];
    }
  }

  /** A sequence already in order is returned unchanged: the sort is stable
      on sorted input, which pins down its result on the shipped tables. */
  lemma {:induction false} SortDescOfSorted<T>(s: seq<T>, key: T -> real)
    requires SortedDesc(s, key)
    ensures SortDesc(s, key) == s
    decreases |s|
  {
    if |s| > 0 {
      var tail := s[1..];
      TailSorted(s, key);
      SortDescOfSorted(tail, key);
      SortDescCons(s, key);
      if |tail| > 0 {
        assert key(tail[0]) <= key(s[0]) by {
          assert tail[0] == s[1];
        }
      }
      InsertHere(s[0], tail, key);
      assert s == [s[0]] + tail;
    }
  }

  /** The elements of `s` whose key is `k`, in their order in `s`. */
  function WithKey<T>(s: seq<T>, key: T -> real, k: real): (r: seq<T>)
    ensures |r| <= |s|
    ensures forall i :: 0 <= i < |r| ==> key(r[i]) == k
    decreases |s|
  {
    if |s| == 0 then []
    else (if key(s[0]) == k then [s[0]] else []) + WithKey(s[1..], key, k)
  }

  /** `Insert` only steps past elements with a larger key, so among the
      elements of one key `x` lands in front and the others keep their
      order. */
  lemma {:induction false} InsertWithKey<T>(x: T, s: seq<T>, key: T -> real, k: real)
    ensures WithKey(Insert(x, s, key), key, k) ==
              (if key(x) == k then [x] else []) + WithKey(s, key, k)
    decreases |s|
  {
    if |s| == 0 || key(s[0]) <= key(x) {
      var r := [x] + s;
      assert r[0] == x && r[1..] == s;
    } else {
      var t := Insert(x, s[1..], key);
      InsertWithKey(x, s[1..], key, k);
      var r := [s[0]] + t;
      assert r == Insert(x, s, key);
      assert r[0] == s[0] && r[1..] == t;
    }
  }

  /** The sort is stable: the elements sharing any one key come out in
      the order they went in. */
  lemma {:induction false} SortDescStable<T>(s: seq<T>, key: T -> real, k: real)
    ensures WithKey(SortDesc(s, key), key, k) == WithKey(s, key, k)
    decreases |s|
  {
    if |s| > 0 {
      SortDescStable(s[1..], key, k);
      InsertWithKey(s[0], SortDesc(s[1..], key), key, k);
    }
  }

  /** Sorting three elements whose keys rank second, first, third. */
  lemma RankThree<T>(b: T, c: T, d: T, key: T -> real)
    requires key(d) < key(b) < key(c)
    ensures SortDesc([b, c, d], key) == [c, b, d]
  {
    assert [b, c, d][1..] == [c, d];
    assert [c, d][1..] == [d];
    assert [d][1..] == [];
    SortDescCons([d], key);
    InsertHere(d, [], key);
    SortDescCons([c, d], key);
    InsertHere(c, [d], key);
    SortDescCons([b, c, d], key);
    InsertPast(b, [c, d], key);
    InsertHere(b, [d], key);
  }

  /** Putting two elements in front of a pair. */
  lemma ConsTwo<T>(x: T, y: T, w: seq<T>)
    requires |w| == 2
    ensures [x] + ([y] + w) == [x, y, w[0], w[1]]
  {
  }

  /** Sorting four elements whose keys rank third, first, second, fourth. */
  lemma {:induction false} RankFour<T>(a: T, b: T, c: T, d: T, key: T -> real)
    requires key(d) < key(b) < key(a) < key(c)
    ensures SortDesc([a, b, c, d], key) == [c, a, b, d]
  {
    var t := [a, b, c, d];
    var u := [c, b, d];
    var w := [b, d];
    assert t[0] == a && t[1..] == [b, c, d];
    assert u[0] == c && u[1..] == w;
    RankThree(b, c, d, key);
    SortDescCons(t, key);
    InsertPast(a, u, key);
    InsertHere(a, w, key);
    ConsTwo(c, a, w);
  }

  /** A prefix holds no more of any element than the whole sequence. */
  lemma PrefixSubMultiset<T>(s: seq<T>, k: nat)
    requires k <= |s|
    ensures multiset(s[..k]) <= multiset(s)
  {
    assert s == s[..k] + s[k..];
    assert multiset(s) == multiset(s[..k]) + multiset(s[k..]);
  }

  /** A prefix of a sorted sequence is sorted. */
  lemma PrefixSorted<T>(s: seq<T>, key: T -> real, k: nat)
    requires SortedDesc(s, key) && k <= |s|
    ensures SortedDesc(s[..k], key)
  {
    forall i, j | 0 <= i < j < k ensures key(s[..k][i]) >= key(s[..k][j]) {
      assert s[..k][i] == s[i] && s[..k][j] == s[j];
    }
  }

  /** In a sorted sequence, every element after the first `k` has a key no
      larger than any of the first `k`: the first `k` are the top `k`. */
  lemma TopOfSorted<T>(s: seq<T>, key: T -> real, k: nat, y: T)
    requires SortedDesc(s, key) && k <= |s|
    requires y in multiset(s) - multiset(s[..k])
    ensures forall i :: 0 <= i < k ==> key(y) <= key(s[i])
  {
    assert s == s[..k] + s[k..];
    assert multiset(s) == multiset(s[..k]) + multiset(s[k..]);
    assert y in multiset(s[k..]);
    var j :| 0 <= j < |s[k..]| && s[k..][j] == y;
    assert s[k + j] == y;
  }

  /** `s.map(f)`. */
  function MapSeq<T, U>(s: seq<T>, f: T -> U): (r: seq<U>)
    ensures |r| == |s| && forall i :: 0 <= i < |s| ==> r[i] == f(s[i])
  {
    seq(|s|, i requires 0 <= i < |s| => f(s[i]))
  }

  /** Mapping distributes over concatenation. */
  lemma MapSeqConcat<T, U>(a: seq<T>, b: seq<T>, f: T -> U)
    ensures MapSeq(a + b, f) == MapSeq(a, f) + MapSeq(b, f)
  {
  }

  /** Mapping a permutation gives a permutation of the mapped sequence. */
  lemma {:induction false} MapSeqPermutation<T, U>(a: seq<T>, b: seq<T>, f: T -> U)
    requires multiset(a) == multiset(b)
    ensures multiset(MapSeq(a, f)) == multiset(MapSeq(b, f))
    decreases |a|
  {
    if |a| > 0 {
      var x := a[0];
      assert x in multiset(b);
      var j :| 0 <= j < |b| && b[j] == x;
      var rest := b[..j] + b[j + 1..];
      assert b == b[..j] + [x] + b[j + 1..];
      assert multiset(rest) == multiset(b) - multiset{x};
      assert a == [x] + a[1..];
      MapSeqPermutation(a[1..], rest, f);
      MapSeqConcat([x], a[1..], f);
      MapSeqConcat(b[..j] + [x], b[j + 1..], f);
      MapSeqConcat(b[..j], [x], f);
      MapSeqConcat(b[..j], b[j + 1..], f);
    } else {
      assert |b| == 0;
    }
  }
}

=== FILE: tables.dfy ===
/** The static reference data the calculators consume (the `assets` object of
    client/src/assets.js). Only the records the modelled operations read are
    included; each is a fixed input to the functions over it. */
module Tables {

  import opened Options

  /** One crop of a season's table. */
  datatype Crop = Crop(
    name: string,
    profitability: int,
    waterReq: string,
    duration: string,
    investment: string,
    expectedReturn: string)

  /** The three growing seasons, keyed in the table by lower-case names. */
  datatype Season = Kharif | Rabi | Zaid

  /** The key under which a season's crops are stored. */
  function SeasonKey(s: Season): string {
    match s
    case Kharif => "kharif"
    case Rabi => "rabi"
    case Zaid => "zaid"
  }

  /** `assets.crops[season]`. */
  function SeasonCrops(s: Season): seq<Crop> {
    match s
    case Kharif => [
      Crop("Rice", 85, "High", "120 days", "₹45,000/acre", "₹75,000/acre"),
      Crop("Cotton", 78, "Medium", "180 days", "₹35,000/acre", "₹62,000/acre"),
      Crop("Sugarcane", 92, "High", "365 days", "₹80,000/acre", "₹150,000/acre"),
      Crop("Maize", 70, "Medium", "90 days", "₹25,000/acre", "₹42,000/acre")]
    case Rabi => [
      Crop("Wheat", 88, "Medium", "150 days", "₹30,000/acre", "₹55,000/acre"),
      Crop("Barley", 65, "Low", "120 days", "₹20,000/acre", "₹33,000/acre"),
      Crop("Mustard", 75, "Low", "100 days", "₹15,000/acre", "₹26,000/acre"),
      Crop("Chickpea", 82, "Low", "110 days", "₹18,000/acre", "₹32,000/acre")]
    case Zaid => [
      Crop("Watermelon", 95, "High", "90 days", "₹40,000/acre", "₹78,000/acre"),
      Crop("Cucumber", 87, "Medium", "65 days", "₹25,000/acre", "₹47,000/acre"),
      Crop("Fodder", 60, "Medium", "45 days", "₹12,000/acre", "₹19,000/acre")]
  }

  /** One entry of `assets.marketPrices.today`. */
  datatype PriceQuote = PriceQuote(crop: string, price: int, market: string)

  function TodayPrices(): seq<PriceQuote> {
    [ PriceQuote("Rice", 2150, "Pune APMC"),
      PriceQuote("Wheat", 2450, "Mumbai APMC"),
      PriceQuote("Cotton", 6800, "Akola APMC"),
      PriceQuote("Soybean", 4200, "Indore APMC"),
      PriceQuote("Onion", 1800, "Nashik APMC"),
      PriceQuote("Tomato", 2500, "Pune APMC") ]
  }

  /** One entry of `assets.diseases`. */
  datatype Disease = Disease(
    id: int,
    name: string,
    crop: string,
    severity: string,
    treatment: string,
    recoveryTime: string)

  function Diseases(): seq<Disease> {
    [ Disease(1, "Leaf Blight", "Rice", "High",
        "Apply copper-based fungicide, improve drainage", "2-3 weeks"),
      Disease(2, "Powdery Mildew", "Tomato", "Medium",
        "Sulfur spray, neem oil application", "1-2 weeks"),
      Disease(3, "Root Rot", "Wheat", "Critical",
        "Soil treatment with fungicide, improve drainage", "3-4 weeks") ]
  }

  /** One entry of `assets.insurance.policies`. */
  datatype Policy = Policy(id: string, name: string, crop: string, coverage: string, premium: string)

  function Policies(): seq<Policy> {
    [ Policy("INS001", "Pradhan Mantri Fasal Bima Yojana", "Cotton", "₹50,000/acre", "₹2,500/acre"),
      Policy("INS002", "Weather Based Crop Insurance", "Wheat", "₹35,000/acre", "₹1,800/acre") ]
  }

  /** One entry of `assets.loans.eligibleLoans`. */
  datatype LoanOffer = LoanOffer(bank: string, kind: string, maxAmount: string, interestRate: string, processing: string)

  function EligibleLoans(): seq<LoanOffer> {
    [ LoanOffer("SBI", "Kisan Credit Card", "₹3,00,000", "7%", "₹500"),
      LoanOffer("HDFC Bank", "Farm Equipment Loan", "₹10,00,000", "9%", "₹2,000"),
      LoanOffer("NABARD", "Warehouse Receipt Loan", "₹2,50,000", "8%", "₹1,000") ]
  }

  /** `assets.loans.creditScore`: a constant, not computed from any input. */
  const CreditScore: int := 785

  /** `assets.farmProfile.farmSize`, in acres. */
  const FarmSize: real := 5.5

  /** One day of `assets.weather.forecast`. */
  datatype ForecastDay = ForecastDay(
    day: string,
    high: int,
    low: int,
    condition: string,
    rainfall: int,
    humidity: int,
    advice: string)

  function Forecast(): seq<ForecastDay> {
    [ ForecastDay("Today", 32, 22, "Sunny", 0, 60, "Perfect for harvesting"),
      ForecastDay("Tomorrow", 30, 20, "Partly Cloudy", 5, 70, "Good for spraying pesticides"),
      ForecastDay("Tuesday", 28, 18, "Rainy", 25, 85, "Postpone field activities"),
      ForecastDay("Wednesday", 31, 21, "Cloudy", 10, 75, "Moderate conditions"),
      ForecastDay("Thursday", 33, 23, "Sunny", 0, 55, "Excellent for harvesting"),
      ForecastDay("Friday", 29, 19, "Thunderstorm", 40, 90, "Stay indoors, secure crops"),
      ForecastDay("Saturday", 27, 17, "Partly Cloudy", 8, 68, "Good for planting") ]
  }

  /** A product of the shop catalogue. */
  datatype Product = Product(
    id: string,
    name: string,
    brand: string,
    price: int,
    unit: string,
    features: seq<string>)

  /** The shop's four categories, the keys of `assets.products`. */
  datatype Category = Seeds | Fertilizers | Pesticides | Tools

  function Products(c: Category): seq<Product> {
    match c
    case Seeds => [
      Product("S001", "Cotton Seeds BT-Cotton", "Mahyco", 850, "per kg", ["High Yield", "Pest Resistant", "Early Maturity"]),
      Product("S002", "Wheat Seeds HD-2967", "IARI", 45, "per kg", ["Disease Resistant", "High Protein", "Dwarf Variety"]),
      Product("S003", "Tomato Seeds Arka Rakshak", "IIHR", 2500, "per 100g", ["Hybrid", "Disease Resistant", "High Yield"])]
    case Fertilizers => [
      Product("F001", "Urea 46% N", "IFFCO", 600, "per 50kg bag", ["Quick Release", "High Nitrogen", "Water Soluble"]),
      Product("F002", "DAP 18:46:0", "KRIBHCO", 1250, "per 50kg bag", ["Phosphorus Rich", "Starter Fertilizer", "Granulated"]),
      Product("F003", "Potash MOP", "IPL", 850, "per 50kg bag", ["60% K2O", "Chloride Free", "Water Soluble"])]
    case Pesticides => [
      Product("P001", "Imidacloprid 17.8% SL", "Bayer", 320, "per 250ml", ["Systemic", "Long Duration", "Broad Spectrum"]),
      Product("P002", "Chlorpyrifos 20% EC", "Dow Chemicals", 280, "per 500ml", ["Contact Action", "Soil Application", "Persistent"]),
      Product("P003", "Neem Oil", "Organic", 180, "per liter", ["Organic", "Safe", "Multiple Pests"])]
    case Tools => [
      Product("T001", "Knapsack Sprayer", "Venus", 1850, "per piece", ["16L Capacity", "Brass Lance", "Pressure Control"]),
      Product("T002", "Garden Hand Tools Set", "Falcon", 650, "per set", ["5 Tools", "Ergonomic", "Rust Resistant"]),
      Product("T003", "Soil pH Meter", "HM Digital", 1200, "per piece", ["Digital Display", "Waterproof", "Auto Calibration"])]
  }

  /** One expense or income record. A field the record does not have is
      `None`; `item`, `activity` and `description` name the record. */
  datatype LedgerItem = LedgerItem(
    item: Option<string>,
    activity: Option<string>,
    description: Option<string>,
    quantity: Option<string>,
    workers: Option<int>,
    days: Option<int>,
    rate: Option<string>,
    total: int,
    date: string)

  function Bought(item: string, quantity: string, rate: string, total: int, date: string): LedgerItem {
    LedgerItem(Some(item), None, None, Some(quantity), None, None, Some(rate), total, date)
  }

  function Hired(activity: string, workers: int, days: int, rate: string, total: int, date: string): LedgerItem {
    LedgerItem(None, Some(activity), None, None, Some(workers), Some(days), Some(rate), total, date)
  }

  /** An expense category: its key in `assets.expenses.currentSeason` and its items. */
  datatype ExpenseCategory = ExpenseCategory(name: string, items: seq<LedgerItem>)

  /** `assets.expenses.currentSeason`, in the order of its keys. */
  function CurrentSeason(): seq<ExpenseCategory> {
    [ ExpenseCategory("seeds", [
        Bought("Cotton Seeds", "2 kg", "₹800/kg", 1600, "2024-06-15"),
        Bought("Wheat Seeds", "50 kg", "₹35/kg", 1750, "2024-11-10")]),
      ExpenseCategory("fertilizers", [
        Bought("Urea", "10 bags", "₹600/bag", 6000, "2024-07-01"),
        Bought("DAP", "8 bags", "₹1200/bag", 9600, "2024-07-01"),
        Bought("Potash", "5 bags", "₹800/bag", 4000, "2024-07-15")]),
      ExpenseCategory("labor", [
        Hired("Sowing", 8, 3, "₹350/day", 8400, "2024-06-20"),
        Hired("Weeding", 6, 2, "₹350/day", 4200, "2024-08-15"),
        Hired("Harvesting", 12, 4, "₹400/day", 19200, "2024-11-05")]),
      ExpenseCategory("transport", [
        Bought("Fertilizer Transport", "23 bags", "₹50/bag", 1150, "2024-07-01"),
        Bought("Crop Transport", "180 quintals", "₹15/quintal", 2700, "2024-11-10")]),
      ExpenseCategory("others", [
        LedgerItem(Some("Fuel"), None, Some("Tractor fuel"), None, None, None, None, 8500, "2024-10-15"),
        LedgerItem(Some("Equipment Rent"), None, Some("Thresher rent"), None, None, None, None, 3500, "2024-11-05")]) ]
  }

  /** `assets.expenses.income`; the crop sold, the record's `crop` field,
      is kept in `item`. */
  function Income(): seq<LedgerItem> {
    [ Bought("Cotton", "85 quintals", "₹6500/quintal", 552500, "2024-11-10"),
      Bought("Wheat", "95 quintals", "₹2300/quintal", 218500, "2024-04-15") ]
  }
}

=== FILE: text.dfy ===
/** String operations the screens rely on: JavaScript's `toLowerCase` (on
    ASCII letters), `includes`, `startsWith` and the emptiness test after
    `trim`. Strings are sequences of characters. */
module Text {

  /** Lower-case one character: ASCII 'A'..'Z' become 'a'..'z'. */
  function LowerChar(c: char): char {
    if 'A' <= c <= 'Z' then (c as int + 32) as char else c
  }

  /** `s.toLowerCase()` restricted to ASCII letters. */
  function Lower(s: string): (r: string)
    ensures |r| == |s|
    ensures forall i :: 0 <= i < |s| ==> r[i] == LowerChar(s[i])
  {
    seq(|s|, i requires 0 <= i < |s| => LowerChar(s[i]))
  }

  /** True when `s` contains no upper-case ASCII letter. */
  predicate IsLower(s: string) {
    forall i :: 0 <= i < |s| ==> !('A' <= s[i] <= 'Z')
  }

  /** Lower-casing yields a lower-case string and changes nothing in one. */
  lemma LowerIsLower(s: string)
    ensures IsLower(Lower(s))
    ensures IsLower(s) ==> Lower(s) == s
  {
  }

  /** Lower-casing twice is lower-casing once. */
  lemma LowerIdempotent(s: string)
    ensures Lower(Lower(s)) == Lower(s)
  {
    LowerIsLower(s);
  }

  /** `s.startsWith(p)`. */
  predicate StartsWith(s: string, p: string) {
    |p| <= |s| && s[..|p|] == p
  }

  /** `sub` occurs in `s` at position `i`. */
  predicate OccursAt(s: string, sub: string, i: int) {
    0 <= i && i + |sub| <= |s| && s[i..i + |sub|] == sub
  }

  /** `s.includes(sub)`: scan `s` from the left for a prefix equal to `sub`. */
  function Contains(s: string, sub: string): bool
    decreases |s|
  {
    StartsWith(s, sub) || (|s| > 0 && Contains(s[1..], sub))
  }

  /** The scan finds `sub` exactly when `sub` occurs somewhere in `s`. */
  lemma {:induction false} ContainsIffOccurs(s: string, sub: string)
    ensures Contains(s, sub) <==> exists i :: OccursAt(s, sub, i)
    decreases |s|
  {
    if StartsWith(s, sub) {
      assert OccursAt(s, sub, 0);
    } else if |s| == 0 {
      assert |sub| > 0;
    } else {
      ContainsIffOccurs(s[1..], sub);
      if Contains(s[1..], sub) {
        var i :| OccursAt(s[1..], sub, i);
        assert s[1..][i..i + |sub|] == s[i + 1..i + 1 + |sub|];
        assert OccursAt(s, sub, i + 1);
      }
      if i :| OccursAt(s, sub, i) {
        if |sub| <= |s| {
          assert s[..|sub|] == s[0..|sub|];
        }
        assert i > 0;
        assert s[1..][i - 1..i - 1 + |sub|] == s[i..i + |sub|];
        assert OccursAt(s[1..], sub, i - 1);
      }
    }
  }

  /** Every string contains the empty string. */
  lemma ContainsEmpty(s: string)
    ensures Contains(s, "")
  {
    assert StartsWith(s, "");
  }

  /** A string missing one of `sub`'s characters cannot contain `sub`. */
  lemma {:induction false} MissingCharNotContained(s: string, sub: string, c: char)
    requires c in sub && c !in s
    ensures !Contains(s, sub)
    decreases |s|
  {
    var k :| 0 <= k < |sub| && sub[k] == c;
    if |sub| <= |s| {
      assert s[k] in s;
      assert s[..|sub|][k] == s[k];
    }
    assert !StartsWith(s, sub);
    if |s| > 0 {
      assert forall x :: x in s[1..] ==> x in s;
      MissingCharNotContained(s[1..], sub, c);
    }
  }

  /** A string that contains `sub` also contains it after lower-casing both,
      so case-insensitive matching accepts every case-sensitive match. */
  lemma {:induction false} ContainsLower(s: string, sub: string)
    requires Contains(s, sub)
    ensures Contains(Lower(s), Lower(sub))
  {
    ContainsIffOccurs(s, sub);
    var i :| OccursAt(s, sub, i);
    assert Lower(s)[i..i + |sub|] == Lower(sub);
    assert OccursAt(Lower(s), Lower(sub), i);
    ContainsIffOccurs(Lower(s), Lower(sub));
  }

  /** The characters `String.prototype.trim` removes: JavaScript's white space
      and line terminators. */
  predicate IsSpace(c: char) {
    || c == ' ' || c == '\t' || c == '\n' || c == '\r'
    || c == '\U{000B}' || c == '\U{000C}' || c == '\U{00A0}' || c == '\U{FEFF}'
    || c == '\U{1680}' || ('\U{2000}' <= c <= '\U{200A}')
    || c == '\U{2028}' || c == '\U{2029}' || c == '\U{202F}' || c == '\U{205F}'
    || c == '\U{3000}'
  }

  /** `s.trimStart()`. */
  function TrimStart(s: string): string
    decreases |s|
  {
    if |s| > 0 && IsSpace(s[0]) then TrimStart(s[1..]) else s
  }

  /** `s.trimEnd()`. */
  function TrimEnd(s: string): string
    decreases |s|
  {
    if |s| > 0 && IsSpace(s[|s| - 1]) then TrimEnd(s[..|s| - 1]) else s
  }

  /** `s.trim()`. */
  function Trim(s: string): string {
    TrimEnd(TrimStart(s))
  }

  /** Every character of `s` is white space. */
  predicate IsBlank(s: string) {
    forall i :: 0 <= i < |s| ==> IsSpace(s[i])
  }

  lemma {:induction false} TrimStartEmptyIffBlank(s: string)
    ensures TrimStart(s) == "" <==> IsBlank(s)
    ensures TrimStart(s) != "" ==> !IsSpace(TrimStart(s)[0])
    decreases |s|
  {
    if |s| > 0 && IsSpace(s[0]) {
      TrimStartEmptyIffBlank(s[1..]);
      assert IsBlank(s) <==> IsBlank(s[1..]) by {
        if IsBlank(s[1..]) {
          forall i | 0 <= i < |s| ensures IsSpace(s[i]) {
            if i > 0 { assert s[i] == s[1..][i - 1]; }
          }
        }
      }
    } else if |s| > 0 {
      assert !IsSpace(s[0]);
    }
  }

  lemma {:induction false} TrimEndKeepsNonBlank(s: string)
    requires !IsBlank(s)
    ensures TrimEnd(s) != ""
    decreases |s|
  {
    if |s| > 0 && IsSpace(s[|s| - 1]) {
      var t := s[..|s| - 1];
      assert !IsBlank(t) by {
        var i :| 0 <= i < |s| && !IsSpace(s[i]);
        assert i < |s| - 1;
        assert t[i] == s[i];
      }
      TrimEndKeepsNonBlank(t);
    }
  }

  /** `!s.trim()` holds exactly for the strings made only of white space,
      the empty string among them. */
  lemma {:induction false} TrimEmptyIffBlank(s: string)
    ensures Trim(s) == "" <==> IsBlank(s)
  {
    TrimStartEmptyIffBlank(s);
    if IsBlank(s) {
      assert TrimStart(s) == "";
    } else {
      assert !IsSpace(TrimStart(s)[0]);
      TrimEndKeepsNonBlank(TrimStart(s));
    }
  }

  /** A decimal digit. */
  predicate IsDigit(c: char) {
    '0' <= c <= '9'
  }

  predicate AllDigits(s: string) {
    forall i :: 0 <= i < |s| ==> IsDigit(s[i])
  }

  /** The value of a string of decimal digits. */
  function DecimalValue(s: string): (r: nat)
    requires AllDigits(s)
    decreases |s|
  {
    if |s| == 0 then 0
    else DecimalValue(s[..|s| - 1]) * 10 + (s[|s| - 1] as int - '0' as int)
  }

  /** `String(n)`: the decimal numeral of `n`, without leading zeros. */
  function Numeral(n: nat): (r: string)
    ensures |r| > 0 && AllDigits(r)
    ensures (r[0] == '0') <==> n == 0
    decreases n
  {
    if n < 10 then [('0' as int + n) as char]
    else Numeral(n / 10) + [('0' as int + n % 10) as char]
  }

  /** The value of a numeral is its number. */
  lemma {:induction false} NumeralValue(n: nat)
    ensures DecimalValue(Numeral(n)) == n
    decreases n
  {
    if n >= 10 {
      NumeralValue(n / 10);
      var s := Numeral(n);
      assert s[..|s| - 1] == Numeral(n / 10);
    }
  }

  /** A digit string has nothing to trim. */
  lemma DigitsUntrimmed(s: string)
    requires |s| > 0 && AllDigits(s)
    ensures Trim(s) == s
  {
    assert !IsSpace(s[0]) && !IsSpace(s[|s| - 1]);
  }
}

=== FILE: weather_forecast.dfy ===
/** The weather screen (client/src/components/WeatherForecast.jsx): the icon
    and background chosen for a sky condition, the colour of the farming
    advice, the rain, humidity and temperature notes of the detail panel,
    and the selected day of the seven-day forecast. */
module WeatherForecast {

  import opened Text
  import opened Tables

  /** The icons `getWeatherIcon` chooses from. */
  datatype Icon = Sun | Cloud | CloudRain | Zap | CloudSnow

  /** The backgrounds `getWeatherGradient` chooses from, named by their colours. */
  datatype Gradient = YellowOrange | BlueCyan | GraySlate | BlueIndigo | PurpleIndigo

  /** The sky conditions the icon switch knows, lower-cased. */
  predicate KnownCondition(k: string) {
    k == "sunny" || k == "partly cloudy" || k == "cloudy" || k == "rainy"
    || k == "thunderstorm" || k == "snow"
  }

  /** `getWeatherIcon`: a switch on the lower-cased condition, the sun by default. */
  function WeatherIcon(condition: string): (r: Icon)
    ensures r == Sun <==> Lower(condition) == "sunny" || !KnownCondition(Lower(condition))
    ensures r == Cloud <==> Lower(condition) == "partly cloudy" || Lower(condition) == "cloudy"
    ensures r == CloudRain <==> Lower(condition) == "rainy"
    ensures r == Zap <==> Lower(condition) == "thunderstorm"
    ensures r == CloudSnow <==> Lower(condition) == "snow"
  {
    var k := Lower(condition);
    if k == "sunny" then Sun
    else if k == "partly cloudy" then Cloud
    else if k == "cloudy" then Cloud
    else if k == "rainy" then CloudRain
    else if k == "thunderstorm" then Zap
    else if k == "snow" then CloudSnow
    else Sun
  }

  /** `getWeatherGradient`: the same switch without a snow case; anything
      else, snow included, gets the blue-to-cyan default. */
  function WeatherGradient(condition: string): (r: Gradient)
    ensures r == YellowOrange <==> Lower(condition) == "sunny"
    ensures r == GraySlate <==> Lower(condition) == "cloudy"
    ensures r == BlueIndigo <==> Lower(condition) == "rainy"
    ensures r == PurpleIndigo <==> Lower(condition) == "thunderstorm"
    ensures r == BlueCyan <==>
              Lower(condition) == "partly cloudy" || Lower(condition) == "snow" || !KnownCondition(Lower(condition))
  {
    var k := Lower(condition);
    if k == "sunny" then YellowOrange
    else if k == "partly cloudy" then BlueCyan
    else if k == "cloudy" then GraySlate
    else if k == "rainy" then BlueIndigo
    else if k == "thunderstorm" then PurpleIndigo
    else BlueCyan
  }

  /** Both switches read only the lower-cased condition, so letter case
      never changes the icon or the background. */
  lemma ConditionCaseIgnored(condition: string)
    ensures WeatherIcon(Lower(condition)) == WeatherIcon(condition)
    ensures WeatherGradient(Lower(condition)) == WeatherGradient(condition)
  {
    LowerIdempotent(condition);
  }

  /** The two switches agree except on snow and on partly cloudy: there the
      background is the default one while the icon is not the default sun;
      every other condition with a non-default background has its own icon. */
  lemma IconAndGradientAgree(condition: string)
    ensures WeatherGradient(condition) == BlueCyan && WeatherIcon(condition) != Sun
            <==> Lower(condition) == "snow" || Lower(condition) == "partly cloudy"
    ensures WeatherGradient(condition) != BlueCyan ==> WeatherIcon(condition) != CloudSnow
  {
  }

  /** The colour classes of the advice box. */
  datatype AdviceColor = Green | Blue | Red | Yellow

  /** The advice praises the day: the first test of `farmingAdviceColor`. */
  predicate Praises(advice: string) {
    Contains(advice, "Perfect") || Contains(advice, "Excellent")
  }

  /** The advice warns against field work: the third test. */
  predicate Warns(advice: string) {
    Contains(advice, "Postpone") || Contains(advice, "Stay indoors")
  }

  /** `farmingAdviceColor`: a case-sensitive `includes` chain, the first
      test that passes wins, so praise outranks "Good" and "Good" outranks
      a warning. */
  function FarmingAdviceColor(advice: string): (r: AdviceColor)
    ensures r == Green <==> Praises(advice)
    ensures r == Blue <==> !Praises(advice) && Contains(advice, "Good")
    ensures r == Red <==> !Praises(advice) && !Contains(advice, "Good") && Warns(advice)
    ensures r == Yellow <==> !Praises(advice) && !Contains(advice, "Good") && !Warns(advice)
  {
    if Contains(advice, "Perfect") || Contains(advice, "Excellent") then Green
    else if Contains(advice, "Good") then Blue
    else if Contains(advice, "Postpone") || Contains(advice, "Stay indoors") then Red
    else Yellow
  }

  /** Advice that opens with a word of praise is green. */
  lemma PraiseIsGreen(advice: string, word: string)
    requires word == "Perfect" || word == "Excellent"
    requires |word| <= |advice| && advice[..|word|] == word
    ensures FarmingAdviceColor(advice) == Green
  {
    assert StartsWith(advice, word);
  }

  /** Advice that opens with "Good" and has no capital P or E is blue. */
  lemma GoodIsBlue(advice: string)
    requires |advice| >= 4 && advice[..4] == "Good"
    requires forall k :: 0 <= k < |advice| ==> advice[k] != 'P' && advice[k] != 'E'
    ensures FarmingAdviceColor(advice) == Blue
  {
    assert StartsWith(advice, "Good");
    MissingCharNotContained(advice, "Perfect", 'P');
    MissingCharNotContained(advice, "Excellent", 'E');
  }

  /** Advice that opens with a warning, lacks one letter of "Perfect" and has
      no capital E or G is red. */
  lemma WarningIsRed(advice: string, word: string, c: char)
    requires word == "Postpone" || word == "Stay indoors"
    requires |word| <= |advice| && advice[..|word|] == word
    requires c in "Perfect"
    requires forall k :: 0 <= k < |advice| ==> advice[k] != c && advice[k] != 'E' && advice[k] != 'G'
    ensures FarmingAdviceColor(advice) == Red
  {
    assert StartsWith(advice, word);
    MissingCharNotContained(advice, "Perfect", c);
    MissingCharNotContained(advice, "Excellent", 'E');
    MissingCharNotContained(advice, "Good", 'G');
  }

  /** Advice without a capital P, E, G or S is yellow. */
  lemma NoKeywordIsYellow(advice: string)
    requires forall k :: 0 <= k < |advice| ==>
               advice[k] != 'P' && advice[k] != 'E' && advice[k] != 'G' && advice[k] != 'S'
    ensures FarmingAdviceColor(advice) == Yellow
  {
    assert 'P' in "Perfect" && 'E' in "Excellent" && 'G' in "Good";
    assert 'P' in "Postpone" && 'S' in "Stay indoors";
    MissingCharNotContained(advice, "Perfect", 'P');
    MissingCharNotContained(advice, "Excellent", 'E');
    MissingCharNotContained(advice, "Good", 'G');
    MissingCharNotContained(advice, "Postpone", 'P');
    MissingCharNotContained(advice, "Stay indoors", 'S');
  }

  /** Lower-casing removes every capital letter. */
  lemma LowerHasNoCapital(s: string, c: char)
    requires 'A' <= c <= 'Z'
    ensures c !in Lower(s)
  {
  }

  /** The match is case-sensitive: every keyword starts with a capital, so
      advice written in lower case is always shown in yellow. */
  lemma LowerCaseAdviceIsYellow(advice: string)
    requires Lower(advice) == advice
    ensures FarmingAdviceColor(advice) == Yellow
  {
    LowerHasNoCapital(advice, 'P');
    LowerHasNoCapital(advice, 'E');
    LowerHasNoCapital(advice, 'G');
    LowerHasNoCapital(advice, 'S');
    NoKeywordIsYellow(advice);
  }

  /** The first recommendation of the detail panel, by the day's rainfall in mm. */
  datatype RainNote = HeavyRainAlert | LightRain | ClearWeather

  function RainBand(rainfall: int): (r: RainNote)
    ensures r == HeavyRainAlert <==> rainfall > 20
    ensures r == LightRain <==> 5 < rainfall <= 20
    ensures r == ClearWeather <==> rainfall <= 5
  {
    if rainfall > 20 then HeavyRainAlert
    else if rainfall > 5 then LightRain
    else ClearWeather
  }

  /** How much rain a note stands for, for comparing notes. */
  function RainRank(n: RainNote): nat {
    match n
    case ClearWeather => 0
    case LightRain => 1
    case HeavyRainAlert => 2
  }

  /** More rain never gives a milder note. */
  lemma RainBandMonotone(a: int, b: int)
    requires a <= b
    ensures RainRank(RainBand(a)) <= RainRank(RainBand(b))
  {
  }

  /** The high-humidity note, shown above 80 percent. */
  predicate HumidityAlert(humidity: int) {
    humidity > 80
  }

  /** The temperature remark of the crop-management note. */
  datatype TemperatureLabel = HighTemperature | LowTemperature | OptimalTemperature

  /** The remark reads the day's high only; the low is printed but never tested. */
  function TemperatureRemark(high: int, low: int): (r: TemperatureLabel)
    ensures r == HighTemperature <==> high > 35
    ensures r == LowTemperature <==> high < 15
    ensures r == OptimalTemperature <==> 15 <= high <= 35
  {
    if high > 35 then HighTemperature
    else if high < 15 then LowTemperature
    else OptimalTemperature
  }

  /** Two days with the same high get the same remark whatever their lows. */
  lemma RemarkIgnoresLow(high: int, low1: int, low2: int)
    ensures TemperatureRemark(high, low1) == TemperatureRemark(high, low2)
  {
  }

  /** The notes of the detail panel for one forecast day. */
  datatype DayNotes = DayNotes(
    color: AdviceColor,
    rain: RainNote,
    humidity: bool,
    temperature: TemperatureLabel)

  function Notes(d: ForecastDay): (r: DayNotes)
    ensures r.color == Green <==> Praises(d.advice)
    ensures r.color == Blue <==> !Praises(d.advice) && Contains(d.advice, "Good")
    ensures r.color == Red <==> !Praises(d.advice) && !Contains(d.advice, "Good") && Warns(d.advice)
    ensures r.rain == HeavyRainAlert <==> d.rainfall > 20
    ensures r.rain == LightRain <==> 5 < d.rainfall <= 20
    ensures r.humidity <==> d.humidity > 80
    ensures r.temperature == HighTemperature <==> d.high > 35
    ensures r.temperature == LowTemperature <==> d.high < 15
  {
    DayNotes(FarmingAdviceColor(d.advice), RainBand(d.rainfall), HumidityAlert(d.humidity),
             TemperatureRemark(d.high, d.low))
  }

  /** The rainfall, humidity and high of each shipped forecast day. */
  lemma ShippedWeekFields()
    ensures |Forecast()| == 7
    ensures forall i :: 0 <= i < 7 ==>
              Forecast()[i].rainfall == [0, 5, 25, 10, 0, 40, 8][i]
              && Forecast()[i].humidity == [60, 70, 85, 75, 55, 90, 68][i]
              && 27 <= Forecast()[i].high <= 33
  {
  }

  /** The two shipped words of praise. */
  lemma ShippedGreenAdvice(a: string)
    requires a == "Perfect for harvesting" || a == "Excellent for harvesting"
    ensures FarmingAdviceColor(a) == Green
  {
    if a == "Perfect for harvesting" {
      PraiseIsGreen(a, "Perfect");
    } else {
      PraiseIsGreen(a, "Excellent");
    }
  }

  /** The two shipped "Good" days. */
  lemma ShippedBlueAdvice(a: string)
    requires a == "Good for spraying pesticides" || a == "Good for planting"
    ensures FarmingAdviceColor(a) == Blue
  {
    GoodIsBlue(a);
  }

  /** The two shipped warnings; "Postpone" lacks the r of "Perfect". */
  lemma ShippedRedAdvice(a: string)
    requires a == "Postpone field activities" || a == "Stay indoors, secure crops"
    ensures FarmingAdviceColor(a) == Red
  {
    if a == "Postpone field activities" {
      WarningIsRed(a, "Postpone", 'r');
    } else {
      WarningIsRed(a, "Stay indoors", 'P');
    }
  }

  /** The advice colour of each shipped day, one day at a time. */
  lemma Day0Color() ensures |Forecast()| == 7 && Notes(Forecast()[0]).color == Green {
    ShippedGreenAdvice(Forecast()[0].advice);
  }
  lemma Day1Color() ensures |Forecast()| == 7 && Notes(Forecast()[1]).color == Blue {
    ShippedBlueAdvice(Forecast()[1].advice);
  }
  lemma Day2Color() ensures |Forecast()| == 7 && Notes(Forecast()[2]).color == Red {
    ShippedRedAdvice(Forecast()[2].advice);
  }
  lemma Day3Color() ensures |Forecast()| == 7 && Notes(Forecast()[3]).color == Yellow {
    NoKeywordIsYellow(Forecast()[3].advice);
  }
  lemma Day4Color() ensures |Forecast()| == 7 && Notes(Forecast()[4]).color == Green {
    ShippedGreenAdvice(Forecast()[4].advice);
  }
  lemma Day5Color() ensures |Forecast()| == 7 && Notes(Forecast()[5]).color == Red {
    ShippedRedAdvice(Forecast()[5].advice);
  }
  lemma Day6Color() ensures |Forecast()| == 7 && Notes(Forecast()[6]).color == Blue {
    ShippedBlueAdvice(Forecast()[6].advice);
  }

  /** The advice boxes of the shipped week: green, blue, red, yellow, green,
      red, blue. */
  lemma ShippedWeekColors()
    ensures |Forecast()| == 7
    ensures Notes(Forecast()[0]).color == Green && Notes(Forecast()[1]).color == Blue
    ensures Notes(Forecast()[2]).color == Red && Notes(Forecast()[3]).color == Yellow
    ensures Notes(Forecast()[4]).color == Green && Notes(Forecast()[5]).color == Red
    ensures Notes(Forecast()[6]).color == Blue
  {
    Day0Color(); Day1Color(); Day2Color(); Day3Color(); Day4Color(); Day5Color(); Day6Color();
  }

  /** The red advice boxes of the shipped week are on the third and sixth
      days only. */
  lemma ShippedRedDays()
    ensures |Forecast()| == 7
    ensures forall i :: 0 <= i < 7 ==> (Notes(Forecast()[i]).color == Red <==> i == 2 || i == 5)
  {
    ShippedWeekColors();
    RedDaysOf(Forecast());
  }

  lemma RedDaysOf(week: seq<ForecastDay>)
    requires |week| == 7
    requires Notes(week[0]).color == Green && Notes(week[1]).color == Blue
    requires Notes(week[2]).color == Red && Notes(week[3]).color == Yellow
    requires Notes(week[4]).color == Green && Notes(week[5]).color == Red
    requires Notes(week[6]).color == Blue
    ensures forall i :: 0 <= i < 7 ==> (Notes(week[i]).color == Red <==> i == 2 || i == 5)
  {
  }

  /** The shipped week: heavy rain on the third and sixth days, light rain on
      the fourth and seventh only (the second day's 5 mm is "clear"), humidity
      alerts on exactly the heavy-rain days, and an optimal temperature every
      day. */
  lemma ShippedWeekNotes()
    ensures |Forecast()| == 7
    ensures forall i :: 0 <= i < 7 ==> (Notes(Forecast()[i]).rain == HeavyRainAlert <==> i == 2 || i == 5)
    ensures forall i :: 0 <= i < 7 ==> (Notes(Forecast()[i]).rain == LightRain <==> i == 3 || i == 6)
    ensures forall i :: 0 <= i < 7 ==> (Notes(Forecast()[i]).humidity <==> i == 2 || i == 5)
    ensures forall i :: 0 <= i < 7 ==> Notes(Forecast()[i]).temperature == OptimalTemperature
  {
    var f := Forecast();
    var rain := [0, 5, 25, 10, 0, 40, 8];
    var humidity := [60, 70, 85, 75, 55, 90, 68];
    ShippedWeekFields();
    forall i | 0 <= i < 7
      ensures Notes(f[i]).rain == RainBand(rain[i])
      ensures Notes(f[i]).humidity == (humidity[i] > 80)
      ensures Notes(f[i]).temperature == OptimalTemperature
    {
    }
  }

  /** On any shipped day the temperature is optimal, and the red advice box,
      the heavy-rain alert and the humidity alert come together. */
  lemma ShippedDayNotes(i: int)
    requires 0 <= i < |Forecast()|
    ensures Notes(Forecast()[i]).temperature == OptimalTemperature
    ensures Notes(Forecast()[i]).rain == HeavyRainAlert <==> Notes(Forecast()[i]).humidity
    ensures Notes(Forecast()[i]).color == Red <==> Notes(Forecast()[i]).rain == HeavyRainAlert
  {
    ShippedWeekNotes();
    ShippedRedDays();
  }

  /** The forecast screen's state: the index of the selected day. */
  datatype WeatherScreen = WeatherScreen(activeDay: int)

  /** The selected day is one of the rendered cards. */
  predicate ValidScreen(st: WeatherScreen) {
    0 <= st.activeDay < |Forecast()|
  }

  /** The screen as first shown: `useState(0)`. */
  function InitialScreen(): (r: WeatherScreen)
    ensures ValidScreen(r)
  {
    WeatherScreen(0)
  }

  /** A click on a day card: the handler of the card at `index` sets the
      selection to that index. Only the rendered cards carry the handler. */
  function ClickDay(st: WeatherScreen, index: int): (r: WeatherScreen)
    requires 0 <= index < |Forecast()|
    ensures ValidScreen(r) && r.activeDay == index
  {
    st.(activeDay := index)
  }

  /** A run of clicks, each on a rendered card. */
  function ClickAll(st: WeatherScreen, clicks: seq<int>): WeatherScreen
    requires forall k :: 0 <= k < |clicks| ==> 0 <= clicks[k] < |Forecast()|
    decreases |clicks|
  {
    if |clicks| == 0 then st else ClickAll(ClickDay(st, clicks[0]), clicks[1..])
  }

  /** Whatever the clicks, the selected day stays a valid index, so the
      detail panel's `forecast[activeDay]` always exists; after at least one
      click it is the last card clicked. */
  lemma {:induction false} ClicksKeepValid(clicks: seq<int>)
    requires forall k :: 0 <= k < |clicks| ==> 0 <= clicks[k] < |Forecast()|
    ensures ValidScreen(ClickAll(InitialScreen(), clicks))
    ensures |clicks| > 0 ==> ClickAll(InitialScreen(), clicks).activeDay == clicks[|clicks| - 1]
  {
    ClickAllFrom(InitialScreen(), clicks);
  }

  lemma {:induction false} ClickAllFrom(st: WeatherScreen, clicks: seq<int>)
    requires ValidScreen(st)
    requires forall k :: 0 <= k < |clicks| ==> 0 <= clicks[k] < |Forecast()|
    ensures ValidScreen(ClickAll(st, clicks))
    ensures |clicks| == 0 ==> ClickAll(st, clicks) == st
    ensures |clicks| > 0 ==> ClickAll(st, clicks).activeDay == clicks[|clicks| - 1]
    decreases |clicks|
  {
    if |clicks| > 0 {
      var rest := clicks[1..];
      assert forall k :: 0 <= k < |rest| ==> rest[k] == clicks[k + 1];
      ClickAllFrom(ClickDay(st, clicks[0]), rest);
      if |rest| > 0 {
        assert rest[|rest| - 1] == clicks[|clicks| - 1];
      }
    }
  }

  /** The detail panel of the selected day. On the shipped week whatever day
      is selected the temperature is optimal, and the red advice box, the
      heavy-rain alert and the humidity alert come together. */
  function ActiveNotes(st: WeatherScreen): (r: DayNotes)
    requires ValidScreen(st)
    ensures r.temperature == OptimalTemperature
    ensures r.rain == HeavyRainAlert <==> r.humidity
    ensures r.color == Red <==> r.rain == HeavyRainAlert
  {
    ShippedDayNotes(st.activeDay);
    Notes(Forecast()[st.activeDay])
  }

  /** The panel shows the notes of the last card clicked, and of the first
      day before any click. */
  lemma {:induction false} PanelShowsLastClick(clicks: seq<int>)
    requires forall k :: 0 <= k < |clicks| ==> 0 <= clicks[k] < |Forecast()|
    ensures ValidScreen(ClickAll(InitialScreen(), clicks))
    ensures |clicks| > 0 ==> ActiveNotes(ClickAll(InitialScreen(), clicks)) == Notes(Forecast()[clicks[|clicks| - 1]])
    ensures |clicks| == 0 ==> ActiveNotes(ClickAll(InitialScreen(), clicks)) == Notes(Forecast()[0])
  {
    ClicksKeepValid(clicks);
  }
}
